=== FILE: README.md ===
# SoundVault core in Dafny

SoundVault is a sound library. A Django REST backend stores sounds, tags,
comments and favourites. A React front end browses the library, signs users
in, and lets staff upload sounds and manage tags. This project models the
decision logic of both halves as pure Dafny functions over immutable data and
proves properties about them.

Client side (`frontend/src`):

- `lib/api.ts`, module `Api`: the base address, the header merge and response
  handling of `apiRequest`, the requests each façade operation builds, list
  normalisation, and favourite extraction. The upload path is modelled next to
  `apiRequest` to show where it departs from it.
- `contexts/AuthContext.tsx`, module `Session`: the session as a state machine
  over the three `localStorage` keys, the signed-in user and the loading flag.
  It covers bootstrap (`loadUser`), `login`, `register`, `logout` and
  `refreshAuth`.
- `pages/Index.tsx`, module `IndexPage`: the favourites filter, the choice of
  list and the tag list of the filter bar.
- `pages/Admin.tsx`, module `AdminPage`: the tag list, the upload guard and
  form, the name-to-id resolution of typed tags, and the tag-creation guard.

Server side (`backend`):

- `sounds/auth_views.py`, module `AuthViews`, over the user table of
  `Accounts`: `register`, `login`, `logout` and `me`.
- `sounds/models.py`, module `Models`: the tables, their keys, length limits
  and links, the cascades of `delete()`, the default orderings and the
  `__str__` renderings.
- `sounds/serializers.py`, module `Serializers`: media URLs, the computed
  fields, comment validation, and sound create and update.
- `sounds/views.py`, module `Views`: permissions, serializer choice, the query
  sets, and the comment, favourite, tag and sound endpoints.
- `soundvault_backend/middleware.py`, module `Middleware`: the security
  headers added to every response.

Shared modules:

- `Wrappers` holds `Option` and `Result`.
- `Js` models JavaScript values and truthiness.
- `Text` holds strings, JavaScript `trim` and Python `strip` (which disagree
  on which characters are white space), case folding, splitting and decimal
  rendering.
- `Seqs` holds order-preserving filters, sorting and key lookup.

The outside world enters as parameters:

- the server's reply to each request;
- `JSON.parse` and `JSON.stringify`;
- the password hasher and the token issuer and validator;
- `build_absolute_uri` and the storage URL;
- the database's conversion of a query parameter to an integer;
- the comment sanitiser;
- the clock.

The requester of a server endpoint is an input. `None` is the anonymous user.

Three behaviours of the code as written shape the model:

- settings.py assigns `REST_FRAMEWORK` a second time (line 319). This drops
  pagination and JWT authentication, so list endpoints answer bare arrays and
  an anonymous refusal is a 403.
- `login`'s "User account is disabled." branch can never be reached, because
  `authenticate` already refuses inactive users (`AuthViews.DisabledBranchUnreachable`).
- `CommentSerializer.validate_content` calls `bleach`, which the module never
  imports, so every non-blank comment is a server error.

## Model

| member | source | states |
|---|---|---|
| Api.BaseUrl | frontend/src/lib/api.ts:3-5 | The base address is a prefix of the trimmed configured value (or of the default). What is cut off is slashes only, and the result never ends in `/`. |
| Api.BaseUrlKeepsPrefix | frontend/src/lib/api.ts:3-5 | Any prefix of the trimmed value that is followed by a non-slash character survives in the base address. |
| Api.DefaultBaseUrlUnchanged | frontend/src/lib/api.ts:3-5 | Without configuration the client uses `http://localhost:8000/api` as it is. |
| Api.RequestHeaders | frontend/src/lib/api.ts:67-77 | The headers are the caller's plus `Content-Type`, plus `Authorization` exactly when a token is stored. A caller's `Content-Type` wins; a stored token yields `Bearer <token>`; every other caller header is kept. |
| Api.BearerIffToken | frontend/src/lib/api.ts:67-77 | With no caller headers, `Authorization` is sent if and only if a token is stored. |
| Api.LoginVariantsDifferOnlyInKey | frontend/src/lib/api.ts:120-135 | Both login calls post to `/auth/login/` with the password. They differ only in whether the identifier goes under `username` or `email`. |
| Api.RegisterRequest | frontend/src/lib/api.ts:113-118 | Registration posts to `/auth/register/` a body with exactly the keys `username`, `email` and `password`, each carrying the value given. |
| Api.LoginRequest | frontend/src/lib/api.ts:120-128 | The username login posts to `/auth/login/` a body with exactly `username` (the identifier as typed) and `password`. |
| Api.LoginWithEmailRequest | frontend/src/lib/api.ts:130-135 | The email login posts to `/auth/login/` a body with exactly `email` and `password`. |
| Api.LogoutRequest | frontend/src/lib/api.ts:137-142 | Logout posts the refresh token, and nothing else, under `refresh` to `/auth/logout/`. |
| Api.MeRequest | frontend/src/lib/api.ts:144-146 | `me` is a GET of `/auth/me/` with no body. |
| Api.RefreshRequest | frontend/src/lib/api.ts:148-153 | A refresh posts the refresh token, and nothing else, under `refresh` to `/auth/token/refresh/`. |
| Api.SoundsListParams | frontend/src/lib/api.ts:158-162 | One parameter per given filter, `tag` before `search`, each carrying its value. |
| Api.SoundsListPath | frontend/src/lib/api.ts:158-165 | The path is `/sounds/` exactly when neither filter is given. Otherwise it starts with `/sounds/?`. |
| Api.ErrorFor | frontend/src/lib/api.ts:84-87 | An unparseable error body raises "An error occurred"; a JSON `null` body raises a TypeError. A truthy `error` field is raised as it is; otherwise `detail` when truthy, else "HTTP error! status: <n>". The raised message is always truthy. |
| Api.ApiRequest | frontend/src/lib/api.ts:63-109 | The call throws exactly when the response is not ok, and then throws `ErrorFor`. A 204, a non-JSON, a blank or an unparseable success resolves to `null`. Any other JSON success resolves to the parsed body. |
| Api.NonJsonErrorBody | frontend/src/lib/api.ts:84-87 | A failed response whose body does not parse always raises the fallback message. |
| Api.UploadDivergesFromApiRequest | frontend/src/lib/api.ts:171-187 | Without a token the upload sends `Bearer null` where `apiRequest` sends no header. On an empty 204 the upload throws a SyntaxError where `apiRequest` returns `null`. |
| Api.UploadHeaders | frontend/src/lib/api.ts:172-177 | The upload sends only an `Authorization` header: `Bearer <token>` when a token is stored and `Bearer null` otherwise. No `Content-Type` is set, so the browser supplies the multipart boundary. |
| Api.UploadHeadersAgreeWithToken | frontend/src/lib/api.ts:171-177 | With a token stored, the upload and `apiRequest` send the same `Authorization` value; only `apiRequest` adds `Content-Type`. |
| Api.UploadOutcome | frontend/src/lib/api.ts:181-186 | A failed response raises the same message as `apiRequest`. A success whose body does not parse throws a SyntaxError. Any other success resolves to the parsed body. |
| Api.UploadAgreesWithApiRequest | frontend/src/lib/api.ts:171-187 | On every failed response, and on every non-204 JSON success with a non-blank body that parses, the upload and `apiRequest` give the same outcome. |
| Api.Unwrap | frontend/src/lib/api.ts:216-225 | An array passes through. A non-array without `results`, or with a falsy `results`, becomes `[]`. A truthy `results` is returned as it is, whatever it holds. |
| Api.UnwrapEnvelopeRoundTrip | frontend/src/lib/api.ts:216-225 | A bare list and the same list in a pagination envelope both normalise to that list. |
| Api.ExtractSounds | frontend/src/lib/api.ts:275-277 | Extraction succeeds exactly when reading a field of every record succeeds (no `null` or `undefined` record); otherwise it throws a TypeError. It never grows the list, and every extracted sound is present. |
| Api.ExtractOne | frontend/src/lib/api.ts:275-277 | One record yields its `sound_detail`, or else its `sound`, when that is present, and nothing otherwise. |
| Api.ExtractSoundsAppend | frontend/src/lib/api.ts:275-277 | Extraction distributes over concatenation, so sounds keep the order of their records. |
| Api.FavoritesList | frontend/src/lib/api.ts:263-278 | An array reply, or an envelope whose `results` is an array, is extracted record by record. A reply without `results`, or with a falsy one, gives an empty list. A truthy `results` that is not an array throws a TypeError. |
| Api.FavoritesDropMissingSound | frontend/src/lib/api.ts:263-278 | Three records, one of them without a sound, give exactly the two present sounds in order. |
| Session.LoadUser | frontend/src/contexts/AuthContext.tsx:35-80 | Bootstrap always ends with loading off and never throws. Without both a stored user and an access token it only turns loading off and sends nothing. An unparseable stored user clears all three keys. With a stored user that parses and an access token, a successful `me` signs in the stored user with the store unchanged. A failed `me` with a refresh token signs in the stored user with only the access token replaced when the refresh succeeds, and clears all three keys when it fails. A failed `me` without a refresh token removes the access token and the user. Consistency is preserved. |
| Session.LoginRoute | frontend/src/contexts/AuthContext.tsx:84-87 | Login always posts to `/auth/login/` with the password. The identifier goes under `email` exactly when it contains `@`, and under `username` exactly when it does not. |
| Session.LoginRoutingScenario | frontend/src/contexts/AuthContext.tsx:84-87 | `alice@example.com` takes the email variant and `alice` takes the username variant. |
| Session.LoginReachesServerIdentifier | frontend/src/contexts/AuthContext.tsx:84-87 | Whichever variant is chosen, the server reads back the identifier as typed (`username or email`) and the password. |
| Session.Login | frontend/src/contexts/AuthContext.tsx:82-108 | Login sends exactly one request. On success both tokens and the serialised user are stored and the user is signed in. On failure the state is unchanged and the error is rethrown. Consistency is preserved. |
| Session.LoginThenReload | frontend/src/contexts/AuthContext.tsx:35-108 | After a successful login, reloading the page with a working access token signs the same user in again, with the store as login left it. |
| Session.Register | frontend/src/contexts/AuthContext.tsx:110-133 | Register has the same contract as login, sent to the registration endpoint. |
| Session.Logout | frontend/src/contexts/AuthContext.tsx:135-155 | Afterwards none of the three keys is stored and nobody is signed in. At most one request is sent, and one is sent exactly when a refresh token was stored, carrying that token. |
| Session.LogoutIdempotent | frontend/src/contexts/AuthContext.tsx:135-155 | Logging out twice leaves the same state as once, and the second logout sends nothing. |
| Session.RefreshAuth | frontend/src/contexts/AuthContext.tsx:157-171 | A refresh succeeds exactly when a refresh token is stored and the server answers. Success replaces only the access token. Failure signs out and rethrows, with "No refresh token" when none is stored. Consistency is preserved. |
| Session.RefreshKeepsIdentity | frontend/src/contexts/AuthContext.tsx:157-171 | A successful refresh keeps the refresh token, the stored user and the signed-in user. |
| Session.BootstrapRefreshScenario | frontend/src/contexts/AuthContext.tsx:41-76 | A rejected access token plus a good refresh token stays signed in, with the new access token stored. |
| Session.BootstrapNoRefreshScenario | frontend/src/contexts/AuthContext.tsx:41-76 | A rejected access token without a refresh token signs out and empties the store. |
| Accounts.FindByUsername | backend/sounds/auth_views.py:33-37 | A row is found exactly when the username is taken, and the row found carries that username. |
| Accounts.WithEmail | backend/sounds/auth_views.py:39-43 | The rows returned all carry the email, every row with that email is returned, and the result is empty exactly when the email is not taken. |
| Accounts.UniqueEmailMatchesAtMostOne | backend/sounds/auth_views.py:94-97 | With distinct emails, an email lookup returns at most one row. |
| Accounts.Authenticate | backend/sounds/auth_views.py:97-99 | A user is returned only when it is that username's row, it is active, and its secret matches the password. When the username exists and none is returned, the row is inactive or the password is wrong. |
| Accounts.NormalizeEmail | backend/sounds/auth_views.py:45-49 | The address is stripped of white space. When it has an `@`, the part after the last `@` is lower-cased and the part before it is kept as it is. An address without `@` is stored exactly as given, without stripping. |
| Accounts.NormalizeEmailIdempotent | backend/sounds/auth_views.py:45-49 | Normalising a stored address again changes nothing. |
| AuthViews.Register | backend/sounds/auth_views.py:23-64 | Missing fields give 400 "Username, email, and password are required."; a taken username gives 400 "Username already exists.". The answer is 201 exactly when all fields are given and neither the username nor the address as sent is taken. Then exactly one row is appended and answered with its view and tokens. Otherwise the answer is 400 and the table is unchanged. |
| AuthViews.RegisterNormalized | backend/sounds/auth_views.py:39-49 | Registration with the email check made on the normalised address. It answers 201 exactly when the address that will be stored is free, and it keeps the table well formed (distinct ids, usernames and emails). |
| AuthViews.RegisterNormalizedRefusesTaken | backend/sounds/auth_views.py:39-43 | The corrected check answers 400 "Email already exists." when the normalised address is taken. |
| AuthViews.RegisterNormalizedRefusesExample | backend/sounds/auth_views.py:39-43 | The corrected check refuses `bob` registering `a@X.com` next to `a@x.com`. |
| AuthViews.RegisterAcceptsDuplicate | backend/sounds/auth_views.py:39-49 | As written, an address whose normalised form is taken is accepted with 201. Two rows then share an email, and logging in with it is a server error. |
| AuthViews.RegisterDuplicatesExample | backend/sounds/auth_views.py:39-49 | Concretely, `bob` registering `a@X.com` next to `alice`'s `a@x.com` gets 201, and logging in as `a@x.com` then fails with a 500. |
| AuthViews.Login | backend/sounds/auth_views.py:83-128 | A missing identifier or password gives 400. A 500 happens exactly for an `@` identifier matching several rows. For an identifier without `@`, the answer is 200 exactly when `authenticate` accepts it; for an `@` identifier, exactly when one row has that email and `authenticate` accepts its username. Every other answer is 401 "Invalid credentials.". A 200 always answers for an active row whose secret matches, with that username for a plain identifier, and with that email for an `@` identifier when usernames are unique. |
| AuthViews.LoginRefusedIffNoActiveMatch | backend/sounds/auth_views.py:97-107 | With unique usernames, a plain username and a password are refused with 401 "Invalid credentials." exactly when no active row has that username and that password's hash. |
| AuthViews.DisabledBranchUnreachable | backend/sounds/auth_views.py:109-113 | No input ever yields "User account is disabled.". |
| AuthViews.InactiveAccountRefused | backend/sounds/auth_views.py:97-107 | An inactive user with the right password gets 401 "Invalid credentials.". |
| AuthViews.LoginByUsername | backend/sounds/auth_views.py:98-128 | An active row logs in with its username (when it has no `@`) and its password. |
| AuthViews.LoginByEmail | backend/sounds/auth_views.py:94-128 | An active row with a unique email logs in with that email and its password. |
| AuthViews.RegisterThenLogin | backend/sounds/auth_views.py:23-128 | After a corrected registration, logging in with the username (when it has no `@`), or with the stored email (when it has an `@`), answers 200 for the new row. |
| AuthViews.AtInUsernameTakesEmailPath | backend/sounds/auth_views.py:94-104 | A username containing `@` is always looked up as an email, so it gets 401 unless some row has that email. |
| AuthViews.Logout | backend/sounds/auth_views.py:141-160 | Anonymous requests are refused and a missing token gives 400. The answer is 200 exactly when the token is valid and not yet blacklisted; the token is then blacklisted, and otherwise the blacklist is unchanged. |
| AuthViews.LogoutTwice | backend/sounds/auth_views.py:141-160 | The same refresh token is accepted once. A second logout with it gives 400 "Invalid token." and changes nothing. |
| AuthViews.LogoutIgnoresRequester | backend/sounds/auth_views.py:141-160 | The outcome does not depend on which signed-in user asks. |
| AuthViews.Me | backend/sounds/auth_views.py:170-175 | Anonymous requests are refused. Otherwise the answer is 200 with the requester's id, username, email and staff flag. |
| Models.DeleteSound | backend/sounds/models.py:37-52 | The sound is gone, and so are its comments and favourites. Users and tags are unchanged. Every other sound, comment and favourite is kept, and every remaining row was already in the table. |
| Models.DeleteSoundValid | backend/sounds/models.py:8-57 | Deleting a sound keeps keys unique, lengths within limits and every link pointing at an existing row. |
| Models.SurvivorKeepsSound | backend/sounds/models.py:37-52 | A sound other than the deleted one survives. |
| Models.DeleteUser | backend/sounds/models.py:23-52 | The user is gone, and so are their uploads and every comment and favourite by them or on their uploads. Tags are unchanged. Every other user, sound, comment and favourite is kept, and nothing new appears. |
| Models.DeleteUserValid | backend/sounds/models.py:23-52 | Deleting a user keeps the database valid, including the comments and favourites of removed sounds. |
| Models.DeleteTag | backend/sounds/models.py:26 | The tag and its links are gone. Every sound stays, with only that tag removed from its set. Every other tag is kept, and the other tables are unchanged. |
| Models.DeleteTagValid | backend/sounds/models.py:8-26 | Deleting a tag keeps the database valid. |
| Models.NewestFirst | backend/sounds/models.py:32 | The result is a permutation of the rows, ordered by decreasing creation time. |
| Models.TagsByName | backend/sounds/models.py:14 | The result is a permutation of the tags, ordered by the collation of their names. |
| Models.TagLabel | backend/sounds/models.py:10-11 | A tag renders as its name. |
| Models.TagLabelsDistinct | backend/sounds/models.py:8-11 | Since tag names are unique, no two tags render alike. |
| Models.SoundLabel | backend/sounds/models.py:28-29 | A sound renders as its name. |
| Models.CommentLabel | backend/sounds/models.py:42-43 | A comment renders as its author's username, then ` - `, then its sound's name, and nothing else. |
| Models.CommentLabelDeterminesParts | backend/sounds/models.py:42-43 | When usernames contain no space, two equal comment labels have the same author's username and the same sound name. |
| Models.FavoriteLabel | backend/sounds/models.py:59-60 | A favourite renders as its user's username, then ` favorited `, then its sound's name, and nothing else. |
| Models.FavoriteLabelDeterminesParts | backend/sounds/models.py:59-60 | When usernames contain no space, two equal favourite labels have the same username and the same sound name. |
| Serializers.ConfiguredBaseUrl | backend/soundvault_backend/settings.py:162-164 | A non-empty `BASE_URL` always ends in `/`. An empty one stays empty. |
| Serializers.BaseUrlSlashRoundTrip | backend/sounds/serializers.py:48-50 | The serializer's `rstrip('/')` undoes the slash that settings.py appended. |
| Serializers.MediaUrl | backend/sounds/serializers.py:36-70 | No URL for an empty file field. Without a request the URL is the storage URL, behind `BASE_URL` stripped of trailing slashes when one is set. With a request, an `http://` URL behind a TLS proxy or with DEBUG off becomes `https://` followed by the rest of the URL, in which every later `http://` is rewritten too; when the rest holds no `http://`, it is kept as it is. Otherwise the absolute URL is served as it is. |
| Serializers.UpgradeRewritesScheme | backend/sounds/serializers.py:43-46 | The upgrade also rewrites every later `http://` in the URL. |
| Serializers.UpgradeKeepsRest | backend/sounds/serializers.py:43-46 | When nothing after the scheme is `http://`, the upgrade changes only the scheme and keeps host and path. |
| Serializers.DebugKeepsHttp | backend/sounds/serializers.py:98-109 | With DEBUG on and no TLS proxy, the absolute URL is served unchanged. |
| Serializers.DetailComments | backend/sounds/serializers.py:140-142 | The detail shows at most ten comments, all of that sound, newest first. |
| Serializers.DetailCommentsAreMostRecent | backend/sounds/serializers.py:140-142 | A comment of the sound that is not shown implies ten shown, none older than it. |
| Serializers.IsFavorite | backend/sounds/serializers.py:72-76 | Without a signed-in requester the sound is never a favourite. Otherwise it is one exactly when some favourite links the requester to it. |
| Serializers.FavoriteCount | backend/sounds/serializers.py:144-145 | The count never exceeds the number of favourites, and is zero exactly when no favourite points at the sound. |
| Serializers.FavoriteCountAppend | backend/sounds/serializers.py:144-145 | Saving one more favourite raises the count of its own sound by one and leaves every other count alone. |
| Serializers.CheckComment | backend/sounds/serializers.py:148-165 | Content holding a null character is refused (400) before `validate_content` runs. Otherwise validation raises exactly when `bleach` is unbound and the content is non-blank. An accepted sound exists. Accepted content is the sanitised, stripped text, and absent fields stay absent. A full create without both fields is never accepted. |
| Serializers.CreateSound | backend/sounds/serializers.py:199-205 | Exactly one sound is appended, with a fresh id, uploaded by the requester, with the given name, file and tag set. The other tables are unchanged. |
| Serializers.CreateSoundValid | backend/sounds/serializers.py:199-205 | A sound by an existing user, with existing tags and a name of at most 200 characters, keeps the database valid. |
| Serializers.CreateEmptyTagsIsNoTags | backend/sounds/serializers.py:200-204 | For a new sound, an empty tag list and an absent one give the same row. |
| Serializers.UpdateSound | backend/sounds/serializers.py:207-214 | Every given field is overwritten and every absent field kept. The tag set is replaced only when tags are given (an empty list clears it). Id, uploader and creation time stay, and the update time becomes now. |
| Serializers.UpdateSoundIdempotent | backend/sounds/serializers.py:207-214 | Applying the same update twice equals applying it once. |
| Views.AdminWrites | backend/sounds/views.py:36-44 | For every requester, an action on sounds or tags is permitted exactly when it does not write or the requester is staff. |
| Views.CommentPermission | backend/sounds/views.py:105-112 | A comment action is permitted exactly when it does not write or the requester is signed in. |
| Views.SoundSerializerFor | backend/sounds/views.py:27-34 | The detail serializer is chosen exactly for retrieve, and the write serializer exactly for create and the updates. The list serializer covers everything else. |
| Views.SoundsQuery | backend/sounds/views.py:46-63 | The result holds exactly the sounds that the `tag` and `search` parameters select, newest first, and each row at most as often as the table holds it. |
| Views.SoundsList | backend/sounds/views.py:22-25 | The listed sounds are a selection from the query set. |
| Views.SearchBackendRedundant | backend/sounds/views.py:22-63 | When every search term is a substring of the search, the search backend removes nothing beyond the query set. |
| Views.CommentsList | backend/sounds/views.py:114-119 | A 500 happens exactly when the `sound` parameter is given and is not an integer. Otherwise the list holds exactly the comments of that sound (or all comments), newest first. |
| Views.CreateComment | backend/sounds/views.py:121-122 | Anonymous requests get 403. The answer is 201 exactly for a signed-in user whose payload validates; exactly one comment is then appended, by the requester, with the sanitised content. Otherwise nothing changes. |
| Views.CreateCommentAsWritten | backend/sounds/serializers.py:163-165 | As written, creating a comment never succeeds, and non-blank content without null characters from a signed-in user is a 500. |
| Views.CreateCommentSanitized | backend/sounds/views.py:121-122 | With a sanitiser in scope, a signed-in user's non-blank comment without null characters on an existing sound is saved with 201, cleaned, under their name. |
| Views.CreateCommentNullRefused | backend/sounds/models.py:39 | Content holding a null character is refused with 400, and the table is unchanged, whatever the sanitiser; DRF's text field rejects it before `validate_content` is reached. |
| Views.CreateCommentValid | backend/sounds/views.py:121-122 | Creating a comment keeps the database valid. |
| Views.UpdateComment | backend/sounds/views.py:124-128 | Anonymous requests get 403, and a missing comment 404. A comment by someone else gives 400 "You can only edit your own comments.". The answer is 200 exactly when the requester is signed in, the comment exists, the payload validates, and the requester wrote the comment. Only that comment changes, keeping its id, author and creation time, and taking the validated sound and content where given. Otherwise nothing changes. |
| Views.OthersCommentsUntouched | backend/sounds/views.py:124-128 | An update of another user's comment never answers 200 and never changes the database. |
| Views.DestroyComment | backend/sounds/views.py:130-134 | Anonymous requests get 403, and a missing comment 404. A comment by someone else gives 400 "You can only delete your own comments.". The answer is 204 exactly when the comment exists and the requester wrote it; every comment with that id is then removed and every other comment kept. Otherwise nothing changes. |
| Views.FavoritesList | backend/sounds/views.py:147-148 | Anonymous requests fail. Otherwise the list holds exactly the requester's favourites, newest first. |
| Views.AddFavorite | backend/sounds/views.py:150-161 | Anonymous requests get 403. The answer is 201 exactly when the sound exists and is not yet a favourite of the requester; an existing favourite gives 400 "Sound is already in favorites.". On 201 one favourite of the requester is appended. |
| Views.AddFavoriteValid | backend/sounds/models.py:56 | Adding a favourite keeps the database valid, including one favourite per user and sound. |
| Views.RemoveFavorite | backend/sounds/views.py:163-181 | Anonymous requests get 403, and a missing `sound` gives 400 "Sound ID is required.". A `sound` that is not an integer is a 500. Otherwise the answer is 404 "Favorite not found." exactly when the requester has no favourite of that sound, 204 exactly when they have one, and 500 when they have several. Anything but 204 leaves the database unchanged. A 204 removes exactly the requester's favourite of that sound. |
| Views.RemoveNeverAmbiguous | backend/sounds/views.py:173-181 | With unique (user, sound) pairs, the only 500 of `remove` is a malformed parameter. |
| Views.FavoriteRoundTrip | backend/sounds/views.py:150-181 | Adding a favourite and removing it by the sound's id answers 201 then 204, and the database is back where it started. |
| Views.AddFavoriteShowsInSerializer | backend/sounds/views.py:150-161 | After a 201, the sound serializes as a favourite of the requester, and its favourite count has grown by one. |
| Views.RemoveFavoriteClearsSerializer | backend/sounds/views.py:163-181 | After a 204, the sound no longer serializes as a favourite of the requester. |
| Views.DestroyFavorite | backend/sounds/views.py:147-148 | A favourite is deleted (204) exactly when it belongs to the requester. Otherwise nothing changes. |
| Views.CreateTag | backend/sounds/views.py:83-91 | Non-staff requests get 403. A name that is blank after stripping gives 400 "This field may not be blank.", and one holding a null character gives 400 "Null characters are not allowed.". The answer is 201 exactly for a staff user with a name that is non-blank after stripping, free of null characters, at most 50 characters and not taken; one tag is then appended. Otherwise nothing changes, and validity is preserved. |
| Views.DestroyTag | backend/sounds/views.py:83-91 | The answer is 204 exactly for a staff user and an existing tag, and the tag is then deleted with its links. Otherwise nothing changes, and validity is preserved. |
| Views.DestroySound | backend/sounds/views.py:36-44 | The answer is 204 exactly for a staff user and an existing sound, and the sound is then deleted with its comments and favourites. Otherwise nothing changes. |
| Middleware.SetDefault | backend/soundvault_backend/middleware.py:29 | The header is present afterwards, keeping an existing value. No other header changes. |
| Middleware.Secure | backend/soundvault_backend/middleware.py:15-29 | Existing headers keep their values, and only the four managed headers can be added. `X-Content-Type-Options` is always present (`nosniff` unless already set). Each policy header is present exactly when it was already or its setting is non-empty, and takes the setting when added. |
| Middleware.SecureIdempotent | backend/soundvault_backend/middleware.py:15-29 | Applying the middleware twice equals applying it once. |
| Middleware.DefaultsSetAllFour | backend/soundvault_backend/settings.py:173-189 | Under the default settings every response leaves with all four headers. |
| Middleware.ViewHeadersWin | backend/soundvault_backend/middleware.py:15-29 | A header the view set itself is never overwritten. |
| IndexPage.FavoritesShown | frontend/src/pages/Index.tsx:38-43 | The shown favourites are exactly the favourites whose name contains the search ignoring case (or the search is empty) and which carry the selected tag by exact name (or none is selected). |
| IndexPage.NoFiltersShowAll | frontend/src/pages/Index.tsx:38-43 | With no search and no tag, every favourite is shown unchanged. |
| IndexPage.FavoritesShownAppend | frontend/src/pages/Index.tsx:38 | The filter distributes over any split of the list, so the result is an order-preserving subsequence. |
| IndexPage.FavoritesShownIdempotent | frontend/src/pages/Index.tsx:38-43 | Filtering the shown favourites again changes nothing. |
| IndexPage.ResultsOrEmpty | frontend/src/pages/Index.tsx:45 | As written, the page shows an envelope's truthy `results`, and `[]` for a reply without `results`. |
| IndexPage.BareListShowsNothing | frontend/src/pages/Index.tsx:44-46 | As written, a bare array of sounds shows as an empty list. |
| IndexPage.SoundsOf | frontend/src/pages/Index.tsx:44-46 | The corrected list passes an array through, and takes an envelope's `results` otherwise. Anything else gives `[]`. |
| IndexPage.SoundsOfShowsServerList | frontend/src/pages/Index.tsx:44-46 | The corrected list shows the server's sounds whether they come bare or paginated. |
| IndexPage.SoundsOfAgreesOnEnvelopes | frontend/src/pages/Index.tsx:44-46 | On a paginated reply the corrected and the written list agree. |
| IndexPage.Displayed | frontend/src/pages/Index.tsx:34-46 | Favourites are shown exactly when the toggle is on and the user is signed in, and then exactly the favourites that pass the filter appear. Otherwise, as written, a bare array reply shows as `[]`, an envelope's truthy `results` is shown, and a reply without `results` shows `[]`. |
| IndexPage.DisplayedCorrected | frontend/src/pages/Index.tsx:34-46 | The same choice with the list normalised: a bare array reply is shown as it is, and the favourites side is unchanged. |
| IndexPage.DisplayedDiffersOnlyOnBareLists | frontend/src/pages/Index.tsx:34-46 | The written and the corrected page differ exactly when the sound list is shown and the server sent a non-empty bare array. |
| IndexPage.TagList | frontend/src/pages/Index.tsx:56-63 | An array is kept. An object whose `results` is an array gives those results. Anything else gives `[]`. |
| IndexPage.TagListOfListedTags | frontend/src/pages/Index.tsx:56-63 | Fed what `tagsAPI.list` returns for either reply shape, the filter bar offers exactly the server's tags. |
| AdminPage.AdminTagList | frontend/src/pages/Admin.tsx:57-62 | An array is kept, and any value that is neither an array nor carries an array of `results` gives `[]`. |
| AdminPage.Pieces | frontend/src/pages/Admin.tsx:183 | No piece is empty. A field without the separator gives its trimmed text as the one piece, or nothing when that is blank. |
| AdminPage.PiecesAppendField | frontend/src/pages/Admin.tsx:183 | Appending a separator and another field appends that field's pieces, so pieces keep the order of the typed names. |
| AdminPage.PiecesLackSeparator | frontend/src/pages/Admin.tsx:183 | No piece contains the separator. |
| AdminPage.FirstNamed | frontend/src/pages/Admin.tsx:186 | The lookup finds the first tag whose name equals the piece ignoring case, or reports that none does. |
| AdminPage.ResolveOne | frontend/src/pages/Admin.tsx:185-189 | A resolved id is non-zero and is the id of the first tag whose name equals the piece ignoring case. The piece resolves exactly when such a first match exists and its id is non-zero. |
| AdminPage.Resolve | frontend/src/pages/Admin.tsx:184-189 | There are no more ids than names. Every id is non-zero, belongs to a listed tag, and is what some name resolves to. A single name gives its id, or nothing when it does not resolve. |
| AdminPage.ResolveAppend | frontend/src/pages/Admin.tsx:184-191 | Resolution distributes over concatenation, so ids follow input order and a repeated name yields a repeated id. |
| AdminPage.ResolveKeepsMatched | frontend/src/pages/Admin.tsx:184-189 | Every name whose first match has a truthy id contributes that id. |
| AdminPage.TagIdsFor | frontend/src/pages/Admin.tsx:182-191 | An empty field sends no ids. Every id sent is non-zero and is what some typed name resolves to, and every typed name that resolves contributes its id. |
| AdminPage.UploadEntries | frontend/src/pages/Admin.tsx:160-192 | No request is built exactly when no audio file is picked. Otherwise the form holds name, description and audio file, then the image when picked, then one `tags` entry per resolved id in order. |
| AdminPage.UploadTagsParse | frontend/src/pages/Admin.tsx:191 | Each `tags` entry reads back in decimal as the id of a listed tag. |
| AdminPage.TagGuard | frontend/src/pages/Admin.tsx:222-231 | A name is refused exactly when it is all JavaScript white space. Otherwise the name with its surrounding white space cut off is posted to `/tags/`: non-empty, neither starting nor ending in white space, and padded only by white space in the typed name. |
| AdminPage.TagGuardIdempotent | frontend/src/pages/Admin.tsx:222-231 | Typing back the name the page sent sends the same request again. |
| AdminPage.GuardPassesServerBlank | frontend/src/pages/Admin.tsx:222-231 | A name of one U+001C passes the page's guard, yet the server answers 400 because Python's `strip` empties it. |

## Left out

- `fetch`, `localStorage`, React state and hooks, toasts, navigation and rendering: replies, parsers and the store are inputs and outputs of pure functions.
- Concurrency: `refreshAuth` does not await its `logout()`. The model runs every operation to completion, one at a time.
- JWT issuing, verifying and blacklisting internals, Django `authenticate`'s backends, password hashing and validators: these are parameters (`issue`, `valid`, `hash`). `authenticate` is modelled as the `ModelBackend` lookup by username.
- DRF authentication and CSRF: the requester is an input. Anonymous refusals are modelled as 403 because session authentication comes first.
- Throttling, CORS, HSTS and cookie settings: configuration with no logic of the core.
- `OrderingFilter`'s `ordering` parameter, and the relative order of rows created at the same instant. The default newest-first order is modelled as any ordering by decreasing time.
- The `sound` query parameter on detail and update lookups, and the text of DRF's 404 detail, which depends on the framework version. Lookups that fail are 404 with no message.
- The database's conversion of a query parameter to an integer (`toInt`) and its collation for tag names (`collate`) are parameters.
- `bleach` and DOMPurify are foreign libraries. The sanitiser is a parameter, or `Unbound` for the module as written.
- Create and update of sounds through the view set: only the serializer's `create` and `update` are modelled. Request-level field validation of uploads and files is not.
- Updating favourites, and updating or retrieving single tags: these are generic view-set actions with no logic of their own.
- Unicode handling: case folding maps ASCII letters only; NFKC normalisation of usernames and Python's full `str.lower()` are not modelled.
- JavaScript numbers are modelled as natural numbers; no float arithmetic is modelled.
- The contents of uploaded files, `build_absolute_uri`, storage URLs and percent-encoding of query strings: these are parameters.
- Middleware ordering in settings.py: `Middleware.Secure` is applied to the view's response on its own.
- urls.py, admin.py, the sample-data command, the security logger, tests and the presentational components are not part of this model.
- Views.SoundsList: states only that the search backend keeps a subset of the query set. The backend's own term splitting is a parameter (`terms`), so which rows it keeps depends on that input.
- Error messages: when several validators of one DRF field fail, the server reports all their messages; the model answers with the first one in the order it checks.
- AuthViews.Register: does not model the database's column limits. On PostgreSQL a username over 150 characters or an email over 254 is a server error; the model answers as a database that does not enforce the limits (SQLite) would.
- AdminPage.AdminTagList: does not state the envelope case separately, because it agrees with `IndexPage.TagList` there.

## Findings

| source | as written | input that shows it | evidently intended | confidence | as-written member | corrected member |
|---|---|---|---|---|---|---|
| backend/sounds/auth_views.py:39-49 | The duplicate-email check compares the address as sent, but `create_user` stores it normalised (domain lower-cased). | A user with `a@x.com` exists and `bob` registers with `a@X.com`: 201, two rows share the email, and logging in with `a@x.com` is a 500 (`MultipleObjectsReturned`). | Check the normalised address, answering 400 "Email already exists.". | not executed | AuthViews.RegisterAcceptsDuplicate | AuthViews.RegisterNormalized |
| backend/sounds/serializers.py:163-165 | `validate_content` calls `bleach.clean`, but `bleach` is never imported. | Any signed-in user posting non-blank content without null characters to an existing sound: `NameError`, a 500, and no comment is ever saved. | Sanitise the content and save the comment. | not executed | Views.CreateCommentAsWritten | Views.CreateCommentSanitized |
| frontend/src/pages/Index.tsx:44-46 | The sound list is the reply's `results`, or an empty array, yet the server sends bare arrays because settings.py line 319 drops pagination. The admin page does the same (Admin.tsx line 64). | A sounds reply of `[s1, s2]` shows an empty list. | Normalise as `tagsAPI.list` does: an array as it is, or an envelope's `results`. | not executed | IndexPage.Displayed | IndexPage.DisplayedCorrected |

=== FILE: accounts.dfy ===
/**
 * The server's user table (Django's `auth.User`), reduced to the columns the
 * views read, with the lookups and uniqueness invariants the views rely on.
 *
 * Password hashing is not modelled: `secret` holds whatever the hashing
 * function the caller supplies made of the password.
 */
module Accounts {
  import opened Wrappers
  import opened Text

  /** One row of the user table. */
  datatype Account = Account(id: nat, username: string, email: string, secret: string, isStaff: bool, isActive: bool)

  type Table = seq<Account>

  /** Primary keys are distinct. */
  predicate UniqueIds(t: Table) {
    forall i, j | 0 <= i < j < |t| :: t[i].id != t[j].id
  }

  /** Usernames are distinct (a database constraint of `auth.User`). */
  predicate UniqueUsernames(t: Table) {
    forall i, j | 0 <= i < j < |t| :: t[i].username != t[j].username
  }

  /** Emails are distinct (kept only by the registration view; the database does not enforce it). */
  predicate UniqueEmails(t: Table) {
    forall i, j | 0 <= i < j < |t| :: t[i].email != t[j].email
  }

  predicate WellFormed(t: Table) {
    UniqueIds(t) && UniqueUsernames(t) && UniqueEmails(t)
  }

  /** `User.objects.filter(username=name).exists()`. */
  predicate UsernameTaken(t: Table, name: string) {
    exists i | 0 <= i < |t| :: t[i].username == name
  }

  /** `User.objects.filter(email=email).exists()`. */
  predicate EmailTaken(t: Table, email: string) {
    exists i | 0 <= i < |t| :: t[i].email == email
  }

  /** The row with the given username, if any. */
  function FindByUsername(t: Table, name: string): (r: Option<Account>)
    ensures r.Some? <==> UsernameTaken(t, name)
    ensures r.Some? ==> r.value in t && r.value.username == name
  {
    if |t| == 0 then None
    else if t[0].username == name then Some(t[0])
    else
      var r := FindByUsername(t[1..], name);
      assert UsernameTaken(t, name) <==> UsernameTaken(t[1..], name) by {
        if UsernameTaken(t[1..], name) {
          var i :| 0 <= i < |t[1..]| && t[1..][i].username == name;
          assert t[i + 1].username == name;
        }
        if UsernameTaken(t, name) {
          var i :| 0 <= i < |t| && t[i].username == name;
          assert t[1..][i - 1].username == name;
        }
      }
      r
  }

  /** The rows `User.objects.filter(email=email)` returns, in table order. */
  function WithEmail(t: Table, email: string): (r: seq<Account>)
    ensures |r| <= |t|
    ensures forall k | 0 <= k < |r| :: r[k] in t && r[k].email == email
    ensures |r| == 0 <==> !EmailTaken(t, email)
    ensures forall a | a in t && a.email == email :: a in r
  {
    if |t| == 0 then []
    else
      var rest := WithEmail(t[1..], email);
      assert EmailTaken(t, email) <==> t[0].email == email || EmailTaken(t[1..], email) by {
        if EmailTaken(t[1..], email) {
          var i :| 0 <= i < |t[1..]| && t[1..][i].email == email;
          assert t[i + 1].email == email;
        }
        if EmailTaken(t, email) && t[0].email != email {
          var i :| 0 <= i < |t| && t[i].email == email;
          assert t[1..][i - 1].email == email;
        }
      }
      if t[0].email == email then [t[0]] + rest else rest
  }

  /** With distinct emails, an email matches at most one row. */
  lemma {:induction false} UniqueEmailMatchesAtMostOne(t: Table, email: string)
    requires UniqueEmails(t)
    ensures |WithEmail(t, email)| <= 1
  {
    if |t| > 0 {
      assert UniqueEmails(t[1..]) by {
        forall i, j | 0 <= i < j < |t[1..]|
          ensures t[1..][i].email != t[1..][j].email
        {
          assert t[1..][i] == t[i + 1] && t[1..][j] == t[j + 1];
        }
      }
      UniqueEmailMatchesAtMostOne(t[1..], email);
    }
  }

  /** The largest primary key in use, 0 for an empty table. */
  function MaxId(t: Table): (m: nat)
    ensures forall k | 0 <= k < |t| :: t[k].id <= m
  {
    if |t| == 0 then 0
    else
      var m := MaxId(t[1..]);
      assert forall k | 1 <= k < |t| :: t[k] == t[1..][k - 1];
      if t[0].id > m then t[0].id else m
  }

  /** The key the database assigns to the next row. */
  function NextId(t: Table): (id: nat)
    ensures forall k | 0 <= k < |t| :: t[k].id != id
  {
    MaxId(t) + 1
  }

  /**
   * Django's `ModelBackend.authenticate`: the row with that username whose
   * stored secret matches the password, and only if the account is active.
   */
  function Authenticate(t: Table, username: string, password: string, hash: string -> string): (r: Option<Account>)
    ensures r.Some? ==> r.value in t && r.value.username == username && r.value.isActive
                        && r.value.secret == hash(password)
    ensures r.None? && UsernameTaken(t, username) ==> var a := FindByUsername(t, username).value;
                                                        !a.isActive || a.secret != hash(password)
  {
    match FindByUsername(t, username)
    case None => None
    case Some(a) => if a.secret == hash(password) && a.isActive then Some(a) else None
  }

  /** The index of the last occurrence of `c` in `s` (the split point of Python's `rsplit(c, 1)`). */
  function LastIndexOf(s: string, c: char): (r: Option<nat>)
    ensures r.None? <==> c !in s
    ensures r.Some? ==> r.value < |s| && s[r.value] == c
    ensures r.Some? ==> forall j | r.value < j < |s| :: s[j] != c
  {
    if |s| == 0 then None
    else if s[|s| - 1] == c then Some(|s| - 1)
    else
      var r := LastIndexOf(s[..|s| - 1], c);
      assert s == s[..|s| - 1] + [s[|s| - 1]];
      r
  }

  /**
   * Django's `BaseUserManager.normalize_email`: when the stripped address has an
   * `@`, the part after the last `@` is lower-cased and the stripped address is
   * kept; an address without `@` is returned as given, unstripped.
   */
  function NormalizeEmail(email: string): (r: string)
    ensures '@' in r <==> '@' in email
    ensures '@' !in email ==> r == email
    ensures var st := PyStrip(email);
            LastIndexOf(st, '@').Some? ==>
              var k := LastIndexOf(st, '@').value;
              r == st[..k] + "@" + Lower(st[k + 1..])
  {
    var st := PyStrip(email);
    AtSurvivesStrip(email);
    var o := LastIndexOf(st, '@');
    if o.None? then email
    else
      var k := o.value;
      var r := st[..k] + "@" + Lower(st[k + 1..]);
      assert r[k] == '@';
      r
  }

  /** Stripping white space neither removes nor creates an `@`. */
  lemma AtSurvivesStrip(s: string)
    ensures '@' in PyStrip(s) <==> '@' in s
  {
    StripKeepsChar(s, IsPySpace, '@');
  }

  lemma LowerIdempotent(s: string)
    ensures Lower(Lower(s)) == Lower(s)
  {
  }

  /**
   * The form `normalize_email` produces: an address without `@`, or a stripped
   * address whose part after the last `@` is already lower case.
   */
  predicate IsNormalForm(n: string) {
    match LastIndexOf(n, '@')
    case None => true
    case Some(k) => PyStrip(n) == n && Lower(n[k + 1..]) == n[k + 1..]
  }

  /** An address in normal form is left unchanged by normalisation. */
  lemma NormalFormFixed(n: string)
    requires IsNormalForm(n)
    ensures NormalizeEmail(n) == n
  {
    var o := LastIndexOf(n, '@');
    if o.Some? {
      RelowerFixed(n, o.value);
    }
  }

  lemma RelowerFixed(n: string, k: nat)
    requires PyStrip(n) == n && LastIndexOf(n, '@') == Some(k)
    requires Lower(n[k + 1..]) == n[k + 1..]
    ensures NormalizeEmail(n) == n
  {
    NormalizeStripped(n, k);
    Rejoin(n, k);
  }

  /** Cutting a string around one of its characters and putting it back together. */
  lemma Rejoin(n: string, k: nat)
    requires k < |n| && n[k] == '@'
    ensures n == n[..k] + "@" + n[k + 1..]
  {
  }

  /** The parts of `l@d` are `l` and `d`. */
  lemma JoinParts(l: string, d: string)
    ensures (l + "@" + d)[..|l|] == l && (l + "@" + d)[|l| + 1..] == d
  {
  }

  /** `l@D` with lower-case `D` and the end conditions is in normal form. */
  lemma NormalFormOfJoin(l: string, d: string)
    requires '@' !in d && Lower(d) == d
    requires l == [] || !IsPySpace(l[0])
    requires d == [] || !IsPySpace(d[|d| - 1])
    ensures IsNormalForm(l + "@" + d)
  {
    JoinedIsStripped(l, d);
    JoinedLastAt(l, d);
    JoinParts(l, d);
  }

  /** Normalisation always produces the normal form. */
  lemma NormalizeGivesNormalForm(email: string)
    ensures IsNormalForm(NormalizeEmail(email))
  {
    var st := PyStrip(email);
    var o := LastIndexOf(st, '@');
    if o.Some? {
      var k := o.value;
      var l := st[..k];
      var d := st[k + 1..];
      NormalizeSplit(email);
      NormalizedParts(st, k);
      LowerIdempotent(d);
      NormalFormOfJoin(l, Lower(d));
    } else {
      AtSurvivesStrip(email);
    }
  }

  /** Normalising an address that is already normalised changes nothing. */
  lemma NormalizeEmailIdempotent(email: string)
    ensures NormalizeEmail(NormalizeEmail(email)) == NormalizeEmail(email)
  {
    NormalizeGivesNormalForm(email);
    NormalFormFixed(NormalizeEmail(email));
  }

  /** Normalising an address that is already stripped and has its last `@` at `k`. */
  lemma NormalizeStripped(e: string, k: nat)
    requires PyStrip(e) == e
    requires LastIndexOf(e, '@') == Some(k)
    ensures NormalizeEmail(e) == e[..k] + "@" + Lower(e[k + 1..])
  {
  }

  lemma JoinedIsStripped(l: string, d: string)
    requires l == [] || !IsPySpace(l[0])
    requires d == [] || !IsPySpace(d[|d| - 1])
    ensures PyStrip(l + "@" + d) == l + "@" + d
  {
    var e := l + "@" + d;
    assert !IsPySpace(e[0]) by {
      if |l| > 0 { assert e[0] == l[0]; }
    }
    assert !IsPySpace(e[|e| - 1]) by {
      if |d| > 0 { assert e[|e| - 1] == d[|d| - 1]; }
    }
    StripUnpadded(e, IsPySpace);
  }

  /** The last `@` of `l@d` is the one joining the parts when `d` has none. */
  lemma {:induction false} JoinedLastAt(l: string, d: string)
    requires '@' !in d
    ensures LastIndexOf(l + "@" + d, '@') == Some(|l|)
  {
    var e := l + "@" + d;
    if |d| == 0 {
      assert e[|e| - 1] == '@';
    } else {
      var d' := d[..|d| - 1];
      assert e[..|e| - 1] == l + "@" + d';
      assert e[|e| - 1] == d[|d| - 1];
      JoinedLastAt(l, d');
    }
  }

  /** The result of normalising an address whose stripped form contains an `@`. */
  lemma NormalizeSplit(email: string)
    requires LastIndexOf(PyStrip(email), '@').Some?
    ensures var st := PyStrip(email); var k := LastIndexOf(st, '@').value;
      NormalizeEmail(email) == st[..k] + "@" + Lower(st[k + 1..])
  {
  }

  /** The two parts of a normalised address meet `NormalizeJoined`'s conditions. */
  lemma NormalizedParts(st: string, k: nat)
    requires st == [] || (!IsPySpace(st[0]) && !IsPySpace(st[|st| - 1]))
    requires LastIndexOf(st, '@') == Some(k)
    ensures var l := st[..k]; var d := st[k + 1..];
      && '@' !in Lower(d)
      && (l == [] || !IsPySpace(l[0]))
      && (d == [] || !IsPySpace(Lower(d)[|d| - 1]))
  {
    var l := st[..k];
    var d := st[k + 1..];
    assert '@' !in Lower(d) by {
      forall j | 0 <= j < |d|
        ensures Lower(d)[j] != '@'
      {
        assert d[j] == st[k + 1 + j];
      }
    }
    assert l == [] || !IsPySpace(l[0]) by {
      if k > 0 { assert l[0] == st[0]; }
    }
    assert d == [] || !IsPySpace(Lower(d)[|d| - 1]) by {
      if |d| > 0 { assert d[|d| - 1] == st[|st| - 1]; }
    }
  }
}

=== FILE: admin_page.dfy ===
/**
 * The form logic of the admin page (`pages/Admin.tsx`): its tag list, the
 * upload guard and the form fields it sends, the resolution of typed tag
 * names to tag ids, and the tag-creation guard.
 */
module AdminPage {
  import opened Wrappers
  import opened Text
  import opened Seqs
  import Js
  import Api
  import Accounts
  import Models
  import Views

  /** The admin page's own copy of the tag-list normalisation. */
  function AdminTagList(data: Js.Value): (r: seq<Js.Value>)
    ensures data.Arr? ==> r == data.items
    ensures !data.Arr? && !(Js.Has(data, "results") && data.fields["results"].Arr?) ==> r == []
  {
    if !Js.Truthy(data) then []
    else if data.Arr? then data.items
    else if Js.Truthy(Js.Get(data, "results")) && Js.Get(data, "results").Arr? then Js.Get(data, "results").items
    else []
  }

  // ---------------------------------------------------------------------------
  // Tag names to ids

  /** A tag of the fetched list: its id (`0` is falsy and dropped) and name. */
  datatype TagRow = TagRow(id: nat, name: string)

  predicate NonEmpty(s: string) {
    s != ""
  }

  /** `input.split(sep).map(t => t.trim()).filter(Boolean)`; the page splits on `","`. */
  function Pieces(input: string, sep: char): (r: seq<string>)
    ensures forall i | 0 <= i < |r| :: r[i] != ""
    ensures sep !in input ==> r == (if Trim(input) == "" then [] else [Trim(input)])
  {
    var fields := Split(input, sep);
    if sep !in input then
      SplitWithoutSeparator(input, sep);
      assert Map(fields, Trim) == [Trim(input)];
      Filter(Map(fields, Trim), NonEmpty)
    else
      Filter(Map(fields, Trim), NonEmpty)
  }

  /** The pieces of a field, a separator and the rest are the field's pieces followed by the rest's. */
  lemma PiecesAppendField(a: string, b: string, sep: char)
    requires sep !in a
    ensures Pieces(a + [sep] + b, sep) == Pieces(a, sep) + Pieces(b, sep)
  {
    SplitAtFirst(a, b, sep);
    SplitWithoutSeparator(a, sep);
    var rest := Split(b, sep);
    var m := Map([a] + rest, Trim);
    assert m == [Trim(a)] + Map(rest, Trim);
    FilterAppend([Trim(a)], Map(rest, Trim), NonEmpty);
    assert Map([a], Trim) == [Trim(a)];
  }

  /** Trimming only removes white space, so a piece keeps no separator. */
  lemma PiecesLackSeparator(input: string, c: char)
    requires !IsJsSpace(c)
    ensures forall i | 0 <= i < |Pieces(input, c)| :: c !in Pieces(input, c)[i]
  {
    var parts := Split(input, c);
    var trimmed := Map(parts, Trim);
    forall k | 0 <= k < |trimmed|
      ensures c !in trimmed[k]
    {
      StripKeepsChar(parts[k], IsJsSpace, c);
    }
    var r := Filter(trimmed, NonEmpty);
    assert r == Pieces(input, c);
    forall i | 0 <= i < |r|
      ensures c !in r[i]
    {
      assert r[i] in trimmed;
    }
  }

  /** `tags.find(t => t.name.toLowerCase() === name.toLowerCase())`: the position of the first row with that name, ignoring case. */
  function FirstNamed(tags: seq<TagRow>, name: string): (r: Option<nat>)
    ensures r.Some? ==> r.value < |tags| && EqualsIgnoringCase(tags[r.value].name, name)
    ensures r.Some? ==> forall j | 0 <= j < r.value :: !EqualsIgnoringCase(tags[j].name, name)
    ensures r.None? ==> forall j | 0 <= j < |tags| :: !EqualsIgnoringCase(tags[j].name, name)
  {
    Find(tags, (t: TagRow) => Lower(t.name), Lower(name))
  }

  /** The id a piece resolves to, if its first match has a truthy id. */
  function ResolveOne(tags: seq<TagRow>, name: string): (r: Option<nat>)
    ensures r.Some? ==> r.value != 0 && exists k | 0 <= k < |tags| :: tags[k].id == r.value && EqualsIgnoringCase(tags[k].name, name)
    ensures r.Some? ==> FirstNamed(tags, name).Some? && r.value == tags[FirstNamed(tags, name).value].id
    ensures FirstNamed(tags, name).Some? && tags[FirstNamed(tags, name).value].id != 0 ==> r.Some?
    ensures r.None? ==> forall k | 0 <= k < |tags| :: EqualsIgnoringCase(tags[k].name, name) ==> k != FirstNamed(tags, name).value || tags[k].id == 0
  {
    match FirstNamed(tags, name)
    case None => None
    case Some(k) => if tags[k].id != 0 then Some(tags[k].id) else None
  }

  /** `.map(name => find(...)?.id).filter(Boolean)` over the pieces. */
  function Resolve(pieces: seq<string>, tags: seq<TagRow>): (ids: seq<nat>)
    ensures |ids| <= |pieces|
    ensures forall i | 0 <= i < |ids| :: ids[i] != 0 && exists k | 0 <= k < |tags| :: tags[k].id == ids[i]
    ensures forall i | 0 <= i < |ids| :: exists j | 0 <= j < |pieces| :: ResolveOne(tags, pieces[j]) == Some(ids[i])
    ensures |pieces| == 1 ==> ids == (if ResolveOne(tags, pieces[0]).Some? then [ResolveOne(tags, pieces[0]).value] else [])
  {
    var f := (p: string) => ResolveOne(tags, p);
    var r := Collect(pieces, f);
    forall i | 0 <= i < |r|
      ensures exists j | 0 <= j < |pieces| :: ResolveOne(tags, pieces[j]) == Some(r[i])
      ensures r[i] != 0 && exists k | 0 <= k < |tags| :: tags[k].id == r[i]
    {
      var j :| 0 <= j < |pieces| && f(pieces[j]) == Some(r[i]);
      assert ResolveOne(tags, pieces[j]) == Some(r[i]);
    }
    assert |pieces| == 1 ==> r == (if f(pieces[0]).Some? then [f(pieces[0]).value] else []) + Collect(pieces[1..], f);
    assert |pieces| == 1 ==> pieces[1..] == [];
    r
  }

  /** Resolution works piece by piece: it distributes over concatenation, so the ids keep the order of the names. */
  lemma ResolveAppend(a: seq<string>, b: seq<string>, tags: seq<TagRow>)
    ensures Resolve(a + b, tags) == Resolve(a, tags) + Resolve(b, tags)
  {
    CollectAppend(a, b, (p: string) => ResolveOne(tags, p));
  }

  /** Every piece whose first match has a truthy id contributes that id. */
  lemma ResolveKeepsMatched(pieces: seq<string>, tags: seq<TagRow>, i: nat)
    requires i < |pieces| && ResolveOne(tags, pieces[i]).Some?
    ensures ResolveOne(tags, pieces[i]).value in Resolve(pieces, tags)
  {
    CollectKeeps(pieces, (p: string) => ResolveOne(tags, p), i);
  }

  /**
   * The ids sent for the tag field: nothing for an empty field; otherwise
   * each id is the first match of one of the typed names, and every typed
   * name whose first match has a truthy id contributes it.
   */
  function TagIdsFor(input: string, tags: seq<TagRow>): (ids: seq<nat>)
    ensures input == "" ==> ids == []
    ensures forall i | 0 <= i < |ids| :: ids[i] != 0 && exists k | 0 <= k < |tags| :: tags[k].id == ids[i]
    ensures forall i | 0 <= i < |ids| ::
              exists j | 0 <= j < |Pieces(input, ',')| :: ResolveOne(tags, Pieces(input, ',')[j]) == Some(ids[i])
    ensures forall j | 0 <= j < |Pieces(input, ',')| ::
              ResolveOne(tags, Pieces(input, ',')[j]).Some? ==> ResolveOne(tags, Pieces(input, ',')[j]).value in ids
  {
    if input == "" then []
    else
      var pieces := Pieces(input, ',');
      forall j | 0 <= j < |pieces| && ResolveOne(tags, pieces[j]).Some?
        ensures ResolveOne(tags, pieces[j]).value in Resolve(pieces, tags)
      {
        ResolveKeepsMatched(pieces, tags, j);
      }
      Resolve(pieces, tags)
  }

  // ---------------------------------------------------------------------------
  // Upload form

  /** A file picked in the form; its contents are not modelled. */
  datatype File = File(fileName: string)

  datatype FormValue = Text(text: string) | Upload(file: File)

  datatype UploadForm = UploadForm(name: string, description: string, tags: string)

  function TagEntry(id: nat): (string, FormValue) {
    ("tags", Text(NatToString(id)))
  }

  /**
   * `handleUpload`: no request without an audio file; otherwise the name,
   * description and audio file, the image when one is picked, then one
   * `tags` entry per resolved id.
   */
  function UploadEntries(form: UploadForm, mp3: Option<File>, image: Option<File>, tags: seq<TagRow>): (r: Option<seq<(string, FormValue)>>)
    ensures r.None? <==> mp3.None?
    ensures r.Some? ==>
              var head := [("name", Text(form.name)), ("description", Text(form.description)), ("mp3_file", Upload(mp3.value))];
              var img := if image.Some? then [("image", Upload(image.value))] else [];
              && |r.value| == |head + img| + |TagIdsFor(form.tags, tags)|
              && r.value[..|head + img|] == head + img
              && forall i | 0 <= i < |TagIdsFor(form.tags, tags)| :: r.value[|head + img| + i] == TagEntry(TagIdsFor(form.tags, tags)[i])
  {
    if mp3.None? then None
    else
      var head := [("name", Text(form.name)), ("description", Text(form.description)), ("mp3_file", Upload(mp3.value))];
      var img := if image.Some? then [("image", Upload(image.value))] else [];
      Some(head + img + Map(TagIdsFor(form.tags, tags), TagEntry))
  }

  /** The server reads back from every `tags` entry the id of a listed tag, since the ids are sent in decimal. */
  lemma UploadTagsParse(form: UploadForm, mp3: File, image: Option<File>, tags: seq<TagRow>, i: nat)
    requires i < |TagIdsFor(form.tags, tags)|
    ensures var e := UploadEntries(form, Some(mp3), image, tags).value;
            var at := 3 + (if image.Some? then 1 else 0) + i;
            && at < |e| && e[at] == TagEntry(TagIdsFor(form.tags, tags)[i])
            && var n := ParseDecimal(e[at].1.text);
            n == TagIdsFor(form.tags, tags)[i] && n != 0 && exists k | 0 <= k < |tags| :: tags[k].id == n
  {
    var ids := TagIdsFor(form.tags, tags);
    var e := UploadEntries(form, Some(mp3), image, tags).value;
    var at := 3 + (if image.Some? then 1 else 0) + i;
    assert e[at] == TagEntry(ids[i]);
    ParseNatToString(ids[i]);
  }

  // ---------------------------------------------------------------------------
  // Tag creation

  /** `handleCreateTag`: a blank name is refused on the page; otherwise the trimmed name is posted. */
  function TagGuard(name: string): (r: Option<Api.Request>)
    ensures r.None? <==> All(name, IsJsSpace)
    ensures r.Some? ==> r.value == Api.TagCreateRequest(Trim(name))
    ensures r.Some? ==> var sent := Trim(name);
              && sent != "" && !IsJsSpace(sent[0]) && !IsJsSpace(sent[|sent| - 1])
              && exists i :: PaddedAt(name, sent, i, IsJsSpace)
  {
    StripEmptyIffAll(name, IsJsSpace);
    if Trim(name) == "" then None
    else
      TrimPadded(name);
      Some(Api.TagCreateRequest(Trim(name)))
  }

  /** Submitting the name the page sent sends it again unchanged. */
  lemma TagGuardIdempotent(name: string)
    requires TagGuard(name).Some?
    ensures TagGuard(Trim(name)) == TagGuard(name)
  {
    StripUnpadded(Trim(name), IsJsSpace);
  }

  /** The trimmed name sits inside the name with only JavaScript white space around it. */
  lemma TrimPadded(s: string)
    ensures exists i :: PaddedAt(s, Trim(s), i, IsJsSpace)
  {
    var i := StripLocate(s, IsJsSpace);
    assert PaddedAt(s, Trim(s), i, IsJsSpace);
  }

  /**
   * The page and the server disagree on white space: a name made of one
   * information separator (U+001C) passes the page's `trim`, but Python's
   * `strip` removes it, so the server answers 400 for a blank name.
   */
  lemma GuardPassesServerBlank(db: Models.Db, admin: Accounts.Account, name: string)
    requires admin.isStaff && |name| == 1 && name[0] == '\U{1C}'
    ensures TagGuard(name).Some?
    ensures Views.CreateTag(db, Some(admin), Some(Trim(name))).status == 400
  {
    SeparatorFacts(name);
    ServerRefusesBlank(db, admin, Trim(name));
  }

  lemma SeparatorFacts(name: string)
    requires |name| == 1 && name[0] == '\U{1C}'
    ensures !All(name, IsJsSpace) && Trim(name) == name && PyStrip(name) == ""
  {
    assert !IsJsSpace(name[0]);
    StripUnpadded(name, IsJsSpace);
    StripEmptyIffAll(name, IsPySpace);
  }

  /** The server refuses a name that Python's `strip` empties as blank. */
  lemma ServerRefusesBlank(db: Models.Db, admin: Accounts.Account, name: string)
    requires admin.isStaff && PyStrip(name) == ""
    ensures Views.CreateTag(db, Some(admin), Some(name)) == Views.Refused(db, 400, Views.BlankMsg)
  {
  }
}

=== FILE: api.dfy ===
/**
 * The client's request layer: base address normalisation, request headers,
 * the request shapes of the authentication and resource façades, outcome
 * classification of `apiRequest`, and the list-normalisation helpers.
 *
 * `fetch`, `JSON.parse` and `URLSearchParams` encoding are not modelled: a
 * response is an input, and parsing and encoding are function parameters.
 */
module Api {
  import opened Wrappers
  import opened Text
  import Js

  // ---------------------------------------------------------------------------
  // Base address

  /** Used when `VITE_API_BASE_URL` is unset or empty. */
  const DefaultBaseUrl: string := "http://localhost:8000/api"

  /** `VITE_API_BASE_URL || default`. */
  function RawBaseUrl(configured: Option<string>): string {
    if configured.Some? && configured.value != "" then configured.value else DefaultBaseUrl
  }

  /** `raw.trim().replace(/\/+$/, '')`. */
  function BaseUrl(configured: Option<string>): (r: string)
    ensures r == [] || r[|r| - 1] != '/'
    ensures r <= Trim(RawBaseUrl(configured))
    ensures All(Trim(RawBaseUrl(configured))[|r|..], IsSlash)
  {
    DropLastWhile(Trim(RawBaseUrl(configured)), IsSlash)
  }

  /**
   * Nothing but trailing slashes is removed: any prefix of the trimmed setting
   * that is followed by some non-slash character (a scheme such as `https://`
   * followed by a host) survives unchanged.
   */
  lemma BaseUrlKeepsPrefix(configured: Option<string>, p: string, k: int)
    requires p <= Trim(RawBaseUrl(configured))
    requires |p| <= k < |Trim(RawBaseUrl(configured))| && Trim(RawBaseUrl(configured))[k] != '/'
    ensures p <= BaseUrl(configured)
  {
    var t := Trim(RawBaseUrl(configured));
    var r := BaseUrl(configured);
    assert p == t[..|p|] == r[..|p|];
  }

  /** Without configuration the client talks to the local development server. */
  lemma DefaultBaseUrlUnchanged()
    ensures BaseUrl(None) == DefaultBaseUrl
  {
    StripUnpadded(DefaultBaseUrl, IsJsSpace);
    assert DropLastWhile(DefaultBaseUrl, IsSlash) == DefaultBaseUrl;
  }

  // ---------------------------------------------------------------------------
  // Headers

  /** `localStorage.getItem('accessToken')` is truthy. */
  predicate HasToken(token: Option<string>) {
    Given(token)
  }

  /**
   * `{'Content-Type': 'application/json', ...callerHeaders}` followed by
   * `Authorization: Bearer <token>` when a token is stored.
   */
  function RequestHeaders(token: Option<string>, caller: map<string, string>): (h: map<string, string>)
    ensures h.Keys == caller.Keys + {"Content-Type"} + (if HasToken(token) then {"Authorization"} else {})
    ensures h["Content-Type"] == (if "Content-Type" in caller then caller["Content-Type"] else "application/json")
    ensures HasToken(token) ==> h["Authorization"] == "Bearer " + token.value
    ensures forall k | k in caller && !(k == "Authorization" && HasToken(token)) :: h[k] == caller[k]
  {
    var merged := map["Content-Type" := "application/json"] + caller;
    if HasToken(token) then merged["Authorization" := "Bearer " + token.value] else merged
  }

  /** A stored token is the only source of an `Authorization` header when the caller sends none. */
  lemma BearerIffToken(token: Option<string>)
    ensures "Authorization" in RequestHeaders(token, map[]) <==> HasToken(token)
  {
  }

  // ---------------------------------------------------------------------------
  // Request shapes

  datatype Method = Get | Post | Put | Delete

  /** What a façade operation hands to `apiRequest`; `body` is `Undefined` when there is none. */
  datatype Request = Request(verb: Method, path: string, body: Js.Value)

  /** The call `apiRequest` makes: the base address joined with the endpoint, and the merged headers. */
  datatype FetchCall = FetchCall(url: string, verb: Method, headers: map<string, string>, body: Js.Value)

  function Prepare(base: string, token: Option<string>, req: Request): FetchCall {
    FetchCall(base + req.path, req.verb, RequestHeaders(token, map[]), req.body)
  }

  /** The string a JSON body carries under `key`, if it carries one. */
  function StrField(body: Js.Value, key: string): Option<string> {
    if body.Obj? && key in body.fields && body.fields[key].Str? then Some(body.fields[key].s) else None
  }

  /** `authAPI.register`: posts the three fields, and nothing else, to `/auth/register/`. */
  function RegisterRequest(username: string, email: string, password: string): (r: Request)
    ensures r.verb == Post && r.path == "/auth/register/"
    ensures r.body.Obj? && r.body.fields.Keys == {"username", "email", "password"}
    ensures StrField(r.body, "username") == Some(username) && StrField(r.body, "email") == Some(email)
            && StrField(r.body, "password") == Some(password)
  {
    Request(Post, "/auth/register/",
            Js.Obj(map["username" := Js.Str(username), "email" := Js.Str(email), "password" := Js.Str(password)]))
  }

  /** `authAPI.login`: the identifier is always sent under the `username` key. */
  function LoginRequest(usernameOrEmail: string, password: string): (r: Request)
    ensures r.verb == Post && r.path == "/auth/login/"
    ensures r.body.Obj? && r.body.fields.Keys == {"username", "password"}
    ensures StrField(r.body, "username") == Some(usernameOrEmail) && StrField(r.body, "password") == Some(password)
  {
    Request(Post, "/auth/login/", Js.Obj(map["username" := Js.Str(usernameOrEmail), "password" := Js.Str(password)]))
  }

  /** `authAPI.loginWithEmail`: the identifier goes under `email`. */
  function LoginWithEmailRequest(email: string, password: string): (r: Request)
    ensures r.verb == Post && r.path == "/auth/login/"
    ensures r.body.Obj? && r.body.fields.Keys == {"email", "password"}
    ensures StrField(r.body, "email") == Some(email) && StrField(r.body, "password") == Some(password)
  {
    Request(Post, "/auth/login/", Js.Obj(map["email" := Js.Str(email), "password" := Js.Str(password)]))
  }

  /** `authAPI.logout`: posts the refresh token under `refresh`. */
  function LogoutRequest(refreshToken: string): (r: Request)
    ensures r.verb == Post && r.path == "/auth/logout/"
    ensures r.body.Obj? && r.body.fields.Keys == {"refresh"} && StrField(r.body, "refresh") == Some(refreshToken)
  {
    Request(Post, "/auth/logout/", Js.Obj(map["refresh" := Js.Str(refreshToken)]))
  }

  /** `authAPI.me`: a bodiless GET. */
  function MeRequest(): (r: Request)
    ensures r.verb == Get && r.path == "/auth/me/" && r.body == Js.Undefined
  {
    Request(Get, "/auth/me/", Js.Undefined)
  }

  /** `authAPI.refreshToken`: posts the refresh token under `refresh` to the token endpoint. */
  function RefreshRequest(refreshToken: string): (r: Request)
    ensures r.verb == Post && r.path == "/auth/token/refresh/"
    ensures r.body.Obj? && r.body.fields.Keys == {"refresh"} && StrField(r.body, "refresh") == Some(refreshToken)
  {
    Request(Post, "/auth/token/refresh/", Js.Obj(map["refresh" := Js.Str(refreshToken)]))
  }

  /** Both login variants post to the same endpoint; only the key carrying the identifier differs. */
  lemma LoginVariantsDifferOnlyInKey(identifier: string, password: string)
    ensures var u := LoginRequest(identifier, password);
            var e := LoginWithEmailRequest(identifier, password);
            && u.verb == e.verb == Post
            && u.path == e.path == "/auth/login/"
            && u.body.Obj? && e.body.Obj?
            && u.body.fields.Keys == {"username", "password"}
            && e.body.fields.Keys == {"email", "password"}
            && u.body.fields["username"] == e.body.fields["email"] == Js.Str(identifier)
            && u.body.fields["password"] == e.body.fields["password"] == Js.Str(password)
  {
  }

  /** The query parameters `soundsAPI.list` appends: `tag` first, then `search`. */
  function SoundsListParams(tag: Option<string>, search: Option<string>): (ps: seq<(string, string)>)
    ensures |ps| == (if Given(tag) then 1 else 0) + (if Given(search) then 1 else 0)
    ensures Given(tag) ==> ps[0] == ("tag", tag.value)
    ensures Given(search) ==> ps[|ps| - 1] == ("search", search.value)
  {
    (if Given(tag) then [("tag", tag.value)] else []) + (if Given(search) then [("search", search.value)] else [])
  }

  /** `URLSearchParams.toString()`, with the percent-encoding of values left to `encode`. */
  function QueryString(ps: seq<(string, string)>, encode: string -> string): (q: string)
    ensures ps != [] ==> q != []
  {
    if |ps| == 0 then ""
    else
      var first := ps[0].0 + "=" + encode(ps[0].1);
      if |ps| == 1 then first else first + "&" + QueryString(ps[1..], encode)
  }

  /** The endpoint of `soundsAPI.list`: `/sounds/`, with `?query` only when some parameter is given. */
  function SoundsListPath(tag: Option<string>, search: Option<string>, encode: string -> string): (p: string)
    ensures p == "/sounds/" <==> !Given(tag) && !Given(search)
    ensures Given(tag) || Given(search) ==> "/sounds/?" <= p
  {
    var q := QueryString(SoundsListParams(tag, search), encode);
    "/sounds/" + (if q != "" then "?" + q else "")
  }

  function SoundsListRequest(tag: Option<string>, search: Option<string>, encode: string -> string): Request {
    Request(Get, SoundsListPath(tag, search, encode), Js.Undefined)
  }

  function SoundGetRequest(id: nat): Request {
    Request(Get, "/sounds/" + NatToString(id) + "/", Js.Undefined)
  }

  function SoundDeleteRequest(id: nat): Request {
    Request(Delete, "/sounds/" + NatToString(id) + "/", Js.Undefined)
  }

  function TagsListRequest(): Request {
    Request(Get, "/tags/", Js.Undefined)
  }

  function TagCreateRequest(name: string): Request {
    Request(Post, "/tags/", Js.Obj(map["name" := Js.Str(name)]))
  }

  function TagDeleteRequest(id: nat): Request {
    Request(Delete, "/tags/" + NatToString(id) + "/", Js.Undefined)
  }

  function CommentsListRequest(soundId: nat): Request {
    Request(Get, "/comments/?sound=" + NatToString(soundId), Js.Undefined)
  }

  function CommentCreateRequest(soundId: nat, content: string): Request {
    Request(Post, "/comments/", Js.Obj(map["sound" := Js.Num(soundId), "content" := Js.Str(content)]))
  }

  function CommentDeleteRequest(id: nat): Request {
    Request(Delete, "/comments/" + NatToString(id) + "/", Js.Undefined)
  }

  function FavoritesListRequest(): Request {
    Request(Get, "/favorites/", Js.Undefined)
  }

  function FavoriteCreateRequest(soundId: nat): Request {
    Request(Post, "/favorites/", Js.Obj(map["sound" := Js.Num(soundId)]))
  }

  function FavoriteDeleteRequest(soundId: nat): Request {
    Request(Delete, "/favorites/remove/?sound=" + NatToString(soundId), Js.Undefined)
  }

  // ---------------------------------------------------------------------------
  // Outcome classification

  /** What `fetch` delivered: status, `content-type` header (absent or not) and body text. */
  datatype Response = Response(status: nat, contentType: Option<string>, body: string)

  /** `response.ok`. */
  predicate Ok(r: Response) {
    200 <= r.status <= 299
  }

  /** `contentType && contentType.includes('application/json')` (case-sensitive). */
  predicate IsJsonContent(contentType: Option<string>) {
    contentType.Some? && Contains(contentType.value, "application/json")
  }

  /**
   * Why a call threw: an `Error` built from a message value, a `TypeError`
   * (reading a property of `null`, calling `map` on a non-array) or the
   * `SyntaxError` of an unguarded `response.json()`.
   */
  datatype Fault = Raised(message: Js.Value) | TypeError | SyntaxError

  /** The result of one request: the value it resolves to, or what it throws. */
  datatype Outcome = Returned(value: Js.Value) | Thrown(fault: Fault)

  const FallbackMessage: string := "An error occurred"

  function StatusMessage(status: nat): string {
    "HTTP error! status: " + NatToString(status)
  }

  /**
   * The error a non-ok response raises: the body's `error`, else its `detail`,
   * else the status line; a body that is not JSON gives the fallback message.
   */
  function ErrorFor(status: nat, parsed: Option<Js.Value>): (f: Fault)
    ensures parsed.None? ==> f == Raised(Js.Str(FallbackMessage))
    ensures parsed == Some(Js.Null) ==> f == TypeError
    ensures f.Raised? ==> Js.Truthy(f.message)
    ensures parsed.Some? && Js.Has(parsed.value, "error") && Js.Truthy(parsed.value.fields["error"])
            ==> f == Raised(parsed.value.fields["error"])
    ensures parsed.Some? && !Js.ReadThrows(parsed.value) && !Js.Truthy(Js.Get(parsed.value, "error"))
            ==> f == Raised(Js.Or(Js.Get(parsed.value, "detail"), Js.Str(StatusMessage(status))))
  {
    var err := if parsed.Some? then parsed.value else Js.Obj(map["error" := Js.Str(FallbackMessage)]);
    if Js.ReadThrows(err) then TypeError
    else Raised(Js.Or(Js.Or(Js.Get(err, "error"), Js.Get(err, "detail")), Js.Str(StatusMessage(status))))
  }

  /** `apiRequest`'s handling of the response to the call `Prepare` builds. */
  function ApiRequest(resp: Response, parse: string -> Option<Js.Value>): (o: Outcome)
    ensures o.Thrown? <==> !Ok(resp)
    ensures o.Thrown? ==> o.fault == ErrorFor(resp.status, parse(resp.body))
    ensures Ok(resp) && (resp.status == 204 || !IsJsonContent(resp.contentType)
                         || Trim(resp.body) == [] || parse(resp.body).None?)
            ==> o == Returned(Js.Null)
    ensures Ok(resp) && resp.status != 204 && IsJsonContent(resp.contentType)
            && Trim(resp.body) != [] && parse(resp.body).Some?
            ==> o == Returned(parse(resp.body).value)
  {
    if !Ok(resp) then Thrown(ErrorFor(resp.status, parse(resp.body)))
    else if resp.status == 204 then Returned(Js.Null)
    else if IsJsonContent(resp.contentType) then
      if Trim(resp.body) == [] then Returned(Js.Null)
      else match parse(resp.body)
        case Some(v) => Returned(v)
        case None => Returned(Js.Null)
    else Returned(Js.Null)
  }

  /** An error body that is not JSON yields the fallback message, never the status line. */
  lemma NonJsonErrorBody(resp: Response, parse: string -> Option<Js.Value>)
    requires !Ok(resp) && parse(resp.body).None?
    ensures ApiRequest(resp, parse) == Thrown(Raised(Js.Str(FallbackMessage)))
  {
  }

  // ---------------------------------------------------------------------------
  // Uploads (`soundsAPI.create` / `soundsAPI.update`), which bypass `apiRequest`

  /** Always `Bearer ${token}`, so a missing token is sent as the text `null`. */
  function UploadHeaders(token: Option<string>): (h: map<string, string>)
    ensures h.Keys == {"Authorization"}
    ensures token.None? ==> h["Authorization"] == "Bearer null"
    ensures token.Some? ==> h["Authorization"] == "Bearer " + token.value
  {
    map["Authorization" := "Bearer " + (if token.Some? then token.value else "null")]
  }

  /** With a token stored, the upload's `Authorization` is the one `apiRequest` sends, and it sends no `Content-Type`. */
  lemma UploadHeadersAgreeWithToken(token: Option<string>)
    requires HasToken(token)
    ensures UploadHeaders(token)["Authorization"] == RequestHeaders(token, map[])["Authorization"]
    ensures "Content-Type" !in UploadHeaders(token) && "Content-Type" in RequestHeaders(token, map[])
  {
  }

  /** Errors as in `apiRequest`; a success body is parsed without any guard. */
  function UploadOutcome(resp: Response, parse: string -> Option<Js.Value>): (o: Outcome)
    ensures !Ok(resp) ==> o == Thrown(ErrorFor(resp.status, parse(resp.body)))
    ensures Ok(resp) && parse(resp.body).None? ==> o == Thrown(SyntaxError)
    ensures Ok(resp) && parse(resp.body).Some? ==> o == Returned(parse(resp.body).value)
  {
    if !Ok(resp) then Thrown(ErrorFor(resp.status, parse(resp.body)))
    else match parse(resp.body)
      case Some(v) => Returned(v)
      case None => Thrown(SyntaxError)
  }

  /** On a JSON success with a non-blank body that parses, and on every failure, the upload ends as `apiRequest` does. */
  lemma UploadAgreesWithApiRequest(resp: Response, parse: string -> Option<Js.Value>)
    requires !Ok(resp) || (resp.status != 204 && IsJsonContent(resp.contentType)
                           && Trim(resp.body) != [] && parse(resp.body).Some?)
    ensures UploadOutcome(resp, parse) == ApiRequest(resp, parse)
  {
  }

  /** Where the upload path departs from `apiRequest`: the header without a token, and an empty success body. */
  lemma UploadDivergesFromApiRequest(parse: string -> Option<Js.Value>)
    requires parse("").None?
    ensures UploadHeaders(None)["Authorization"] == "Bearer null"
    ensures "Authorization" !in RequestHeaders(None, map[])
    ensures ApiRequest(Response(204, None, ""), parse) == Returned(Js.Null)
    ensures UploadOutcome(Response(204, None, ""), parse) == Thrown(SyntaxError)
  {
  }

  // ---------------------------------------------------------------------------
  // List normalisation

  /**
   * The list inside a response: a bare array as it is, the `results` of an
   * envelope (or `[]` when that is falsy), and `[]` for anything else.
   * `tagsAPI.list` returns this; `favoritesAPI.list` maps over it.
   */
  function Unwrap(response: Js.Value): (r: Js.Value)
    ensures response.Arr? ==> r == response
    ensures !response.Arr? && !Js.Has(response, "results") ==> r == Js.Arr([])
    ensures Js.Has(response, "results") && !Js.Truthy(response.fields["results"]) ==> r == Js.Arr([])
    ensures Js.Has(response, "results") && Js.Truthy(response.fields["results"]) ==> r == response.fields["results"]
  {
    if response.Arr? then response
    else if Js.Has(response, "results") then Js.Or(response.fields["results"], Js.Arr([]))
    else Js.Arr([])
  }

  /** A paginated envelope as the server's list endpoints send it. */
  function Envelope(count: int, next: Js.Value, previous: Js.Value, items: seq<Js.Value>): Js.Value {
    Js.Obj(map["count" := Js.Num(count), "next" := next, "previous" := previous, "results" := Js.Arr(items)])
  }

  /** A bare list and the same list in an envelope normalise to the same sequence. */
  lemma UnwrapEnvelopeRoundTrip(count: int, next: Js.Value, previous: Js.Value, items: seq<Js.Value>)
    ensures Unwrap(Js.Arr(items)) == Unwrap(Envelope(count, next, previous, items)) == Js.Arr(items)
  {
  }

  /** `fav.sound_detail || fav.sound`. */
  function PickSound(fav: Js.Value): Js.Value
    requires !Js.ReadThrows(fav)
  {
    Js.Or(Js.Get(fav, "sound_detail"), Js.Get(fav, "sound"))
  }

  /** `.map(PickSound).filter(s => s != null)`; a `null` record makes `map` throw. */
  function ExtractSounds(favs: seq<Js.Value>): (r: Result<seq<Js.Value>, Fault>)
    ensures r.Success? <==> forall i | 0 <= i < |favs| :: !Js.ReadThrows(favs[i])
    ensures r.Failure? ==> r.error == TypeError
    ensures r.Success? ==> |r.value| <= |favs|
    ensures r.Success? ==> forall k | 0 <= k < |r.value| :: Js.IsPresent(r.value[k])
  {
    if |favs| == 0 then Success([])
    else if Js.ReadThrows(favs[0]) then Failure(TypeError)
    else
      var rest := ExtractSounds(favs[1..]);
      if rest.Failure? then rest
      else
        var s := PickSound(favs[0]);
        Success(if Js.IsPresent(s) then [s] + rest.value else rest.value)
  }

  /** Extraction of one record: its sound when present, nothing otherwise. */
  lemma ExtractOne(fav: Js.Value)
    requires !Js.ReadThrows(fav)
    ensures ExtractSounds([fav]) == Success(if Js.IsPresent(PickSound(fav)) then [PickSound(fav)] else [])
  {
    assert [fav][1..] == [];
    assert ExtractSounds([]) == Success([]);
    assert [PickSound(fav)] + [] == [PickSound(fav)];
  }

  /** Extraction distributes over concatenation, so it keeps the order of the records. */
  lemma {:induction false} ExtractSoundsAppend(a: seq<Js.Value>, b: seq<Js.Value>)
    ensures ExtractSounds(a + b) ==
            if ExtractSounds(a).Success? && ExtractSounds(b).Success?
            then Success(ExtractSounds(a).value + ExtractSounds(b).value)
            else Failure(TypeError)
  {
    if |a| == 0 {
      assert a + b == b;
      if ExtractSounds(b).Success? {
        assert [] + ExtractSounds(b).value == ExtractSounds(b).value;
      }
    } else {
      assert (a + b)[0] == a[0];
      assert (a + b)[1..] == a[1..] + b;
      ExtractSoundsAppend(a[1..], b);
      if !Js.ReadThrows(a[0]) && ExtractSounds(a[1..]).Success? && ExtractSounds(b).Success? {
        var x, y := ExtractSounds(a[1..]).value, ExtractSounds(b).value;
        assert [PickSound(a[0])] + (x + y) == ([PickSound(a[0])] + x) + y;
      }
    }
  }

  /** `favoritesAPI.list`: unwrap, then extract; a non-array list makes `map` throw. */
  function FavoritesList(response: Js.Value): (r: Result<seq<Js.Value>, Fault>)
    ensures response.Arr? ==> r == ExtractSounds(response.items)
    ensures !response.Arr? && !Js.Has(response, "results") ==> r == Success([])
    ensures Js.Has(response, "results") && response.fields["results"].Arr? ==>
              r == ExtractSounds(response.fields["results"].items)
    ensures Js.Has(response, "results") && !Js.Truthy(response.fields["results"]) ==> r == Success([])
    ensures Js.Has(response, "results") && Js.Truthy(response.fields["results"]) && !response.fields["results"].Arr? ==>
              r == Failure(TypeError)
  {
    var records := Unwrap(response);
    if records.Arr? then ExtractSounds(records.items) else Failure(TypeError)
  }

  /** Three join-records, one without a sound, give exactly the two present sounds in order. */
  lemma FavoritesDropMissingSound(s1: Js.Value, s2: Js.Value)
    requires Js.Truthy(s1) && Js.Truthy(s2)
    ensures var recs := [Js.Obj(map["sound_detail" := s1]), Js.Obj(map["sound" := Js.Null]),
                         Js.Obj(map["sound_detail" := s2])];
            FavoritesList(Envelope(3, Js.Null, Js.Null, recs)) == Success([s1, s2])
  {
    var recs := [Js.Obj(map["sound_detail" := s1]), Js.Obj(map["sound" := Js.Null]),
                 Js.Obj(map["sound_detail" := s2])];
    assert PickSound(recs[0]) == s1 && PickSound(recs[1]) == Js.Null && PickSound(recs[2]) == s2;
    assert Unwrap(Envelope(3, Js.Null, Js.Null, recs)) == Js.Arr(recs);
    ExtractOne(recs[0]);
    ExtractOne(recs[1]);
    ExtractOne(recs[2]);
    assert [s1] + ([] + [s2]) == [s1, s2];
    ExtractSoundsAppend([recs[1]], [recs[2]]);
    assert [recs[1]] + [recs[2]] == recs[1..];
    ExtractSoundsAppend([recs[0]], recs[1..]);
    assert [recs[0]] + recs[1..] == recs;
  }
}

=== FILE: auth_views.dfy ===
/**
 * The server's account endpoints (`register`, `login`, `logout`, `me`) as
 * decisions over the user table. Token signing is a parameter (`issue`); the
 * password hasher is a parameter (`hash`); refresh-token decoding is a
 * parameter (`valid`). The request's authenticated user, when the endpoint
 * requires one, is an input: how it was authenticated is not modelled.
 */
module AuthViews {
  import opened Wrappers
  import opened Text
  import opened Accounts

  /** The `user` object of the responses. */
  datatype UserView = UserView(id: nat, username: string, email: string, isAdmin: bool)

  datatype Tokens = Tokens(refresh: string, access: string)

  /** The JSON bodies the endpoints answer with. */
  datatype Body =
    | ErrorBody(error: string)
    | AuthBody(user: UserView, tokens: Tokens)
    | MessageBody(message: string)
    | UserBody(user: UserView)

  /**
   * A response of the view, the server error an uncaught exception turns
   * into, or the framework's refusal of an anonymous request to an endpoint
   * that requires an authenticated user.
   */
  datatype Response = Reply(status: nat, body: Body) | ServerError | NotAuthenticated

  /** A response together with the user table after the request. */
  datatype Handled = Handled(response: Response, users: Table)

  const RequiredFields := "Username, email, and password are required."
  const UsernameExists := "Username already exists."
  const EmailExists := "Email already exists."
  const LoginRequired := "Username/email and password are required."
  const InvalidCredentials := "Invalid credentials."
  const AccountDisabled := "User account is disabled."
  const RefreshRequired := "Refresh token is required."
  const InvalidToken := "Invalid token."
  const LoggedOut := "Successfully logged out."

  predicate HasStatus(r: Response, code: nat) {
    r.Reply? && r.status == code
  }

  function View(a: Account): UserView {
    UserView(a.id, a.username, a.email, a.isStaff)
  }

  /** The row `create_user` inserts: a normalised email, a hashed password, not staff, active. */
  function NewAccount(t: Table, username: string, email: string, password: string, hash: string -> string): Account {
    Account(NextId(t), username, NormalizeEmail(email), hash(password), false, true)
  }

  /** What register answers once the three fields are present and both uniqueness checks have passed. */
  function Created(t: Table, username: string, email: string, password: string,
                   hash: string -> string, issue: Account -> Tokens): Handled
  {
    var a := NewAccount(t, username, email, password, hash);
    Handled(Reply(201, AuthBody(View(a), issue(a))), t + [a])
  }

  /**
   * `register` as written: the email check compares the address as sent,
   * while `create_user` stores it normalised.
   */
  function Register(t: Table, username: Option<string>, email: Option<string>, password: Option<string>,
                    hash: string -> string, issue: Account -> Tokens): (h: Handled)
    ensures !(Given(username) && Given(email) && Given(password)) ==>
              h == Handled(Reply(400, ErrorBody(RequiredFields)), t)
    ensures Given(username) && Given(email) && Given(password) && UsernameTaken(t, username.value) ==>
              h == Handled(Reply(400, ErrorBody(UsernameExists)), t)
    ensures HasStatus(h.response, 201) <==>
              Given(username) && Given(email) && Given(password)
              && !UsernameTaken(t, username.value) && !EmailTaken(t, email.value)
    ensures HasStatus(h.response, 201) ==>
              && |h.users| == |t| + 1 && h.users[..|t|] == t
              && h.users[|t|] == NewAccount(t, username.value, email.value, password.value, hash)
              && h.response.body == AuthBody(View(h.users[|t|]), issue(h.users[|t|]))
    ensures !HasStatus(h.response, 201) ==> h.users == t && HasStatus(h.response, 400)
  {
    if !(Given(username) && Given(email) && Given(password)) then
      Handled(Reply(400, ErrorBody(RequiredFields)), t)
    else if UsernameTaken(t, username.value) then
      Handled(Reply(400, ErrorBody(UsernameExists)), t)
    else if EmailTaken(t, email.value) then
      Handled(Reply(400, ErrorBody(EmailExists)), t)
    else
      var h := Created(t, username.value, email.value, password.value, hash, issue);
      assert h.users[..|t|] == t;
      h
  }

  /** `register` with the email check made against the address that will be stored. */
  function RegisterNormalized(t: Table, username: Option<string>, email: Option<string>, password: Option<string>,
                              hash: string -> string, issue: Account -> Tokens): (h: Handled)
    ensures !(Given(username) && Given(email) && Given(password)) ==>
              h == Handled(Reply(400, ErrorBody(RequiredFields)), t)
    ensures HasStatus(h.response, 201) <==>
              Given(username) && Given(email) && Given(password)
              && !UsernameTaken(t, username.value) && !EmailTaken(t, NormalizeEmail(email.value))
    ensures HasStatus(h.response, 201) ==>
              && |h.users| == |t| + 1 && h.users[..|t|] == t
              && h.users[|t|] == NewAccount(t, username.value, email.value, password.value, hash)
    ensures !HasStatus(h.response, 201) ==> h.users == t && HasStatus(h.response, 400)
    ensures WellFormed(t) ==> WellFormed(h.users)
  {
    if !(Given(username) && Given(email) && Given(password)) then
      Handled(Reply(400, ErrorBody(RequiredFields)), t)
    else if UsernameTaken(t, username.value) then
      Handled(Reply(400, ErrorBody(UsernameExists)), t)
    else if EmailTaken(t, NormalizeEmail(email.value)) then
      Handled(Reply(400, ErrorBody(EmailExists)), t)
    else
      var h := Created(t, username.value, email.value, password.value, hash, issue);
      assert h.users[..|t|] == t;
      AppendKeepsWellFormed(t, h.users[|t|]);
      h
  }

  /** Appending a row whose id, username and email are all new keeps the table well formed. */
  lemma AppendKeepsWellFormed(t: Table, a: Account)
    requires forall k | 0 <= k < |t| :: t[k].id != a.id
    requires !UsernameTaken(t, a.username) && !EmailTaken(t, a.email)
    ensures WellFormed(t) ==> WellFormed(t + [a])
  {
    var u := t + [a];
    if !WellFormed(t) {
      return;
    }
    forall i, j | 0 <= i < j < |u|
      ensures u[i].id != u[j].id && u[i].username != u[j].username && u[i].email != u[j].email
    {
      if j == |t| {
        assert u[i] == t[i];
      } else {
        assert u[i] == t[i] && u[j] == t[j];
      }
    }
  }

  /** `request.data.get('username') or request.data.get('email')`. */
  function Identifier(username: Option<string>, email: Option<string>): Option<string> {
    if Given(username) then username else email
  }

  /** The answer once `authenticate` has run: 401 without a user, 401 for an inactive one, else 200. */
  function LoginAnswer(user: Option<Account>, issue: Account -> Tokens): Response {
    match user
    case None => Reply(401, ErrorBody(InvalidCredentials))
    case Some(a) =>
      if !a.isActive then Reply(401, ErrorBody(AccountDisabled))
      else Reply(200, AuthBody(View(a), issue(a)))
  }

  /**
   * `login`: an identifier with `@` is looked up by email (`User.objects.get`,
   * whose `DoesNotExist` is caught and whose `MultipleObjectsReturned` is not),
   * then authenticated by that row's username; any other identifier is
   * authenticated as a username.
   */
  function Login(t: Table, username: Option<string>, email: Option<string>, password: Option<string>,
                 hash: string -> string, issue: Account -> Tokens): (r: Response)
    ensures var id := Identifier(username, email);
            !(Given(id) && Given(password)) ==> r == Reply(400, ErrorBody(LoginRequired))
    ensures var id := Identifier(username, email);
            r == ServerError <==> Given(id) && Given(password) && '@' in id.value && |WithEmail(t, id.value)| > 1
    ensures var id := Identifier(username, email);
            Given(id) && Given(password) && '@' !in id.value ==>
              (HasStatus(r, 200) <==> Authenticate(t, id.value, password.value, hash).Some?)
    ensures var id := Identifier(username, email);
            Given(id) && Given(password) && '@' in id.value ==>
              (HasStatus(r, 200) <==>
                 |WithEmail(t, id.value)| == 1
                 && Authenticate(t, WithEmail(t, id.value)[0].username, password.value, hash).Some?)
    ensures var id := Identifier(username, email);
            Given(id) && Given(password) && r != ServerError && !HasStatus(r, 200) ==>
              r == Reply(401, ErrorBody(InvalidCredentials))
    ensures HasStatus(r, 200) ==>
              var id := Identifier(username, email).value;
              && Given(password)
              && (exists a | a in t ::
                    && r.body == AuthBody(View(a), issue(a))
                    && a.isActive && a.secret == hash(password.value)
                    && ('@' !in id ==> a.username == id)
                    && ('@' in id && UniqueUsernames(t) ==> a.email == id))
              && ('@' in id ==> |WithEmail(t, id)| == 1)
  {
    var id := Identifier(username, email);
    if !(Given(id) && Given(password)) then
      Reply(400, ErrorBody(LoginRequired))
    else if '@' in id.value then
      var matches := WithEmail(t, id.value);
      if |matches| == 0 then Reply(401, ErrorBody(InvalidCredentials))
      else if |matches| > 1 then ServerError
      else
        var user := Authenticate(t, matches[0].username, password.value, hash);
        FindByUsernameOfRow(t, matches[0]);
        LoginAnswer(user, issue)
    else
      LoginAnswer(Authenticate(t, id.value, password.value, hash), issue)
  }

  /** `authenticate` never returns an inactive user, so the "disabled" answer is never given. */
  lemma DisabledBranchUnreachable(t: Table, username: Option<string>, email: Option<string>, password: Option<string>,
                                  hash: string -> string, issue: Account -> Tokens)
    ensures Login(t, username, email, password, hash, issue) != Reply(401, ErrorBody(AccountDisabled))
  {
  }

  /** An inactive account with the right password is refused with 401 "Invalid credentials.". */
  lemma InactiveAccountRefused(t: Table, a: Account, password: string, hash: string -> string, issue: Account -> Tokens)
    requires UniqueUsernames(t) && a in t && !a.isActive && a.secret == hash(password)
    requires a.username != "" && '@' !in a.username && password != ""
    ensures Login(t, Some(a.username), None, Some(password), hash, issue) == Reply(401, ErrorBody(InvalidCredentials))
  {
    var k :| 0 <= k < |t| && t[k] == a;
    FindByUsernameUnique(t, k);
  }

  /** With distinct usernames, looking up a row's username finds that row. */
  lemma {:induction false} FindByUsernameUnique(t: Table, k: nat)
    requires UniqueUsernames(t) && k < |t|
    ensures FindByUsername(t, t[k].username) == Some(t[k])
  {
    if k > 0 {
      assert t[0].username != t[k].username;
      assert UniqueUsernames(t[1..]) by {
        forall i, j | 0 <= i < j < |t[1..]|
          ensures t[1..][i].username != t[1..][j].username
        {
          assert t[1..][i] == t[i + 1] && t[1..][j] == t[j + 1];
        }
      }
      FindByUsernameUnique(t[1..], k - 1);
    }
  }

  /** With distinct usernames, looking up the username of a row finds that row. */
  lemma FindByUsernameOfRow(t: Table, a: Account)
    ensures UniqueUsernames(t) && a in t ==> FindByUsername(t, a.username) == Some(a)
  {
    if UniqueUsernames(t) && a in t {
      var k :| 0 <= k < |t| && t[k] == a;
      FindByUsernameUnique(t, k);
    }
  }

  /** With distinct emails, looking up a row's email finds exactly that row. */
  lemma {:induction false} WithEmailUnique(t: Table, k: nat)
    requires UniqueEmails(t) && k < |t|
    ensures WithEmail(t, t[k].email) == [t[k]]
  {
    if k > 0 {
      assert t[0].email != t[k].email;
      assert UniqueEmails(t[1..]) by {
        forall i, j | 0 <= i < j < |t[1..]|
          ensures t[1..][i].email != t[1..][j].email
        {
          assert t[1..][i] == t[i + 1] && t[1..][j] == t[j + 1];
        }
      }
      WithEmailUnique(t[1..], k - 1);
    } else {
      assert UniqueEmails(t[1..]) by {
        forall i, j | 0 <= i < j < |t[1..]|
          ensures t[1..][i].email != t[1..][j].email
        {
          assert t[1..][i] == t[i + 1] && t[1..][j] == t[j + 1];
        }
      }
    }
  }

  /** An active row with distinct usernames logs in with its username (when it has no `@`) and its password. */
  lemma LoginByUsername(u: Table, k: nat, password: string, hash: string -> string, issue: Account -> Tokens)
    requires UniqueUsernames(u) && k < |u|
    requires u[k].isActive && u[k].secret == hash(password)
    requires u[k].username != "" && '@' !in u[k].username && password != ""
    ensures Login(u, Some(u[k].username), None, Some(password), hash, issue) == Reply(200, AuthBody(View(u[k]), issue(u[k])))
  {
    FindByUsernameUnique(u, k);
  }

  /** An active row with distinct usernames and emails logs in with its email (when it has an `@`) and its password. */
  lemma LoginByEmail(u: Table, k: nat, password: string, hash: string -> string, issue: Account -> Tokens)
    requires UniqueUsernames(u) && UniqueEmails(u) && k < |u|
    requires u[k].isActive && u[k].secret == hash(password)
    requires '@' in u[k].email && password != ""
    ensures Login(u, None, Some(u[k].email), Some(password), hash, issue) == Reply(200, AuthBody(View(u[k]), issue(u[k])))
  {
    WithEmailUnique(u, k);
    FindByUsernameUnique(u, k);
    assert u[k].email != "";
  }

  /**
   * After a successful corrected registration, logging in with the username
   * and the password succeeds, and so does logging in with the stored email
   * when it has an `@`.
   */
  lemma RegisterThenLogin(t: Table, username: string, email: string, password: string,
                          hash: string -> string, issue: Account -> Tokens)
    requires WellFormed(t)
    requires HasStatus(RegisterNormalized(t, Some(username), Some(email), Some(password), hash, issue).response, 201)
    ensures var u := RegisterNormalized(t, Some(username), Some(email), Some(password), hash, issue).users;
            var a := u[|t|];
            && ('@' !in username ==>
                  Login(u, Some(username), None, Some(password), hash, issue) == Reply(200, AuthBody(View(a), issue(a))))
            && ('@' in email ==>
                  Login(u, None, Some(a.email), Some(password), hash, issue) == Reply(200, AuthBody(View(a), issue(a))))
  {
    var u := RegisterNormalized(t, Some(username), Some(email), Some(password), hash, issue).users;
    var a := u[|t|];
    assert a == NewAccount(t, username, email, password, hash);
    if '@' !in username {
      LoginByUsername(u, |t|, password, hash, issue);
    }
    if '@' in email {
      LoginByEmail(u, |t|, password, hash, issue);
    }
  }

  /**
   * Logging in by username is refused with 401 "Invalid credentials." exactly
   * when no active row carries that username and the password's hash: an
   * unknown name, a wrong password and an inactive account get the same answer.
   */
  lemma LoginRefusedIffNoActiveMatch(t: Table, name: string, password: string,
                                     hash: string -> string, issue: Account -> Tokens)
    requires UniqueUsernames(t)
    requires name != "" && '@' !in name && password != ""
    ensures Login(t, Some(name), None, Some(password), hash, issue) == Reply(401, ErrorBody(InvalidCredentials))
            <==> !exists a | a in t :: a.username == name && a.isActive && a.secret == hash(password)
  {
    if exists a | a in t :: a.username == name && a.isActive && a.secret == hash(password) {
      var a :| a in t && a.username == name && a.isActive && a.secret == hash(password);
      FindByUsernameOfRow(t, a);
    }
  }

  /** A registered username containing `@` is always looked up as an email address. */
  lemma AtInUsernameTakesEmailPath(t: Table, username: string, password: string, hash: string -> string, issue: Account -> Tokens)
    requires '@' in username && password != ""
    requires !EmailTaken(t, username)
    ensures Login(t, Some(username), None, Some(password), hash, issue) == Reply(401, ErrorBody(InvalidCredentials))
  {
  }

  /** `logout`'s answer and the refresh-token blacklist after it. */
  datatype LogoutResult = LogoutResult(response: Response, blacklist: set<string>)

  /**
   * `logout`: an authenticated request with a refresh token that decodes
   * (`valid`) and is not yet blacklisted blacklists it. Verifying a
   * blacklisted token fails, so a token is accepted once.
   */
  function Logout(requester: Option<Account>, refresh: Option<string>, blacklist: set<string>,
                  valid: string -> bool): (r: LogoutResult)
    ensures requester.None? ==> r == LogoutResult(NotAuthenticated, blacklist)
    ensures requester.Some? && !Given(refresh) ==> r == LogoutResult(Reply(400, ErrorBody(RefreshRequired)), blacklist)
    ensures HasStatus(r.response, 200) <==>
              requester.Some? && Given(refresh) && valid(refresh.value) && refresh.value !in blacklist
    ensures HasStatus(r.response, 200) ==> r.blacklist == blacklist + {refresh.value}
    ensures !HasStatus(r.response, 200) ==> r.blacklist == blacklist
  {
    if requester.None? then LogoutResult(NotAuthenticated, blacklist)
    else if !Given(refresh) then LogoutResult(Reply(400, ErrorBody(RefreshRequired)), blacklist)
    else if !valid(refresh.value) || refresh.value in blacklist then
      LogoutResult(Reply(400, ErrorBody(InvalidToken)), blacklist)
    else LogoutResult(Reply(200, MessageBody(LoggedOut)), blacklist + {refresh.value})
  }

  /** Logging out twice with the same refresh token: the second attempt is refused and changes nothing. */
  lemma LogoutTwice(requester: Account, other: Account, refresh: string, blacklist: set<string>, valid: string -> bool)
    requires HasStatus(Logout(Some(requester), Some(refresh), blacklist, valid).response, 200)
    ensures var b := Logout(Some(requester), Some(refresh), blacklist, valid).blacklist;
            Logout(Some(other), Some(refresh), b, valid) == LogoutResult(Reply(400, ErrorBody(InvalidToken)), b)
  {
  }

  /** Which authenticated user asks makes no difference: the token is not checked against the requester. */
  lemma LogoutIgnoresRequester(a: Account, b: Account, refresh: Option<string>, blacklist: set<string>, valid: string -> bool)
    ensures Logout(Some(a), refresh, blacklist, valid) == Logout(Some(b), refresh, blacklist, valid)
  {
  }

  /** `me`: the requester's own record. */
  function Me(requester: Option<Account>): (r: Response)
    ensures requester.None? <==> r == NotAuthenticated
    ensures requester.Some? ==>
              && HasStatus(r, 200) && r.body.UserBody?
              && r.body.user.id == requester.value.id
              && r.body.user.username == requester.value.username
              && r.body.user.email == requester.value.email
              && r.body.user.isAdmin == requester.value.isStaff
  {
    match requester
    case None => NotAuthenticated
    case Some(a) => Reply(200, UserBody(View(a)))
  }

  // ---------------------------------------------------------------------------
  // The email check of `register` as written
  // ---------------------------------------------------------------------------

  /** The rows with a given email after appending one row. */
  lemma {:induction false} WithEmailAppend(t: Table, a: Account, email: string)
    ensures WithEmail(t + [a], email) == WithEmail(t, email) + (if a.email == email then [a] else [])
  {
    if |t| > 0 {
      assert (t + [a])[1..] == t[1..] + [a];
      WithEmailAppend(t[1..], a, email);
    }
  }

  /** Normalising `l@d`, for `d` without `@` and no white space at the ends. */
  lemma NormalizeJoined(l: string, d: string)
    requires '@' !in d
    requires l == [] || !IsPySpace(l[0])
    requires d == [] || !IsPySpace(d[|d| - 1])
    ensures NormalizeEmail(l + "@" + d) == l + "@" + Lower(d)
  {
    JoinedIsStripped(l, d);
    JoinedLastAt(l, d);
    NormalizeStripped(l + "@" + d, |l|);
    JoinParts(l, d);
  }

  /**
   * As written, an address whose normalised form is taken but whose raw form
   * is not is accepted: afterwards two rows carry the same email, and logging
   * in with it is a server error.
   */
  lemma RegisterAcceptsDuplicate(t: Table, k: nat, username: string, email: string, password: string,
                                 hash: string -> string, issue: Account -> Tokens)
    requires k < |t| && NormalizeEmail(email) == t[k].email && '@' in t[k].email
    requires !EmailTaken(t, email)
    requires username != "" && email != "" && password != "" && !UsernameTaken(t, username)
    ensures var h := Register(t, Some(username), Some(email), Some(password), hash, issue);
            && HasStatus(h.response, 201)
            && !UniqueEmails(h.users)
            && Login(h.users, None, Some(t[k].email), Some(password), hash, issue) == ServerError
  {
    var a := NewAccount(t, username, email, password, hash);
    RegisterAppends(t, username, email, password, hash, issue);
    DuplicateAfterAppend(t, a, k, password, hash, issue);
  }

  /** A registration that passes the checks as written appends exactly the new row. */
  lemma RegisterAppends(t: Table, username: string, email: string, password: string,
                        hash: string -> string, issue: Account -> Tokens)
    requires username != "" && email != "" && password != ""
    requires !UsernameTaken(t, username) && !EmailTaken(t, email)
    ensures Register(t, Some(username), Some(email), Some(password), hash, issue)
            == Created(t, username, email, password, hash, issue)
  {
  }

  /** Appending a row with the email of an existing row makes logging in with that email a server error. */
  lemma DuplicateAfterAppend(t: Table, a: Account, k: nat, password: string, hash: string -> string, issue: Account -> Tokens)
    requires k < |t| && a.email == t[k].email && '@' in a.email && password != ""
    ensures !UniqueEmails(t + [a])
    ensures Login(t + [a], None, Some(a.email), Some(password), hash, issue) == ServerError
  {
    var u := t + [a];
    assert u[k] == t[k] && u[|t|] == a;
    WithEmailAppend(t, a, a.email);
    assert EmailTaken(t, a.email);
    assert a.email != "";
  }

  const Alice := Account(1, "alice", "a@x.com", "s", false, true)

  /** A domain that lower-cases to Alice's makes `a@<domain>` normalise to Alice's address. */
  lemma ExampleNormalizes(domain: string)
    requires '@' !in domain && |domain| > 0 && !IsPySpace(domain[|domain| - 1])
    requires Lower(domain) == "x.com"
    ensures NormalizeEmail("a" + "@" + domain) == Alice.email
  {
    NormalizeJoined("a", domain);
    AliceEmailParts();
  }

  lemma AliceEmailParts()
    ensures Alice.email == "a" + "@" + "x.com"
  {
  }

  /** The example: "a@x.com" exists and "bob" registers as "a@X.com". */
  lemma RegisterDuplicatesExample(domain: string, hash: string -> string, issue: Account -> Tokens)
    requires domain == "X.com"
    ensures var h := Register([Alice], Some("bob"), Some("a" + "@" + domain), Some("pw"), hash, issue);
            && HasStatus(h.response, 201)
            && !UniqueEmails(h.users)
            && Login(h.users, None, Some(Alice.email), Some("pw"), hash, issue) == ServerError
  {
    ExampleNormalizes(domain);
    DuplicateExampleFacts(domain);
    RegisterAcceptsDuplicate([Alice], 0, "bob", "a" + "@" + domain, "pw", hash, issue);
  }

  /** "a@X.com" is not Alice's address as written, and "bob" is not her name. */
  lemma DuplicateExampleFacts(domain: string)
    requires domain == "X.com"
    ensures '@' in Alice.email
    ensures !EmailTaken([Alice], "a" + "@" + domain) && !UsernameTaken([Alice], "bob")
  {
    var e := "a" + "@" + domain;
    assert Alice.email[1] == '@';
    assert Alice.email[2] != e[2];
  }

  /** The corrected check answers "Email already exists." when the normalised address is taken. */
  lemma RegisterNormalizedRefusesTaken(t: Table, username: string, email: string, password: string,
                                       hash: string -> string, issue: Account -> Tokens)
    requires username != "" && email != "" && password != ""
    requires !UsernameTaken(t, username) && EmailTaken(t, NormalizeEmail(email))
    ensures RegisterNormalized(t, Some(username), Some(email), Some(password), hash, issue)
            == Handled(Reply(400, ErrorBody(EmailExists)), t)
  {
  }

  /** The corrected check refuses the registration of the example. */
  lemma RegisterNormalizedRefusesExample(domain: string, hash: string -> string, issue: Account -> Tokens)
    requires domain == "X.com"
    ensures RegisterNormalized([Alice], Some("bob"), Some("a" + "@" + domain), Some("pw"), hash, issue)
            == Handled(Reply(400, ErrorBody(EmailExists)), [Alice])
  {
    ExampleAddressTaken(domain);
    assert !UsernameTaken([Alice], "bob");
    RegisterNormalizedRefusesTaken([Alice], "bob", "a" + "@" + domain, "pw", hash, issue);
  }

  /** Alice already holds the normalised form of `a@X.com`. */
  lemma ExampleAddressTaken(domain: string)
    requires domain == "X.com"
    ensures EmailTaken([Alice], NormalizeEmail("a" + "@" + domain))
  {
    ExampleNormalizes(domain);
    assert [Alice][0].email == NormalizeEmail("a" + "@" + domain);
  }
}

=== FILE: index_page.dfy ===
/**
 * The list logic of the home page (`pages/Index.tsx`): which sounds it
 * shows, the client-side filter over the favourites, and the tag list it
 * offers in the filter bar.
 */
module IndexPage {
  import opened Wrappers
  import opened Text
  import opened Seqs
  import Js
  import Api

  // ---------------------------------------------------------------------------
  // Favourites filter

  /** A sound's tag as the favourites list may carry it: a tag object or a bare name. */
  datatype TagRef = TagObj(name: string) | TagText(text: string)

  /** The parts of a favourite sound the filter reads. */
  datatype Card = Card(name: string, tags: seq<TagRef>)

  /** `typeof t === 'object' ? t.name : t`. */
  function TagName(t: TagRef): string {
    match t
    case TagObj(name) => name
    case TagText(text) => text
  }

  /** `soundTags.includes(tag)`: some tag of the card has exactly that name. */
  predicate HasTagNamed(c: Card, tag: string) {
    exists i | 0 <= i < |c.tags| :: TagName(c.tags[i]) == tag
  }

  /** The favourites filter: an empty search and no selected tag let everything through. */
  predicate ShowsFavorite(c: Card, search: string, selectedTag: Option<string>) {
    && (search == "" || ContainsIgnoringCase(c.name, search))
    && (!Given(selectedTag) || HasTagNamed(c, selectedTag.value))
  }

  /** The favourites the page shows, in the order the server listed them. */
  function FavoritesShown(favs: seq<Card>, search: string, selectedTag: Option<string>): (r: seq<Card>)
    ensures forall i | 0 <= i < |r| :: r[i] in favs && ShowsFavorite(r[i], search, selectedTag)
    ensures forall i | 0 <= i < |favs| :: ShowsFavorite(favs[i], search, selectedTag) ==> favs[i] in r
  {
    Filter(favs, (c: Card) => ShowsFavorite(c, search, selectedTag))
  }

  /** With no search and no tag selected, every favourite is shown. */
  lemma NoFiltersShowAll(favs: seq<Card>)
    ensures FavoritesShown(favs, "", None) == favs
  {
    FilterAll(favs, (c: Card) => ShowsFavorite(c, "", None));
  }

  /** The filter keeps the server's order: it distributes over any split of the list. */
  lemma FavoritesShownAppend(a: seq<Card>, b: seq<Card>, search: string, selectedTag: Option<string>)
    ensures FavoritesShown(a + b, search, selectedTag) == FavoritesShown(a, search, selectedTag) + FavoritesShown(b, search, selectedTag)
  {
    FilterAppend(a, b, (c: Card) => ShowsFavorite(c, search, selectedTag));
  }

  /** Filtering again with the same inputs changes nothing. */
  lemma FavoritesShownIdempotent(favs: seq<Card>, search: string, selectedTag: Option<string>)
    ensures FavoritesShown(FavoritesShown(favs, search, selectedTag), search, selectedTag) == FavoritesShown(favs, search, selectedTag)
  {
    var r := FavoritesShown(favs, search, selectedTag);
    FilterAll(r, (c: Card) => ShowsFavorite(c, search, selectedTag));
  }

  // ---------------------------------------------------------------------------
  // The sound list

  /**
   * `soundsData?.results || []`, as written on the home page and on the admin
   * page: the `results` of a paginated envelope, and nothing for any other
   * reply, a bare array included.
   */
  function ResultsOrEmpty(data: Js.Value): (r: Js.Value)
    ensures Js.Has(data, "results") && Js.Truthy(data.fields["results"]) ==> r == data.fields["results"]
    ensures !Js.Has(data, "results") ==> r == Js.Arr([])
  {
    if Js.ReadThrows(data) then Js.Arr([]) else Js.Or(Js.Get(data, "results"), Js.Arr([]))
  }

  /** As written, a bare array of sounds, which the unpaginated server sends, shows as an empty page. */
  lemma BareListShowsNothing(items: seq<Js.Value>)
    ensures ResultsOrEmpty(Js.Arr(items)) == Js.Arr([])
  {
  }

  /** The list the page shows from the sounds reply: the same normalisation `tagsAPI.list` applies. */
  function SoundsOf(data: Js.Value): (r: Js.Value)
    ensures data.Arr? ==> r == data
    ensures Js.Has(data, "results") && Js.Truthy(data.fields["results"]) ==> r == data.fields["results"]
    ensures !data.Arr? && !Js.Has(data, "results") ==> r == Js.Arr([])
  {
    Api.Unwrap(data)
  }

  /** The normalised list shows the server's sounds whether or not they come paginated. */
  lemma SoundsOfShowsServerList(count: int, next: Js.Value, previous: Js.Value, items: seq<Js.Value>)
    ensures SoundsOf(Js.Arr(items)) == Js.Arr(items)
    ensures SoundsOf(Api.Envelope(count, next, previous, items)) == Js.Arr(items)
  {
    Api.UnwrapEnvelopeRoundTrip(count, next, previous, items);
  }

  /** On a paginated reply the normalised list and the written one agree, so the correction changes nothing there. */
  lemma SoundsOfAgreesOnEnvelopes(data: Js.Value)
    requires Js.Has(data, "results") && data.fields["results"].Arr?
    ensures SoundsOf(data) == ResultsOrEmpty(data)
  {
  }

  /** What the page lists: the filtered favourites, or the sounds reply. */
  datatype Shown = FromFavorites(cards: seq<Card>) | FromList(list: Js.Value)

  /**
   * The page's choice of list, as written: the favourites (`[]` while they
   * load) when the favourites toggle is on and the user is signed in,
   * otherwise `soundsData?.results || []`.
   */
  function Displayed(showFavorites: bool, signedIn: bool, favorites: Option<seq<Card>>, soundsData: Js.Value,
                     search: string, selectedTag: Option<string>): (r: Shown)
    ensures r.FromFavorites? <==> showFavorites && signedIn
    ensures r.FromFavorites? ==> forall i | 0 <= i < |r.cards| ::
              favorites.Some? && r.cards[i] in favorites.value && ShowsFavorite(r.cards[i], search, selectedTag)
    ensures r.FromFavorites? && favorites.Some? ==> forall i | 0 <= i < |favorites.value| ::
              ShowsFavorite(favorites.value[i], search, selectedTag) ==> favorites.value[i] in r.cards
    ensures r.FromList? && soundsData.Arr? ==> r.list == Js.Arr([])
    ensures r.FromList? && Js.Has(soundsData, "results") && Js.Truthy(soundsData.fields["results"]) ==>
              r.list == soundsData.fields["results"]
    ensures r.FromList? && !Js.Has(soundsData, "results") ==> r.list == Js.Arr([])
  {
    if showFavorites && signedIn then FromFavorites(FavoritesShown(favorites.GetOr([]), search, selectedTag))
    else FromList(ResultsOrEmpty(soundsData))
  }

  /** The page's choice of list with the sound list normalised by `SoundsOf`, so a bare array is shown. */
  function DisplayedCorrected(showFavorites: bool, signedIn: bool, favorites: Option<seq<Card>>, soundsData: Js.Value,
                              search: string, selectedTag: Option<string>): (r: Shown)
    ensures r.FromFavorites? <==> showFavorites && signedIn
    ensures r.FromFavorites? ==> forall i | 0 <= i < |r.cards| ::
              favorites.Some? && r.cards[i] in favorites.value && ShowsFavorite(r.cards[i], search, selectedTag)
    ensures r.FromFavorites? && favorites.Some? ==> forall i | 0 <= i < |favorites.value| ::
              ShowsFavorite(favorites.value[i], search, selectedTag) ==> favorites.value[i] in r.cards
    ensures r.FromList? && soundsData.Arr? ==> r.list == soundsData
    ensures r.FromList? && Js.Has(soundsData, "results") && Js.Truthy(soundsData.fields["results"]) ==>
              r.list == soundsData.fields["results"]
    ensures r.FromList? && !soundsData.Arr? && !Js.Has(soundsData, "results") ==> r.list == Js.Arr([])
  {
    if showFavorites && signedIn then FromFavorites(FavoritesShown(favorites.GetOr([]), search, selectedTag))
    else FromList(SoundsOf(soundsData))
  }

  /**
   * The page as written and the corrected page differ exactly when the sound
   * list is shown and the server sent a non-empty bare array.
   */
  lemma DisplayedDiffersOnlyOnBareLists(showFavorites: bool, signedIn: bool, favorites: Option<seq<Card>>,
                                        soundsData: Js.Value, search: string, selectedTag: Option<string>)
    ensures Displayed(showFavorites, signedIn, favorites, soundsData, search, selectedTag)
            != DisplayedCorrected(showFavorites, signedIn, favorites, soundsData, search, selectedTag)
            <==> !(showFavorites && signedIn) && soundsData.Arr? && soundsData.items != []
  {
  }

  // ---------------------------------------------------------------------------
  // Tags

  /** The tag list of the filter bar: an array as it is, an envelope's array of `results`, otherwise nothing. */
  function TagList(data: Js.Value): (r: seq<Js.Value>)
    ensures data.Arr? ==> r == data.items
    ensures Js.Has(data, "results") && data.fields["results"].Arr? ==> r == data.fields["results"].items
    ensures !data.Arr? && !(Js.Has(data, "results") && data.fields["results"].Arr?) ==> r == []
  {
    if !Js.Truthy(data) then []
    else if data.Arr? then data.items
    else
      var res := Js.Get(data, "results");
      if Js.Truthy(res) && res.Arr? then res.items else []
  }

  /** Fed what `tagsAPI.list` returns for either reply shape, the filter bar offers exactly the server's tags. */
  lemma TagListOfListedTags(count: int, next: Js.Value, previous: Js.Value, items: seq<Js.Value>)
    ensures TagList(Api.Unwrap(Js.Arr(items))) == items
    ensures TagList(Api.Unwrap(Api.Envelope(count, next, previous, items))) == items
  {
    Api.UnwrapEnvelopeRoundTrip(count, next, previous, items);
  }
}

=== FILE: js.dfy ===
/**
 * JavaScript values as the client sees them after `JSON.parse`, plus `undefined`,
 * with the truthiness and property-read rules the client code relies on.
 */
module Js {

  /** A JSON value or `undefined`. Numbers are integers in this model. */
  datatype Value =
    | Undefined
    | Null
    | Bool(b: bool)
    | Num(n: int)
    | Str(s: string)
    | Arr(items: seq<Value>)
    | Obj(fields: map<string, Value>)

  /** JavaScript truthiness: `undefined`, `null`, `false`, `0` and `""` are falsy; arrays and objects are truthy. */
  predicate Truthy(v: Value) {
    match v
    case Undefined => false
    case Null => false
    case Bool(b) => b
    case Num(n) => n != 0
    case Str(s) => s != ""
    case Arr(_) => true
    case Obj(_) => true
  }

  /** Reading a property of `null` or `undefined` throws a `TypeError`. */
  predicate ReadThrows(v: Value) {
    v.Undefined? || v.Null?
  }

  /** `v[key]` for a named (non-index, non-`length`) key: only objects carry such properties. */
  function Get(v: Value, key: string): Value
    requires !ReadThrows(v)
  {
    if v.Obj? && key in v.fields then v.fields[key] else Undefined
  }

  /** `key in v` for an object. */
  predicate Has(v: Value, key: string) {
    v.Obj? && key in v.fields
  }

  /** JavaScript `a || b`. */
  function Or(a: Value, b: Value): Value {
    if Truthy(a) then a else b
  }

  /** Loose `v != null`: neither `null` nor `undefined`. */
  predicate IsPresent(v: Value) {
    !v.Undefined? && !v.Null?
  }
}

=== FILE: middleware.dfy ===
/**
 * `SecurityHeadersMiddleware` (`soundvault_backend/middleware.py`): after the
 * view has answered, the content-security, permissions and referrer policies
 * from the settings, and `X-Content-Type-Options: nosniff`, are added to the
 * response unless it already carries them.
 *
 * Django response headers are looked up case-insensitively, so the model keys
 * them by their lower-case name.
 */
module Middleware {
  import opened Wrappers
  import opened Text

  /** Response headers by lower-case name. */
  type Headers = map<string, string>

  const CspHeader: string := "content-security-policy"
  const PermissionsHeader: string := "permissions-policy"
  const ReferrerHeader: string := "referrer-policy"
  const NoSniffHeader: string := "x-content-type-options"
  const NoSniff: string := "nosniff"

  /** The three policy settings as `getattr(settings, name, None)` reads them; `None` is an absent setting. */
  datatype Policies = Policies(csp: Option<string>, permissions: Option<string>, referrer: Option<string>)

  /** The values settings.py gives the policies when the environment does not override the content-security policy. */
  const DefaultPolicies: Policies := Policies(
    Some("default-src 'self'; frame-ancestors 'none'; object-src 'none'; base-uri 'self'; script-src 'self'; "
         + "style-src 'self' 'unsafe-inline'; img-src 'self' data:; connect-src 'self'; font-src 'self'; "
         + "media-src 'self'; form-action 'self'"),
    Some("camera=(), microphone=(), geolocation=()"),
    Some("strict-origin-when-cross-origin"))

  /** `response.setdefault(name, value)`: a header already present wins. */
  function SetDefault(h: Headers, name: string, value: string): (r: Headers)
    ensures name in r && r[name] == (if name in h then h[name] else value)
    ensures forall k | k in h :: k in r && r[k] == h[k]
    ensures forall k | k in r :: k in h || k == name
  {
    if name in h then h else h[name := value]
  }

  /** `setdefault` only when the setting is truthy: present and non-empty. */
  function SetDefaultIf(h: Headers, name: string, value: Option<string>): (r: Headers)
    ensures name in r <==> name in h || Given(value)
    ensures name in r && name !in h ==> r[name] == value.value
    ensures forall k | k in h :: k in r && r[k] == h[k]
    ensures forall k | k in r :: k in h || k == name
  {
    if Given(value) then SetDefault(h, name, value.value) else h
  }

  /** The middleware's `__call__` applied to the view's response headers. */
  function Secure(h: Headers, p: Policies): (r: Headers)
    ensures forall k | k in h :: k in r && r[k] == h[k]
    ensures forall k | k in r :: k in h || k in {CspHeader, PermissionsHeader, ReferrerHeader, NoSniffHeader}
    ensures NoSniffHeader in r && (NoSniffHeader !in h ==> r[NoSniffHeader] == NoSniff)
    ensures CspHeader in r <==> CspHeader in h || Given(p.csp)
    ensures CspHeader in r && CspHeader !in h ==> r[CspHeader] == p.csp.value
    ensures PermissionsHeader in r <==> PermissionsHeader in h || Given(p.permissions)
    ensures PermissionsHeader in r && PermissionsHeader !in h ==> r[PermissionsHeader] == p.permissions.value
    ensures ReferrerHeader in r <==> ReferrerHeader in h || Given(p.referrer)
    ensures ReferrerHeader in r && ReferrerHeader !in h ==> r[ReferrerHeader] == p.referrer.value
  {
    var h1 := SetDefaultIf(h, CspHeader, p.csp);
    var h2 := SetDefaultIf(h1, PermissionsHeader, p.permissions);
    var h3 := SetDefaultIf(h2, ReferrerHeader, p.referrer);
    SetDefault(h3, NoSniffHeader, NoSniff)
  }

  /** Passing a response through the middleware twice changes nothing the first pass did not. */
  lemma SecureIdempotent(h: Headers, p: Policies)
    ensures Secure(Secure(h, p), p) == Secure(h, p)
  {
    var once := Secure(h, p);
    var twice := Secure(once, p);
    assert twice.Keys == once.Keys;
  }

  /** Under the default settings every response leaves with all four headers. */
  lemma DefaultsSetAllFour(h: Headers)
    ensures var r := Secure(h, DefaultPolicies);
            CspHeader in r && PermissionsHeader in r && ReferrerHeader in r && NoSniffHeader in r
  {
  }

  /** A header the view set itself is never overwritten, whatever the settings. */
  lemma ViewHeadersWin(h: Headers, p: Policies, name: string)
    requires name in h
    ensures Secure(h, p)[name] == h[name]
  {
  }
}

=== FILE: models.dfy ===
/**
 * The server's content tables (`sounds/models.py`): tags, sounds, comments and
 * favourites next to the user table, with the constraints the schema declares,
 * the rows its `on_delete=CASCADE` foreign keys take along, the default
 * orderings and the `__str__` renderings.
 */
module Models {
  import opened Wrappers
  import opened Seqs
  import opened Accounts

  /** `Tag.name` is a `CharField(max_length=50)`. */
  const TagNameMax: nat := 50
  /** `Sound.name` is a `CharField(max_length=200)`. */
  const SoundNameMax: nat := 200

  datatype Tag = Tag(id: nat, name: string)

  /**
   * A sound. The file fields hold the stored file name, `""` being an empty
   * (falsy) file field; `tags` is the many-to-many link, possibly empty.
   */
  datatype Sound = Sound(id: nat, name: string, description: Option<string>, mp3File: string, image: string,
                         uploadedBy: nat, createdAt: int, updatedAt: int, tags: set<nat>)

  datatype Comment = Comment(id: nat, sound: nat, user: nat, content: string, createdAt: int)

  datatype Favorite = Favorite(id: nat, user: nat, sound: nat, createdAt: int)

  /** The whole database. */
  datatype Db = Db(users: Table, tags: seq<Tag>, sounds: seq<Sound>, comments: seq<Comment>, favorites: seq<Favorite>)

  function UserIds(t: Table): set<nat> {
    set a | a in t :: a.id
  }

  function TagIds(ts: seq<Tag>): set<nat> {
    set x | x in ts :: x.id
  }

  function SoundIds(ss: seq<Sound>): set<nat> {
    set s | s in ss :: s.id
  }

  /** The (user, sound) pair `unique_together` constrains. */
  function Pair(f: Favorite): (nat, nat) {
    (f.user, f.sound)
  }

  /** Primary keys and `unique` columns hold no duplicates. */
  predicate Keys(db: Db) {
    && UniqueIds(db.users) && UniqueUsernames(db.users)
    && UniqueBy(db.tags, (x: Tag) => x.id) && UniqueBy(db.tags, (x: Tag) => x.name)
    && UniqueBy(db.sounds, (s: Sound) => s.id)
    && UniqueBy(db.comments, (c: Comment) => c.id)
    && UniqueBy(db.favorites, (f: Favorite) => f.id) && UniqueBy(db.favorites, Pair)
  }

  /** Every `max_length` holds. */
  predicate Limits(db: Db) {
    && (forall i | 0 <= i < |db.tags| :: |db.tags[i].name| <= TagNameMax)
    && (forall i | 0 <= i < |db.sounds| :: |db.sounds[i].name| <= SoundNameMax)
  }

  /** Every foreign key, and every many-to-many link, points at an existing row. */
  predicate Linked(db: Db) {
    && (forall i | 0 <= i < |db.sounds| ::
          db.sounds[i].uploadedBy in UserIds(db.users) && db.sounds[i].tags <= TagIds(db.tags))
    && (forall i | 0 <= i < |db.comments| ::
          db.comments[i].sound in SoundIds(db.sounds) && db.comments[i].user in UserIds(db.users))
    && (forall i | 0 <= i < |db.favorites| ::
          db.favorites[i].sound in SoundIds(db.sounds) && db.favorites[i].user in UserIds(db.users))
  }

  predicate Valid(db: Db) {
    Keys(db) && Limits(db) && Linked(db)
  }

  // ---------------------------------------------------------------------------
  // Cascades

  /** `Sound.delete()`: the sound goes, and so do its comments and favourites. */
  function DeleteSound(db: Db, sid: nat): (r: Db)
    ensures sid !in SoundIds(r.sounds)
    ensures forall i | 0 <= i < |r.comments| :: r.comments[i].sound != sid
    ensures forall i | 0 <= i < |r.favorites| :: r.favorites[i].sound != sid
    ensures r.users == db.users && r.tags == db.tags
    ensures forall i | 0 <= i < |db.comments| :: db.comments[i].sound != sid ==> db.comments[i] in r.comments
    ensures forall i | 0 <= i < |db.favorites| :: db.favorites[i].sound != sid ==> db.favorites[i] in r.favorites
    ensures forall i | 0 <= i < |db.sounds| :: db.sounds[i].id != sid ==> db.sounds[i] in r.sounds
    ensures forall i | 0 <= i < |r.sounds| :: r.sounds[i] in db.sounds
    ensures forall i | 0 <= i < |r.comments| :: r.comments[i] in db.comments
    ensures forall i | 0 <= i < |r.favorites| :: r.favorites[i] in db.favorites
  {
    Db(db.users, db.tags,
       Filter(db.sounds, (s: Sound) => s.id != sid),
       Filter(db.comments, (c: Comment) => c.sound != sid),
       Filter(db.favorites, (f: Favorite) => f.sound != sid))
  }

  /** Deleting a sound leaves a valid database valid. */
  lemma DeleteSoundValid(db: Db, sid: nat)
    requires Valid(db)
    ensures Valid(DeleteSound(db, sid))
  {
    var r := DeleteSound(db, sid);
    FilterUnique(db.sounds, (s: Sound) => s.id, (s: Sound) => s.id != sid);
    FilterUnique(db.comments, (c: Comment) => c.id, (c: Comment) => c.sound != sid);
    FilterUnique(db.favorites, (f: Favorite) => f.id, (f: Favorite) => f.sound != sid);
    FilterUnique(db.favorites, Pair, (f: Favorite) => f.sound != sid);
    forall i | 0 <= i < |r.comments|
      ensures r.comments[i].sound in SoundIds(r.sounds)
    {
      SurvivorKeepsSound(db, sid, r.comments[i].sound);
    }
    forall i | 0 <= i < |r.favorites|
      ensures r.favorites[i].sound in SoundIds(r.sounds)
    {
      SurvivorKeepsSound(db, sid, r.favorites[i].sound);
    }
  }

  /** A sound other than the deleted one is still there. */
  lemma SurvivorKeepsSound(db: Db, sid: nat, x: nat)
    requires x in SoundIds(db.sounds) && x != sid
    ensures x in SoundIds(DeleteSound(db, sid).sounds)
  {
    var s :| s in db.sounds && s.id == x;
    var k :| 0 <= k < |db.sounds| && db.sounds[k] == s;
    assert s in Filter(db.sounds, (s: Sound) => s.id != sid);
  }

  /** The ids of the sounds a user uploaded. */
  function UploadsOf(db: Db, uid: nat): set<nat> {
    set s | s in db.sounds && s.uploadedBy == uid :: s.id
  }

  /**
   * `User.delete()`: the user goes, and so do their sounds, their comments,
   * their favourites, and every comment and favourite on one of their sounds.
   */
  function DeleteUser(db: Db, uid: nat): (r: Db)
    ensures forall i | 0 <= i < |r.users| :: r.users[i].id != uid
    ensures forall i | 0 <= i < |r.sounds| :: r.sounds[i].uploadedBy != uid
    ensures forall i | 0 <= i < |r.comments| :: r.comments[i].user != uid
    ensures forall i | 0 <= i < |r.favorites| :: r.favorites[i].user != uid
    ensures r.tags == db.tags
    ensures forall i | 0 <= i < |db.users| :: db.users[i] in r.users <==> db.users[i].id != uid
    ensures forall i | 0 <= i < |r.users| :: r.users[i] in db.users
    ensures forall i | 0 <= i < |db.sounds| :: db.sounds[i] in r.sounds <==> db.sounds[i].uploadedBy != uid
    ensures forall i | 0 <= i < |r.sounds| :: r.sounds[i] in db.sounds
    ensures forall i | 0 <= i < |db.comments| ::
              db.comments[i] in r.comments <==> db.comments[i].user != uid && db.comments[i].sound !in UploadsOf(db, uid)
    ensures forall i | 0 <= i < |r.comments| :: r.comments[i] in db.comments
    ensures forall i | 0 <= i < |db.favorites| ::
              db.favorites[i] in r.favorites <==> db.favorites[i].user != uid && db.favorites[i].sound !in UploadsOf(db, uid)
    ensures forall i | 0 <= i < |r.favorites| :: r.favorites[i] in db.favorites
  {
    var gone := UploadsOf(db, uid);
    Db(Filter(db.users, (a: Account) => a.id != uid), db.tags,
       Filter(db.sounds, (s: Sound) => s.uploadedBy != uid),
       Filter(db.comments, (c: Comment) => c.user != uid && c.sound !in gone),
       Filter(db.favorites, (f: Favorite) => f.user != uid && f.sound !in gone))
  }

  /** Deleting a user leaves a valid database valid: nothing points at the user or at a removed sound. */
  lemma DeleteUserValid(db: Db, uid: nat)
    requires Valid(db)
    ensures Valid(DeleteUser(db, uid))
  {
    var r := DeleteUser(db, uid);
    var gone := UploadsOf(db, uid);
    UserKeys(db.users);
    FilterUnique(db.users, (a: Account) => a.id, (a: Account) => a.id != uid);
    FilterUnique(db.users, (a: Account) => a.username, (a: Account) => a.id != uid);
    UserKeys(r.users);
    FilterUnique(db.sounds, (s: Sound) => s.id, (s: Sound) => s.uploadedBy != uid);
    FilterUnique(db.comments, (c: Comment) => c.id, (c: Comment) => c.user != uid && c.sound !in gone);
    FilterUnique(db.favorites, (f: Favorite) => f.id, (f: Favorite) => f.user != uid && f.sound !in gone);
    FilterUnique(db.favorites, Pair, (f: Favorite) => f.user != uid && f.sound !in gone);
    forall i | 0 <= i < |r.sounds|
      ensures r.sounds[i].uploadedBy in UserIds(r.users)
    {
      assert r.sounds[i] in db.sounds;
      OtherUserStays(db, uid, r.sounds[i].uploadedBy);
    }
    forall i | 0 <= i < |r.comments|
      ensures r.comments[i].sound in SoundIds(r.sounds) && r.comments[i].user in UserIds(r.users)
    {
      var c := r.comments[i];
      assert c in db.comments;
      OtherUserStays(db, uid, c.user);
      OtherSoundStays(db, uid, c.sound);
    }
    forall i | 0 <= i < |r.favorites|
      ensures r.favorites[i].sound in SoundIds(r.sounds) && r.favorites[i].user in UserIds(r.users)
    {
      var f := r.favorites[i];
      assert f in db.favorites;
      OtherUserStays(db, uid, f.user);
      OtherSoundStays(db, uid, f.sound);
    }
  }

  /** The user table's key predicates are the generic ones. */
  lemma UserKeys(t: Table)
    ensures UniqueIds(t) <==> UniqueBy(t, (a: Account) => a.id)
    ensures UniqueUsernames(t) <==> UniqueBy(t, (a: Account) => a.username)
  {
  }

  lemma OtherUserStays(db: Db, uid: nat, x: nat)
    requires x in UserIds(db.users) && x != uid
    ensures x in UserIds(DeleteUser(db, uid).users)
  {
    var a :| a in db.users && a.id == x;
    var k :| 0 <= k < |db.users| && db.users[k] == a;
    assert a in Filter(db.users, (a: Account) => a.id != uid);
  }

  lemma OtherSoundStays(db: Db, uid: nat, x: nat)
    requires UniqueBy(db.sounds, (s: Sound) => s.id)
    requires x in SoundIds(db.sounds) && x !in UploadsOf(db, uid)
    ensures x in SoundIds(DeleteUser(db, uid).sounds)
  {
    var s :| s in db.sounds && s.id == x;
    var k :| 0 <= k < |db.sounds| && db.sounds[k] == s;
    assert s.uploadedBy != uid;
    assert s in Filter(db.sounds, (s: Sound) => s.uploadedBy != uid);
  }

  /** Removes one tag from every sound's tag set. */
  function Untag(ss: seq<Sound>, tid: nat): (r: seq<Sound>)
    ensures |r| == |ss|
    ensures forall i | 0 <= i < |ss| :: r[i] == ss[i].(tags := ss[i].tags - {tid})
  {
    if |ss| == 0 then [] else [ss[0].(tags := ss[0].tags - {tid})] + Untag(ss[1..], tid)
  }

  /** `Tag.delete()`: the tag goes, and so do its many-to-many links; the sounds stay. */
  function DeleteTag(db: Db, tid: nat): (r: Db)
    ensures tid !in TagIds(r.tags)
    ensures forall i | 0 <= i < |r.sounds| :: tid !in r.sounds[i].tags
    ensures |r.sounds| == |db.sounds| && SoundIds(r.sounds) == SoundIds(db.sounds)
    ensures forall i | 0 <= i < |db.sounds| :: r.sounds[i] == db.sounds[i].(tags := db.sounds[i].tags - {tid})
    ensures forall i | 0 <= i < |db.tags| :: db.tags[i].id != tid ==> db.tags[i] in r.tags
    ensures forall i | 0 <= i < |r.tags| :: r.tags[i] in db.tags
    ensures r.users == db.users && r.comments == db.comments && r.favorites == db.favorites
  {
    var ss := Untag(db.sounds, tid);
    assert SoundIds(ss) == SoundIds(db.sounds) by {
      forall x | x in SoundIds(db.sounds) ensures x in SoundIds(ss) {
        var s :| s in db.sounds && s.id == x;
        var k :| 0 <= k < |db.sounds| && db.sounds[k] == s;
        assert ss[k].id == x;
      }
    }
    Db(db.users, Filter(db.tags, (x: Tag) => x.id != tid), ss, db.comments, db.favorites)
  }

  /** Deleting a tag keeps a valid database valid. */
  lemma DeleteTagValid(db: Db, tid: nat)
    requires Valid(db)
    ensures Valid(DeleteTag(db, tid))
  {
    var r := DeleteTag(db, tid);
    FilterUnique(db.tags, (x: Tag) => x.id, (x: Tag) => x.id != tid);
    FilterUnique(db.tags, (x: Tag) => x.name, (x: Tag) => x.id != tid);
    forall i | 0 <= i < |r.sounds|
      ensures r.sounds[i].tags <= TagIds(r.tags)
    {
      forall t | t in r.sounds[i].tags
        ensures t in TagIds(r.tags)
      {
        var x :| x in db.tags && x.id == t;
        var k :| 0 <= k < |db.tags| && db.tags[k] == x;
        assert db.tags[k] in r.tags;
      }
    }
  }

  // ---------------------------------------------------------------------------
  // Default orderings

  /** `ordering = ['-created_at']` on Sound, Comment and Favorite: newer rows first. */
  function NewestFirst<T(!new)>(xs: seq<T>, created: T -> int): (r: seq<T>)
    ensures SortedBy(r, (a: T, b: T) => created(a) >= created(b))
    ensures multiset(r) == multiset(xs)
    ensures forall i | 0 <= i < |r| :: r[i] in xs
    ensures forall i | 0 <= i < |xs| :: xs[i] in r
  {
    var le := (a: T, b: T) => created(a) >= created(b);
    assert TotalPreorder(le);
    var r := SortBy(xs, le);
    PermutationMembers(r, xs);
    r
  }

  /**
   * `ordering = ['name']` on Tag. The order of two names is the database
   * collation's, a parameter here.
   */
  function TagsByName(ts: seq<Tag>, collate: (string, string) -> bool): (r: seq<Tag>)
    requires TotalPreorder(collate)
    ensures SortedBy(r, (a: Tag, b: Tag) => collate(a.name, b.name))
    ensures multiset(r) == multiset(ts)
  {
    var le := (a: Tag, b: Tag) => collate(a.name, b.name);
    assert TotalPreorder(le) by {
      assert forall a: Tag, b: Tag :: le(a, b) || le(b, a) by {
        forall a: Tag, b: Tag ensures le(a, b) || le(b, a) {
          assert collate(a.name, b.name) || collate(b.name, a.name);
        }
      }
      assert forall a: Tag, b: Tag, c: Tag :: le(a, b) && le(b, c) ==> le(a, c) by {
        forall a: Tag, b: Tag, c: Tag | le(a, b) && le(b, c) ensures le(a, c) {
          assert collate(a.name, b.name) && collate(b.name, c.name);
        }
      }
    }
    SortBy(ts, le)
  }

  // ---------------------------------------------------------------------------
  // `__str__`

  /** `Tag.__str__`: the name. */
  function TagLabel(t: Tag): (l: string)
    ensures l == t.name
  {
    t.name
  }

  /** `Sound.__str__`: the name. */
  function SoundLabel(s: Sound): (l: string)
    ensures l == s.name
  {
    s.name
  }

  /** Under the schema's unique tag names, no two tags render alike. */
  lemma TagLabelsDistinct(db: Db)
    requires Keys(db)
    ensures forall i, j | 0 <= i < j < |db.tags| :: TagLabel(db.tags[i]) != TagLabel(db.tags[j])
  {
  }

  /** `Comment.__str__`: the author's username, `" - "`, then the sound's name. */
  function CommentLabel(c: Comment, author: Account, s: Sound): (l: string)
    requires author.id == c.user && s.id == c.sound
    ensures |l| == |author.username| + 3 + |s.name|
    ensures l[..|author.username|] == author.username
    ensures l[|author.username|..|author.username| + 3] == " - "
    ensures l[|author.username| + 3..] == s.name
  {
    var l := author.username + " - " + s.name;
    assert l[..|author.username|] == author.username;
    l
  }

  /** `Favorite.__str__`: the user's username, `" favorited "`, then the sound's name. */
  function FavoriteLabel(f: Favorite, fan: Account, s: Sound): (l: string)
    requires fan.id == f.user && s.id == f.sound
    ensures |l| == |fan.username| + 11 + |s.name|
    ensures l[..|fan.username|] == fan.username
    ensures l[|fan.username|..|fan.username| + 11] == " favorited "
    ensures l[|fan.username| + 11..] == s.name
  {
    var l := fan.username + " favorited " + s.name;
    assert l[..|fan.username|] == fan.username;
    l
  }

  /** The first space of `u + rest`, when `u` has none and `rest` starts with one, is at `|u|`. */
  lemma FirstSpaceAt(l: string, u: string)
    requires ' ' !in u && |u| < |l| && l[..|u|] == u && l[|u|] == ' '
    ensures forall k | 0 <= k < |u| :: l[k] != ' '
  {
    forall k | 0 <= k < |u|
      ensures l[k] != ' '
    {
      assert l[k] == l[..|u|][k];
    }
  }

  /**
   * For usernames without a space, a comment's label determines the
   * username and the sound name it was made from.
   */
  lemma CommentLabelDeterminesParts(c: Comment, u: Account, s: Sound, c2: Comment, u2: Account, s2: Sound)
    requires u.id == c.user && s.id == c.sound && u2.id == c2.user && s2.id == c2.sound
    requires ' ' !in u.username && ' ' !in u2.username
    requires CommentLabel(c, u, s) == CommentLabel(c2, u2, s2)
    ensures u.username == u2.username && s.name == s2.name
  {
    var l := CommentLabel(c, u, s);
    var n, n2 := |u.username|, |u2.username|;
    assert l[n] == " - "[0] && l[n2] == " - "[0];
    FirstSpaceAt(l, u.username);
    FirstSpaceAt(l, u2.username);
    assert n == n2;
  }

  /**
   * For usernames without a space, a favourite's label determines the
   * username and the sound name it was made from.
   */
  lemma FavoriteLabelDeterminesParts(f: Favorite, u: Account, s: Sound, f2: Favorite, u2: Account, s2: Sound)
    requires u.id == f.user && s.id == f.sound && u2.id == f2.user && s2.id == f2.sound
    requires ' ' !in u.username && ' ' !in u2.username
    requires FavoriteLabel(f, u, s) == FavoriteLabel(f2, u2, s2)
    ensures u.username == u2.username && s.name == s2.name
  {
    var l := FavoriteLabel(f, u, s);
    var n, n2 := |u.username|, |u2.username|;
    assert l[n] == " favorited "[0] && l[n2] == " favorited "[0];
    FirstSpaceAt(l, u.username);
    FirstSpaceAt(l, u2.username);
    assert n == n2;
  }
}

=== FILE: seqs.dfy ===
/**
 * Generic sequence operations shared by the server's query sets and the
 * client's list helpers: order-preserving filtering, sorting by a total
 * preorder, and Python's `[:n]` slice.
 */
module Seqs {
  import opened Wrappers

  /** The elements of `xs` satisfying `p`, in their original order (`filter`, `.filter(...)`). */
  function Filter<T>(xs: seq<T>, p: T -> bool): (r: seq<T>)
    ensures |r| <= |xs|
    ensures forall i | 0 <= i < |r| :: r[i] in xs && p(r[i])
    ensures forall i | 0 <= i < |xs| :: p(xs[i]) ==> xs[i] in r
  {
    if |xs| == 0 then [] else (if p(xs[0]) then [xs[0]] else []) + Filter(xs[1..], p)
  }

  /** Filtering distributes over concatenation: it keeps the relative order of what it keeps. */
  lemma {:induction false} FilterAppend<T>(a: seq<T>, b: seq<T>, p: T -> bool)
    ensures Filter(a + b, p) == Filter(a, p) + Filter(b, p)
  {
    if |a| == 0 {
      assert a + b == b;
    } else {
      assert (a + b)[0] == a[0];
      assert (a + b)[1..] == a[1..] + b;
      FilterAppend(a[1..], b, p);
    }
  }

  /** Filtering never repeats an element: each occurs at most as often as in the input. */
  lemma {:induction false} FilterSubMultiset<T>(xs: seq<T>, p: T -> bool)
    ensures multiset(Filter(xs, p)) <= multiset(xs)
  {
    if |xs| > 0 {
      FilterSubMultiset(xs[1..], p);
      assert xs == [xs[0]] + xs[1..];
    }
  }

  /** A sequence all of whose elements pass is kept whole. */
  lemma {:induction false} FilterAll<T>(xs: seq<T>, p: T -> bool)
    requires forall i | 0 <= i < |xs| :: p(xs[i])
    ensures Filter(xs, p) == xs
  {
    if |xs| > 0 {
      FilterAll(xs[1..], p);
    }
  }

  /** Filtering twice is filtering once by the conjunction. */
  lemma {:induction false} FilterFilter<T>(xs: seq<T>, p: T -> bool, q: T -> bool)
    ensures Filter(Filter(xs, p), q) == Filter(xs, x => p(x) && q(x))
  {
    if |xs| > 0 {
      var rest := Filter(xs[1..], p);
      FilterFilter(xs[1..], p, q);
      FilterAppend(if p(xs[0]) then [xs[0]] else [], rest, q);
    }
  }

  /** `xs.map(f)`. */
  function Map<T, U>(xs: seq<T>, f: T -> U): (r: seq<U>)
    ensures |r| == |xs|
    ensures forall i | 0 <= i < |xs| :: r[i] == f(xs[i])
  {
    if |xs| == 0 then [] else [f(xs[0])] + Map(xs[1..], f)
  }

  /** The present results of `f` over `xs`, in order (`.map(f).filter(Boolean)`). */
  function Collect<T, U>(xs: seq<T>, f: T -> Option<U>): (r: seq<U>)
    ensures |r| <= |xs|
    ensures forall i | 0 <= i < |r| :: exists k | 0 <= k < |xs| :: f(xs[k]) == Some(r[i])
  {
    if |xs| == 0 then []
    else
      var rest := Collect(xs[1..], f);
      assert forall i | 0 <= i < |rest| :: exists k | 0 <= k < |xs| :: f(xs[k]) == Some(rest[i]) by {
        forall i | 0 <= i < |rest|
          ensures exists k | 0 <= k < |xs| :: f(xs[k]) == Some(rest[i])
        {
          var k :| 0 <= k < |xs[1..]| && f(xs[1..][k]) == Some(rest[i]);
          assert f(xs[k + 1]) == Some(rest[i]);
        }
      }
      (if f(xs[0]).Some? then [f(xs[0]).value] else []) + rest
  }

  /** Collecting distributes over concatenation. */
  lemma {:induction false} CollectAppend<T, U>(a: seq<T>, b: seq<T>, f: T -> Option<U>)
    ensures Collect(a + b, f) == Collect(a, f) + Collect(b, f)
  {
    if |a| == 0 {
      assert a + b == b;
    } else {
      assert (a + b)[0] == a[0];
      assert (a + b)[1..] == a[1..] + b;
      CollectAppend(a[1..], b, f);
    }
  }

  /** Every present result of `f` is collected. */
  lemma {:induction false} CollectKeeps<T, U>(xs: seq<T>, f: T -> Option<U>, i: nat)
    requires i < |xs| && f(xs[i]).Some?
    ensures f(xs[i]).value in Collect(xs, f)
  {
    if i > 0 {
      CollectKeeps(xs[1..], f, i - 1);
      assert xs[1..][i - 1] == xs[i];
    }
  }

  /** The number of elements satisfying `p` (`.filter(...).count()`). */
  function Count<T>(xs: seq<T>, p: T -> bool): (n: nat)
    ensures n <= |xs|
  {
    |Filter(xs, p)|
  }

  /** Nothing is counted exactly when nothing satisfies `p`. */
  lemma CountZero<T>(xs: seq<T>, p: T -> bool)
    ensures Count(xs, p) == 0 <==> forall i | 0 <= i < |xs| :: !p(xs[i])
  {
    var r := Filter(xs, p);
    if |r| > 0 {
      assert r[0] in xs && p(r[0]);
    }
  }

  /** Python's `xs[:n]`. */
  function Take<T>(xs: seq<T>, n: nat): (r: seq<T>)
    ensures |r| <= n && r <= xs
    ensures |xs| <= n ==> r == xs
  {
    if |xs| <= n then xs else xs[..n]
  }

  /** `le` is total and transitive, as an SQL `ORDER BY` key comparison is. */
  ghost predicate TotalPreorder<T(!new)>(le: (T, T) -> bool) {
    && (forall a, b :: le(a, b) || le(b, a))
    && (forall a, b, c :: le(a, b) && le(b, c) ==> le(a, c))
  }

  /** Every element comes no later, by `le`, than every element after it. */
  predicate SortedBy<T>(xs: seq<T>, le: (T, T) -> bool) {
    forall i, j | 0 <= i < j < |xs| :: le(xs[i], xs[j])
  }

  /** Inserts `x` before the first element it comes no later than. */
  function Insert<T(!new)>(x: T, xs: seq<T>, le: (T, T) -> bool): (r: seq<T>)
    requires TotalPreorder(le) && SortedBy(xs, le)
    ensures SortedBy(r, le)
    ensures multiset(r) == multiset(xs) + multiset{x}
  {
    if |xs| == 0 then [x]
    else if le(x, xs[0]) then [x] + xs
    else
      var rest := Insert(x, xs[1..], le);
      assert forall k | 0 <= k < |rest| :: le(xs[0], rest[k]) by {
        forall k | 0 <= k < |rest|
          ensures le(xs[0], rest[k])
        {
          assert rest[k] in multiset(xs[1..]) + multiset{x};
          if rest[k] != x {
            assert rest[k] in xs[1..];
          }
        }
      }
      assert xs == [xs[0]] + xs[1..];
      ConsSorted(xs[0], rest, le);
      [xs[0]] + rest
  }

  /** An element no later than every element of a sorted list can go in front of it. */
  lemma ConsSorted<T>(y: T, rest: seq<T>, le: (T, T) -> bool)
    requires SortedBy(rest, le)
    requires forall k | 0 <= k < |rest| :: le(y, rest[k])
    ensures SortedBy([y] + rest, le)
  {
    var ys := [y] + rest;
    forall i, j | 0 <= i < j < |ys|
      ensures le(ys[i], ys[j])
    {
      assert ys[j] == rest[j - 1];
      if i > 0 {
        assert ys[i] == rest[i - 1];
      }
    }
  }

  /** Insertion sort: the ordered permutation of `xs` (a query set's `ORDER BY`). */
  function SortBy<T(!new)>(xs: seq<T>, le: (T, T) -> bool): (r: seq<T>)
    requires TotalPreorder(le)
    ensures SortedBy(r, le)
    ensures multiset(r) == multiset(xs)
  {
    if |xs| == 0 then []
    else
      assert xs == [xs[0]] + xs[1..];
      Insert(xs[0], SortBy(xs[1..], le), le)
  }

  /** Filtering keeps a sorted sequence sorted. */
  lemma {:induction false} FilterSorted<T>(xs: seq<T>, p: T -> bool, le: (T, T) -> bool)
    requires SortedBy(xs, le)
    ensures SortedBy(Filter(xs, p), le)
  {
    if |xs| > 0 {
      FilterSorted(xs[1..], p, le);
      var rest := Filter(xs[1..], p);
      if p(xs[0]) {
        forall k | 0 <= k < |rest|
          ensures le(xs[0], rest[k])
        {
          assert rest[k] in xs[1..];
        }
      }
    }
  }

  /** No two elements share a key (a primary key or `unique` column). */
  predicate UniqueBy<T, K(==)>(xs: seq<T>, key: T -> K) {
    forall i, j | 0 <= i < j < |xs| :: key(xs[i]) != key(xs[j])
  }

  /** Deleting rows keeps a unique column unique. */
  lemma {:induction false} FilterUnique<T, K>(xs: seq<T>, key: T -> K, p: T -> bool)
    requires UniqueBy(xs, key)
    ensures UniqueBy(Filter(xs, p), key)
  {
    if |xs| > 0 {
      FilterUnique(xs[1..], key, p);
      var rest := Filter(xs[1..], p);
      if p(xs[0]) {
        forall k | 0 <= k < |rest|
          ensures key(xs[0]) != key(rest[k])
        {
          assert rest[k] in xs[1..];
          var j :| 0 <= j < |xs[1..]| && xs[1..][j] == rest[k];
          assert xs[j + 1] == rest[k];
        }
      }
    }
  }

  /** A key larger than every key in use, as an auto-increment column hands out. */
  function NextKey<T>(xs: seq<T>, key: T -> nat): (n: nat)
    ensures forall i | 0 <= i < |xs| :: key(xs[i]) < n
  {
    if |xs| == 0 then 1
    else
      var m := NextKey(xs[1..], key);
      if key(xs[0]) < m then m else key(xs[0]) + 1
  }

  /** Appending a row whose key is fresh keeps the column unique. */
  lemma AppendUnique<T, K>(xs: seq<T>, x: T, key: T -> K)
    requires UniqueBy(xs, key)
    requires forall i | 0 <= i < |xs| :: key(xs[i]) != key(x)
    ensures UniqueBy(xs + [x], key)
  {
  }

  /** Two sequences with the same multiset have the same elements. */
  lemma PermutationMembers<T>(a: seq<T>, b: seq<T>)
    requires multiset(a) == multiset(b)
    ensures forall i | 0 <= i < |a| :: a[i] in b
    ensures forall i | 0 <= i < |b| :: b[i] in a
  {
    forall i | 0 <= i < |a| ensures a[i] in b {
      assert a[i] in multiset(b);
    }
    forall i | 0 <= i < |b| ensures b[i] in a {
      assert b[i] in multiset(a);
    }
  }

  /** A sequence none of whose elements pass filters to nothing. */
  lemma {:induction false} FilterNone<T>(xs: seq<T>, p: T -> bool)
    requires forall i | 0 <= i < |xs| :: !p(xs[i])
    ensures Filter(xs, p) == []
  {
    if |xs| > 0 {
      FilterNone(xs[1..], p);
    }
  }

  /** Appending one passing element to a sequence with none gives a count of one. */
  lemma CountAppended<T>(xs: seq<T>, x: T, p: T -> bool)
    requires forall i | 0 <= i < |xs| :: !p(xs[i])
    requires p(x)
    ensures Count(xs + [x], p) == 1
  {
    FilterAppend(xs, [x], p);
    FilterNone(xs, p);
  }

  /** Removing what fails `p` from a sequence extended by one failing element gives the sequence back. */
  lemma DropAppended<T>(xs: seq<T>, x: T, p: T -> bool)
    requires forall i | 0 <= i < |xs| :: p(xs[i])
    requires !p(x)
    ensures Filter(xs + [x], p) == xs
  {
    FilterAppend(xs, [x], p);
    FilterAll(xs, p);
  }

  /** Under a unique key, at most one element passes a test that pins the key down. */
  lemma {:induction false} UniqueMatchesAtMostOne<T, K>(xs: seq<T>, key: T -> K, v: K, p: T -> bool)
    requires UniqueBy(xs, key)
    requires forall i | 0 <= i < |xs| :: p(xs[i]) ==> key(xs[i]) == v
    ensures Count(xs, p) <= 1
  {
    if |xs| > 0 {
      if p(xs[0]) {
        FilterNone(xs[1..], p);
      } else {
        UniqueMatchesAtMostOne(xs[1..], key, v, p);
      }
    }
  }

  /** The position of the first element whose key is `v` (a lookup by primary key). */
  function Find<T, K(==)>(xs: seq<T>, key: T -> K, v: K): (r: Option<nat>)
    ensures r.Some? ==> r.value < |xs| && key(xs[r.value]) == v
    ensures r.Some? ==> forall j | 0 <= j < r.value :: key(xs[j]) != v
    ensures r.None? ==> forall i | 0 <= i < |xs| :: key(xs[i]) != v
  {
    if |xs| == 0 then None
    else if key(xs[0]) == v then Some(0)
    else
      var r := Find(xs[1..], key, v);
      if r.Some? then Some(r.value + 1) else None
  }
}

=== FILE: serializers.dfy ===
/**
 * The computed fields and write paths of the REST serializers
 * (`sounds/serializers.py`): media URLs, `is_favorite`, the embedded comment
 * list, `favorite_count`, comment validation and the sound create/update
 * semantics.
 */
module Serializers {
  import opened Wrappers
  import opened Text
  import opened Seqs
  import opened Accounts
  import opened Models

  // ---------------------------------------------------------------------------
  // Media URLs

  /** The settings the URL fields read; `baseUrl` is `BASE_URL` as settings.py leaves it. */
  datatype Settings = Settings(debug: bool, baseUrl: string)

  /** settings.py gives a non-empty `BASE_URL` a trailing `/` when it lacks one. */
  function ConfiguredBaseUrl(raw: string): (b: string)
    ensures raw != "" ==> b != "" && b[|b| - 1] == '/'
    ensures raw == "" ==> b == ""
  {
    if raw != "" && raw[|raw| - 1] != '/' then raw + "/" else raw
  }

  /** The serializer's `rstrip('/')` undoes the slash settings.py appended. */
  lemma {:induction false} BaseUrlSlashRoundTrip(raw: string)
    ensures DropLastWhile(ConfiguredBaseUrl(raw), IsSlash) == DropLastWhile(raw, IsSlash)
  {
    if raw != "" && raw[|raw| - 1] != '/' {
      var b := raw + "/";
      assert b[..|b| - 1] == raw;
    }
  }

  /**
   * The parts of a request a URL field reads: the `X-Forwarded-Proto` header,
   * `build_absolute_uri` and the authenticated user (`None` when anonymous).
   */
  datatype Request = Request(forwardedProto: Option<string>, absolute: string -> string, user: Option<Account>)

  const Http: string := "http://"
  const Https: string := "https://"

  /** The absolute URL is forced to https: behind a TLS proxy, or whenever DEBUG is off. */
  predicate ForcesHttps(req: Request, s: Settings) {
    req.forwardedProto == Some("https") || !s.debug
  }

  /**
   * `get_image_url` / `get_mp3_url` for one file field: `None` for an empty
   * field; with a request, the absolute URL, upgraded to https when it is
   * plain http and `ForcesHttps`; without one, `BASE_URL` without trailing
   * slashes before the storage URL, or the bare storage URL.
   */
  function MediaUrl(file: string, storageUrl: string -> string, request: Option<Request>, s: Settings): (r: Option<string>)
    ensures r.None? <==> file == ""
    ensures file != "" && request.None? && s.baseUrl == "" ==> r == Some(storageUrl(file))
    ensures file != "" && request.None? && s.baseUrl != "" ==>
              r == Some(DropLastWhile(s.baseUrl, IsSlash) + storageUrl(file))
    ensures file != "" && request.Some? ==>
              var url := request.value.absolute(storageUrl(file));
              if Http <= url && ForcesHttps(request.value, s)
              then && Https <= r.value && !(Http <= r.value)
                   && r == Some(Https + ReplaceAll(url[|Http|..], Http, Https))
                   && (!Contains(url[|Http|..], Http) ==> r == Some(Https + url[|Http|..]))
              else r == Some(url)
  {
    if file == "" then None
    else if request.Some? then
      var url := request.value.absolute(storageUrl(file));
      if Http <= url && ForcesHttps(request.value, s) then
        var up := ReplaceAll(url, Http, Https);
        assert up[4] == 's';
        UpgradeKeepsRest(url);
        Some(up)
      else Some(url)
    else if s.baseUrl != "" then Some(DropLastWhile(s.baseUrl, IsSlash) + storageUrl(file))
    else Some(storageUrl(file))
  }

  /** The https upgrade rewrites the scheme and every later `http://` as well, as Python's `replace` does. */
  lemma UpgradeRewritesScheme(url: string)
    requires Http <= url
    ensures ReplaceAll(url, Http, Https) == Https + ReplaceAll(url[|Http|..], Http, Https)
  {
  }

  /** When the rest of the URL holds no further `http://`, the upgrade changes only the scheme. */
  lemma UpgradeKeepsRest(url: string)
    requires Http <= url
    ensures ReplaceAll(url, Http, Https) == Https + ReplaceAll(url[|Http|..], Http, Https)
    ensures !Contains(url[|Http|..], Http) ==> ReplaceAll(url, Http, Https) == Https + url[|Http|..]
  {
    UpgradeRewritesScheme(url);
    if !Contains(url[|Http|..], Http) {
      ReplaceAllWithoutMatch(url[|Http|..], Http, Https);
    }
  }

  /** With DEBUG on and no TLS proxy, the http URL is served as it is. */
  lemma DebugKeepsHttp(file: string, storageUrl: string -> string, req: Request, s: Settings)
    requires file != "" && s.debug && req.forwardedProto != Some("https")
    ensures MediaUrl(file, storageUrl, Some(req), s) == Some(req.absolute(storageUrl(file)))
  {
  }

  // ---------------------------------------------------------------------------
  // Computed fields

  /** `get_is_favorite`: the authenticated requester has favourited the sound. */
  function IsFavorite(db: Db, request: Option<Request>, sid: nat): (b: bool)
    ensures request.None? || request.value.user.None? ==> !b
    ensures request.Some? && request.value.user.Some? ==>
              (b <==> exists i | 0 <= i < |db.favorites| ::
                        db.favorites[i].user == request.value.user.value.id && db.favorites[i].sound == sid)
  {
    && request.Some? && request.value.user.Some?
    && exists i | 0 <= i < |db.favorites| :: Pair(db.favorites[i]) == (request.value.user.value.id, sid)
  }

  /** `get_comments`: the ten most recent comments of the sound, newest first. */
  function DetailComments(db: Db, sid: nat): (r: seq<Comment>)
    ensures |r| <= 10
    ensures forall i | 0 <= i < |r| :: r[i] in db.comments && r[i].sound == sid
    ensures SortedBy(r, (a: Comment, b: Comment) => a.createdAt >= b.createdAt)
  {
    var all := NewestFirst(Filter(db.comments, (c: Comment) => c.sound == sid), (c: Comment) => c.createdAt);
    Take(all, 10)
  }

  /** The comments left out of the detail are no newer than any comment it shows, and a sound with at most ten shows all. */
  lemma DetailCommentsAreMostRecent(db: Db, sid: nat, c: Comment)
    requires c in db.comments && c.sound == sid && c !in DetailComments(db, sid)
    ensures |DetailComments(db, sid)| == 10
    ensures forall i | 0 <= i < 10 :: DetailComments(db, sid)[i].createdAt >= c.createdAt
  {
    var mine := Filter(db.comments, (x: Comment) => x.sound == sid);
    var all := NewestFirst(mine, (x: Comment) => x.createdAt);
    assert c in mine;
    var k :| 0 <= k < |all| && all[k] == c;
    assert |all| > 10;
    assert k >= 10;
  }

  /** `get_favorite_count`. */
  function FavoriteCount(db: Db, sid: nat): (n: nat)
    ensures n <= |db.favorites|
    ensures n == 0 <==> forall i | 0 <= i < |db.favorites| :: db.favorites[i].sound != sid
  {
    CountZero(db.favorites, (f: Favorite) => f.sound == sid);
    Count(db.favorites, (f: Favorite) => f.sound == sid)
  }

  /** Saving one more favourite counts it for its own sound and for no other. */
  lemma FavoriteCountAppend(db: Db, f: Favorite, sid: nat)
    ensures FavoriteCount(db.(favorites := db.favorites + [f]), sid)
            == FavoriteCount(db, sid) + (if f.sound == sid then 1 else 0)
  {
    FilterAppend(db.favorites, [f], (x: Favorite) => x.sound == sid);
  }

  // ---------------------------------------------------------------------------
  // Comment validation

  /**
   * What `CommentSerializer.validate_content` does with the content:
   * `Unbound` is the module as written, which calls `bleach.clean` without
   * importing `bleach`, so the call raises `NameError`; `Clean(f)` is a
   * sanitiser `f` actually in scope.
   */
  datatype Sanitizer = Unbound | Clean(clean: string -> string)

  /** A comment payload; `None` is an absent key. */
  datatype CommentInput = CommentInput(sound: Option<nat>, content: Option<string>)

  /** The outcome of `is_valid()`: the fields to save, a 400, or an exception (a 500). */
  datatype Checked = Accepted(sound: Option<nat>, content: Option<string>) | Rejected | Raised

  /**
   * DRF's `ProhibitNullCharactersValidator`, which every serializer text
   * field runs on its stripped value before any `validate_<field>` method.
   */
  predicate NullFree(text: string) {
    '\0' !in text
  }

  /**
   * `CommentSerializer` validation. `sound` is a required primary key of an
   * existing sound; `content` a required, non-blank, stripped text without
   * null characters, passed on to `validate_content`. A partial update skips absent fields. Field errors
   * are collected, but an exception from `validate_content` ends validation
   * at once.
   */
  function CheckComment(db: Db, input: CommentInput, partial: bool, s: Sanitizer): (r: Checked)
    ensures r.Raised? <==> s.Unbound? && input.content.Some? && PyStrip(input.content.value) != ""
                           && NullFree(PyStrip(input.content.value))
    ensures input.content.Some? && !NullFree(PyStrip(input.content.value)) ==> r == Rejected
    ensures r.Accepted? ==> (r.sound.Some? ==> r.sound.value in SoundIds(db.sounds))
    ensures r.Accepted? && input.content.Some? ==> s.Clean? && r.content == Some(s.clean(PyStrip(input.content.value)))
    ensures r.Accepted? ==> r.sound == input.sound && (input.content.None? <==> r.content.None?)
    ensures !partial && (input.sound.None? || input.content.None?) ==> !r.Accepted?
  {
    var soundOk := if input.sound.None? then partial else input.sound.value in SoundIds(db.sounds);
    match input.content
    case None => if partial && soundOk then Accepted(input.sound, None) else Rejected
    case Some(c) =>
      var st := PyStrip(c);
      if st == "" || !NullFree(st) then Rejected
      else if s.Unbound? then Raised
      else if soundOk then Accepted(input.sound, Some(s.clean(st)))
      else Rejected
  }

  // ---------------------------------------------------------------------------
  // Sound create and update

  /** A validated sound payload; `None` is an absent field. */
  datatype SoundData = SoundData(name: Option<string>, description: Option<Option<string>>, mp3File: Option<string>,
                                 image: Option<string>, tags: Option<seq<nat>>)

  function ToSet(xs: seq<nat>): (r: set<nat>)
    ensures forall x :: x in r <==> x in xs
  {
    set x | x in xs
  }

  /**
   * `SoundCreateUpdateSerializer.create`: a new sound uploaded by the
   * requester, linked to the given tags when the list is non-empty.
   * Validation has made `name` and `mp3_file` present.
   */
  function CreateSound(db: Db, who: Account, d: SoundData, now: int): (r: Db)
    requires d.name.Some? && d.mp3File.Some?
    ensures |r.sounds| == |db.sounds| + 1 && r.sounds[..|db.sounds|] == db.sounds
    ensures var s := r.sounds[|db.sounds|];
            && s.id !in SoundIds(db.sounds)
            && s.uploadedBy == who.id && s.name == d.name.value && s.mp3File == d.mp3File.value
            && s.tags == (if d.tags.Some? then ToSet(d.tags.value) else {})
    ensures r.users == db.users && r.tags == db.tags && r.comments == db.comments && r.favorites == db.favorites
  {
    var tags := if d.tags.Some? && |d.tags.value| > 0 then ToSet(d.tags.value) else {};
    var s := Sound(NextKey(db.sounds, (x: Sound) => x.id), d.name.value, d.description.GetOr(None), d.mp3File.value,
                   d.image.GetOr(""), who.id, now, now, tags);
    assert forall i | 0 <= i < |db.sounds| :: db.sounds[i].id < s.id;
    db.(sounds := db.sounds + [s])
  }

  /** A created sound keeps a valid database valid when its uploader, tags and name length are acceptable. */
  lemma CreateSoundValid(db: Db, who: Account, d: SoundData, now: int)
    requires Valid(db) && d.name.Some? && d.mp3File.Some?
    requires who.id in UserIds(db.users) && |d.name.value| <= SoundNameMax
    requires d.tags.Some? ==> forall i | 0 <= i < |d.tags.value| :: d.tags.value[i] in TagIds(db.tags)
    ensures Valid(CreateSound(db, who, d, now))
  {
    var r := CreateSound(db, who, d, now);
    assert r.sounds == db.sounds + [r.sounds[|db.sounds|]];
    assert SoundIds(db.sounds) <= SoundIds(r.sounds);
  }

  /**
   * `SoundCreateUpdateSerializer.update`: every given field is overwritten;
   * the tag set is replaced only when `tags` is present (an empty list clears
   * it); `updated_at` becomes now.
   */
  function UpdateSound(s: Sound, d: SoundData, now: int): (r: Sound)
    ensures d.tags.None? ==> r.tags == s.tags
    ensures d.tags.Some? ==> r.tags == ToSet(d.tags.value)
    ensures r.name == d.name.GetOr(s.name) && r.description == d.description.GetOr(s.description)
    ensures r.mp3File == d.mp3File.GetOr(s.mp3File) && r.image == d.image.GetOr(s.image)
    ensures r.id == s.id && r.uploadedBy == s.uploadedBy && r.createdAt == s.createdAt && r.updatedAt == now
  {
    s.(name := d.name.GetOr(s.name), description := d.description.GetOr(s.description),
       mp3File := d.mp3File.GetOr(s.mp3File), image := d.image.GetOr(s.image), updatedAt := now,
       tags := if d.tags.Some? then ToSet(d.tags.value) else s.tags)
  }

  /** Applying the same update twice is applying it once. */
  lemma UpdateSoundIdempotent(s: Sound, d: SoundData, now: int)
    ensures UpdateSound(UpdateSound(s, d, now), d, now) == UpdateSound(s, d, now)
  {
  }

  /** For a new sound an empty tag list and an absent one give the same row. */
  lemma CreateEmptyTagsIsNoTags(db: Db, who: Account, d: SoundData, now: int)
    requires d.name.Some? && d.mp3File.Some?
    ensures CreateSound(db, who, d.(tags := Some([])), now) == CreateSound(db, who, d.(tags := None), now)
  {
  }
}

=== FILE: session.dfy ===
/**
 * The client's session manager: the `{user, isLoading}` state and the three
 * persisted keys, driven by bootstrap, login, register, logout and refresh.
 *
 * Each operation is a function from the state before and the server's replies
 * (inputs, since the network is not modelled) to a `Step`: the state after,
 * the requests sent in order, and the error rethrown to the caller if any.
 * Operations run one at a time; interleavings are not modelled.
 */
module Session {
  import opened Wrappers
  import opened Text
  import Js
  import Api
  import AuthViews

  /** The user snapshot the server returns (`User` in the client's types). */
  datatype User = User(id: int, username: string, email: string, isAdmin: bool)

  datatype Tokens = Tokens(access: string, refresh: string)

  /** The success body of login and register. */
  datatype AuthResponse = AuthResponse(user: User, tokens: Tokens)

  /** The three `localStorage` keys: `accessToken`, `refreshToken` and `user`. */
  datatype Key = AccessToken | RefreshToken | UserKey

  type Store = map<Key, string>

  /** `localStorage.getItem(k)` is truthy: stored and non-empty. */
  predicate Present(store: Store, k: Key) {
    k in store && store[k] != ""
  }

  /** The provider's state: `user`, `isLoading`, and the persisted keys. */
  datatype State = State(user: Option<User>, isLoading: bool, store: Store)

  /** `isAuthenticated` is `!!user`. */
  predicate IsAuthenticated(s: State) {
    s.user.Some?
  }

  /** A server reply as the awaiting code sees it: the resolved value or the error thrown. */
  datatype Reply<T> = Ok(value: T) | Err(fault: Api.Fault)

  /** One operation's effect: the next state, the requests sent, and the error rethrown. */
  datatype Step = Step(next: State, sent: seq<Api.Request>, raised: Option<Api.Fault>)

  /** The state when the provider mounts: no user yet, loading. */
  function Mount(store: Store): State {
    State(None, true, store)
  }

  /** The invariant all operations keep: a signed-in user or any stored token implies a stored user. */
  predicate Consistent(s: State) {
    && (s.user.Some? ==> AccessToken in s.store && UserKey in s.store)
    && (AccessToken in s.store || Present(s.store, RefreshToken) ==> UserKey in s.store)
  }

  /** Removes all three keys. */
  function ClearAll(store: Store): Store {
    store - {AccessToken, RefreshToken, UserKey}
  }

  /** Writes both tokens and the serialised user. */
  function Persist(store: Store, r: AuthResponse, stringify: User -> string): Store {
    store[AccessToken := r.tokens.access][RefreshToken := r.tokens.refresh][UserKey := stringify(r.user)]
  }

  /** What a successful login or register leaves behind. */
  predicate SignedIn(t: Step, r: AuthResponse, stringify: User -> string) {
    && t.next.user == Some(r.user)
    && t.next.store.Keys >= {AccessToken, RefreshToken, UserKey}
    && t.next.store[AccessToken] == r.tokens.access
    && t.next.store[RefreshToken] == r.tokens.refresh
    && t.next.store[UserKey] == stringify(r.user)
  }

  // ---------------------------------------------------------------------------
  // Bootstrap

  /**
   * `loadUser`: acts only when both a stored user and an access token are
   * present; a user that does not parse clears everything; a failed `me`
   * falls back to the refresh token.
   */
  function LoadUser(s: State, parseUser: string -> Option<User>, me: Api.Outcome, refresh: Reply<string>): (t: Step)
    ensures !t.next.isLoading && t.raised.None?
    ensures !(Present(s.store, UserKey) && Present(s.store, AccessToken))
            ==> t.next == s.(isLoading := false) && t.sent == []
    ensures Present(s.store, UserKey) && Present(s.store, AccessToken) && parseUser(s.store[UserKey]).None?
            ==> t.next.store == ClearAll(s.store) && t.next.user == s.user
    ensures IsAuthenticated(t.next) && s.user.None? ==>
              && UserKey in s.store && t.next.user == parseUser(s.store[UserKey])
              && (|| t.next.store == s.store
                  || (&& me.Thrown? && Present(s.store, RefreshToken) && refresh.Ok?
                      && t.next.store == s.store[AccessToken := refresh.value]))
    ensures !IsAuthenticated(t.next) && t.next.store != s.store ==>
              && AccessToken !in t.next.store && UserKey !in t.next.store
              && (RefreshToken in t.next.store ==> !Present(s.store, RefreshToken))
    ensures Consistent(s) && s.user.None? ==> Consistent(t.next)
    ensures Present(s.store, UserKey) && Present(s.store, AccessToken) && parseUser(s.store[UserKey]).Some? ==>
              var u := parseUser(s.store[UserKey]).value;
              && (me.Returned? ==> t.next == State(Some(u), false, s.store))
              && (me.Thrown? && Present(s.store, RefreshToken) && refresh.Ok? ==>
                    t.next == State(Some(u), false, s.store[AccessToken := refresh.value]))
              && (me.Thrown? && Present(s.store, RefreshToken) && refresh.Err? ==>
                    t.next == State(None, false, ClearAll(s.store)))
              && (me.Thrown? && !Present(s.store, RefreshToken) ==>
                    t.next == State(None, false, s.store - {AccessToken, UserKey}))
  {
    var st := s.store;
    if !(Present(st, UserKey) && Present(st, AccessToken)) then Step(s.(isLoading := false), [], None)
    else
      match parseUser(st[UserKey])
      case None => Step(State(s.user, false, ClearAll(st)), [], None)
      case Some(u) =>
        if me.Returned? then Step(State(Some(u), false, st), [Api.MeRequest()], None)
        else if Present(st, RefreshToken) then
          var sent := [Api.MeRequest(), Api.RefreshRequest(st[RefreshToken])];
          match refresh
          case Ok(access) => Step(State(Some(u), false, st[AccessToken := access]), sent, None)
          case Err(_) => Step(State(None, false, ClearAll(st)), sent, None)
        else Step(State(None, false, st - {AccessToken, UserKey}), [Api.MeRequest()], None)
  }

  // ---------------------------------------------------------------------------
  // Login and register

  /** Both variants of login post to the same endpoint; an `@` selects the email key. */
  function LoginRoute(identifier: string, password: string): (req: Api.Request)
    ensures req.verb == Api.Post && req.path == "/auth/login/"
    ensures req.body.Obj? && "password" in req.body.fields && req.body.fields["password"] == Js.Str(password)
    ensures '@' in identifier <==> "email" in req.body.fields
    ensures '@' in identifier <==> "username" !in req.body.fields
  {
    if '@' in identifier then Api.LoginWithEmailRequest(identifier, password)
    else Api.LoginRequest(identifier, password)
  }

  /**
   * The server reads back what the page sent: its identifier is
   * `username or email` of the body, so a non-empty identifier arrives
   * whichever variant carried it, together with the password.
   */
  lemma LoginReachesServerIdentifier(identifier: string, password: string)
    requires identifier != ""
    ensures var b := LoginRoute(identifier, password).body;
            && AuthViews.Identifier(Api.StrField(b, "username"), Api.StrField(b, "email")) == Some(identifier)
            && Api.StrField(b, "password") == Some(password)
  {
  }

  /** `login`: on success all three keys and the user are set; on failure nothing changes and the error is rethrown. */
  function Login(s: State, identifier: string, password: string, reply: Reply<AuthResponse>,
                 stringify: User -> string): (t: Step)
    ensures t.sent == [LoginRoute(identifier, password)]
    ensures reply.Ok? ==> SignedIn(t, reply.value, stringify) && t.raised.None? && t.next.isLoading == s.isLoading
    ensures reply.Err? ==> t.next == s && t.raised == Some(reply.fault)
    ensures Consistent(s) ==> Consistent(t.next)
  {
    var req := LoginRoute(identifier, password);
    match reply
    case Ok(r) => Step(s.(user := Some(r.user), store := Persist(s.store, r, stringify)), [req], None)
    case Err(f) => Step(s, [req], Some(f))
  }

  /** `register`: the same storage and state contract as login, through the registration endpoint. */
  function Register(s: State, username: string, email: string, password: string, reply: Reply<AuthResponse>,
                    stringify: User -> string): (t: Step)
    ensures t.sent == [Api.RegisterRequest(username, email, password)]
    ensures reply.Ok? ==> SignedIn(t, reply.value, stringify) && t.raised.None? && t.next.isLoading == s.isLoading
    ensures reply.Err? ==> t.next == s && t.raised == Some(reply.fault)
    ensures Consistent(s) ==> Consistent(t.next)
  {
    var req := Api.RegisterRequest(username, email, password);
    match reply
    case Ok(r) => Step(s.(user := Some(r.user), store := Persist(s.store, r, stringify)), [req], None)
    case Err(f) => Step(s, [req], Some(f))
  }

  // ---------------------------------------------------------------------------
  // Logout and refresh

  /**
   * `logout`: notifies the server only when a refresh token is stored, then
   * always removes the three keys and the user. The server's answer is
   * swallowed, so it is not an input.
   */
  function Logout(s: State): (t: Step)
    ensures t.next.store.Keys !! {AccessToken, RefreshToken, UserKey} && !IsAuthenticated(t.next)
    ensures t.next.isLoading == s.isLoading && t.raised.None?
    ensures |t.sent| <= 1
    ensures t.sent != [] <==> Present(s.store, RefreshToken)
    ensures t.sent != [] ==> t.sent[0] == Api.LogoutRequest(s.store[RefreshToken])
  {
    var sent := if Present(s.store, RefreshToken) then [Api.LogoutRequest(s.store[RefreshToken])] else [];
    Step(State(None, s.isLoading, ClearAll(s.store)), sent, None)
  }

  /** Logging out twice is logging out once, and the second time nothing is sent. */
  lemma LogoutIdempotent(s: State)
    ensures Logout(Logout(s).next).next == Logout(s).next
    ensures Logout(Logout(s).next).sent == []
  {
    var once := Logout(s).next;
    assert ClearAll(once.store) == once.store;
  }

  const NoRefreshToken: string := "No refresh token"

  /**
   * `refreshAuth`: success overwrites only the access token; a missing token
   * or a failed refresh logs out and rethrows.
   */
  function RefreshAuth(s: State, reply: Reply<string>): (t: Step)
    ensures t.raised.None? <==> Present(s.store, RefreshToken) && reply.Ok?
    ensures t.raised.None? ==> t.next == s.(store := s.store[AccessToken := reply.value])
    ensures t.raised.Some? ==> t.next == Logout(s).next
    ensures !Present(s.store, RefreshToken) ==> t.raised == Some(Api.Raised(Js.Str(NoRefreshToken)))
    ensures Present(s.store, RefreshToken) ==> |t.sent| >= 1 && t.sent[0] == Api.RefreshRequest(s.store[RefreshToken])
    ensures Present(s.store, RefreshToken) && reply.Err? ==> t.raised == Some(reply.fault)
    ensures Consistent(s) ==> Consistent(t.next)
  {
    if !Present(s.store, RefreshToken) then
      var out := Logout(s);
      Step(out.next, out.sent, Some(Api.Raised(Js.Str(NoRefreshToken))))
    else
      var req := Api.RefreshRequest(s.store[RefreshToken]);
      match reply
      case Ok(access) => Step(s.(store := s.store[AccessToken := access]), [req], None)
      case Err(f) =>
        var out := Logout(s);
        Step(out.next, [req] + out.sent, Some(f))
  }

  /** A successful refresh leaves the refresh token, the stored user and the signed-in user as they were. */
  lemma RefreshKeepsIdentity(s: State, access: string)
    requires Present(s.store, RefreshToken)
    ensures var n := RefreshAuth(s, Ok(access)).next;
            && n.user == s.user
            && n.store[AccessToken] == access
            && n.store[RefreshToken] == s.store[RefreshToken]
            && (UserKey in s.store ==> UserKey in n.store && n.store[UserKey] == s.store[UserKey])
  {
  }

  // ---------------------------------------------------------------------------
  // Scenarios

  /** An identifier with `@` routes to the email variant, one without to the username variant. */
  lemma LoginRoutingScenario(password: string)
    ensures LoginRoute("alice@example.com", password) == Api.LoginWithEmailRequest("alice@example.com", password)
    ensures LoginRoute("alice", password) == Api.LoginRequest("alice", password)
  {
    assert "alice@example.com"[5] == '@';
  }

  /** Bootstrap with a rejected access token and a good refresh token stays signed in with the new token. */
  lemma BootstrapRefreshScenario(u: User, a: string, r: string, blob: string, a2: string,
                                 parseUser: string -> Option<User>, f: Api.Fault)
    requires a != "" && r != "" && blob != "" && parseUser(blob) == Some(u)
    ensures var s := Mount(map[AccessToken := a, RefreshToken := r, UserKey := blob]);
            var t := LoadUser(s, parseUser, Api.Thrown(f), Ok(a2));
            && t.next == State(Some(u), false, map[AccessToken := a2, RefreshToken := r, UserKey := blob])
            && t.sent == [Api.MeRequest(), Api.RefreshRequest(r)]
  {
  }

  /** Bootstrap with a rejected access token and no refresh token signs out with an empty store. */
  lemma BootstrapNoRefreshScenario(u: User, a: string, blob: string, parseUser: string -> Option<User>,
                                   f: Api.Fault, reply: Reply<string>)
    requires a != "" && blob != "" && parseUser(blob) == Some(u)
    ensures var s := Mount(map[AccessToken := a, UserKey := blob]);
            LoadUser(s, parseUser, Api.Thrown(f), reply).next == State(None, false, map[])
  {
    var st: Store := map[AccessToken := a, UserKey := blob];
    assert st - {AccessToken, UserKey} == map[];
  }

  /**
   * Login followed by a page reload: when the stored snapshot parses back to
   * the user and the server still accepts the access token, bootstrap of the
   * persisted store signs the same user in again without touching the store.
   */
  lemma LoginThenReload(s: State, identifier: string, password: string, r: AuthResponse,
                        stringify: User -> string, parseUser: string -> Option<User>, v: Js.Value, refresh: Reply<string>)
    requires r.tokens.access != "" && stringify(r.user) != ""
    requires parseUser(stringify(r.user)) == Some(r.user)
    ensures var stored := Login(s, identifier, password, Ok(r), stringify).next.store;
            LoadUser(Mount(stored), parseUser, Api.Returned(v), refresh).next == State(Some(r.user), false, stored)
  {
    var stored := Login(s, identifier, password, Ok(r), stringify).next.store;
    assert Present(stored, UserKey) && Present(stored, AccessToken);
    assert stored[UserKey] == stringify(r.user);
  }
}

=== FILE: text.dfy ===
/**
 * String helpers shared by the client and the server models: trimming, prefix
 * stripping, substring search, ASCII case folding, splitting on a separator,
 * left-to-right replacement and decimal rendering of numbers.
 */
module Text {
  import opened Wrappers

  /** An optional text input that is present and non-empty (truthy in both JavaScript and Python). */
  predicate Given(o: Option<string>) {
    o.Some? && o.value != ""
  }

  /** White space as ECMAScript's `String.prototype.trim` removes it (WhiteSpace and LineTerminator code points). */
  predicate IsJsSpace(c: char) {
    || c == '\t' || c == '\n' || c == '\U{B}' || c == '\U{C}' || c == '\r' || c == ' '
    || c == '\U{A0}' || c == '\U{1680}' || ('\U{2000}' <= c <= '\U{200A}')
    || c == '\U{2028}' || c == '\U{2029}' || c == '\U{202F}' || c == '\U{205F}'
    || c == '\U{3000}' || c == '\U{FEFF}'
  }

  predicate IsSlash(c: char) {
    c == '/'
  }

  /** Every character of `s` satisfies `p`. */
  predicate All(s: string, p: char -> bool) {
    forall i | 0 <= i < |s| :: p(s[i])
  }

  /** Removes the longest suffix whose characters all satisfy `p` (`replace(/p+$/, '')`, Python's `rstrip`). */
  function DropLastWhile(s: string, p: char -> bool): (r: string)
    ensures r <= s
    ensures All(s[|r|..], p)
    ensures r == [] || !p(r[|r| - 1])
  {
    if |s| > 0 && p(s[|s| - 1]) then DropLastWhile(s[..|s| - 1], p) else s
  }

  /** Removes the longest prefix whose characters all satisfy `p`. */
  function DropWhile(s: string, p: char -> bool): (r: string)
    ensures |r| <= |s| && r == s[|s| - |r|..]
    ensures All(s[..|s| - |r|], p)
    ensures r == [] || !p(r[0])
  {
    if |s| > 0 && p(s[0]) then DropWhile(s[1..], p) else s
  }

  /** The three clauses of `DropLastWhile`'s contract determine its result. */
  lemma {:induction false} DropLastWhileUnique(s: string, p: char -> bool, r: string)
    requires r <= s && All(s[|r|..], p) && (r == [] || !p(r[|r| - 1]))
    ensures r == DropLastWhile(s, p)
  {
  }

  /** White space as Python's `str.strip` removes it (`str.isspace`). */
  predicate IsPySpace(c: char) {
    || ('\t' <= c <= '\r') || ('\U{1C}' <= c <= '\U{1F}') || c == ' '
    || c == '\U{85}' || c == '\U{A0}' || c == '\U{1680}' || ('\U{2000}' <= c <= '\U{200A}')
    || c == '\U{2028}' || c == '\U{2029}' || c == '\U{202F}' || c == '\U{205F}' || c == '\U{3000}'
  }

  /** `r` sits at index `i` of `s`, with only characters satisfying `p` before and after it. */
  predicate PaddedAt(s: string, r: string, i: int, p: char -> bool) {
    && 0 <= i <= |s| - |r|
    && s[i..i + |r|] == r
    && All(s[..i], p)
    && All(s[i + |r|..], p)
  }

  /** Removes the longest prefix and the longest suffix made of characters satisfying `p`. */
  function Strip(s: string, p: char -> bool): (r: string)
    ensures r == [] || (!p(r[0]) && !p(r[|r| - 1]))
  {
    var e := DropLastWhile(s, p);
    var r := DropWhile(e, p);
    StripWitness(s, e, r, p);
    r
  }

  lemma StripWitness(s: string, e: string, r: string, p: char -> bool)
    requires e <= s && All(s[|e|..], p)
    requires |r| <= |e| && r == e[|e| - |r|..] && All(e[..|e| - |r|], p)
    ensures PaddedAt(s, r, |e| - |r|, p)
  {
    var i := |e| - |r|;
    assert s[i..i + |r|] == r;
    assert s[..i] == e[..i];
    forall k | i + |r| <= k < |s|
      ensures p(s[k])
    {
      assert s[|e|..][k - |e|] == s[k];
    }
  }

  /** A string made of characters satisfying neither end condition is its own strip. */
  lemma StripUnpadded(s: string, p: char -> bool)
    requires s == [] || (!p(s[0]) && !p(s[|s| - 1]))
    ensures Strip(s, p) == s
  {
    assert DropLastWhile(s, p) == s;
    assert DropWhile(s, p) == s;
  }

  /** JavaScript `s.trim()`. */
  function Trim(s: string): string {
    Strip(s, IsJsSpace)
  }

  /** Python `s.strip()`. */
  function PyStrip(s: string): string {
    Strip(s, IsPySpace)
  }

  /** Where the stripped string sits inside the original. */
  lemma StripLocate(s: string, p: char -> bool) returns (i: nat)
    ensures PaddedAt(s, Strip(s, p), i, p)
  {
    var e := DropLastWhile(s, p);
    var r := DropWhile(e, p);
    assert Strip(s, p) == r;
    StripWitness(s, e, r, p);
    i := |e| - |r|;
  }

  /** A string strips to nothing exactly when all of its characters satisfy `p`. */
  lemma StripEmptyIffAll(s: string, p: char -> bool)
    ensures Strip(s, p) == [] <==> All(s, p)
  {
    var r := Strip(s, p);
    var i := StripLocate(s, p);
    if r == [] {
      assert s == s[..i] + s[i..];
    } else {
      assert s[i] == r[0];
    }
  }

  /** A character that stripping removes nowhere is in the stripped string exactly when it is in the original. */
  lemma StripKeepsChar(s: string, p: char -> bool, c: char)
    requires !p(c)
    ensures c in Strip(s, p) <==> c in s
  {
    var r := Strip(s, p);
    var i := StripLocate(s, p);
    if c in s {
      var j :| 0 <= j < |s| && s[j] == c;
      StripKeeps(s, p, j);
    }
    if c in r {
      var j :| 0 <= j < |r| && r[j] == c;
      assert s[i + j] == r[j];
    }
  }

  /** A character that is not stripped survives stripping. */
  lemma StripKeeps(s: string, p: char -> bool, j: int)
    requires 0 <= j < |s| && !p(s[j])
    ensures s[j] in Strip(s, p)
  {
    var r := Strip(s, p);
    var i := StripLocate(s, p);
    if i <= j < i + |r| {
      assert r[j - i] == s[j];
    }
  }

  /** `s` contains `t` as a contiguous substring (JavaScript `includes`, Python `in`). */
  predicate Contains(s: string, t: string) {
    exists i | 0 <= i <= |s| - |t| :: OccursAt(s, t, i)
  }

  /** `t` occurs in `s` starting at index `i`. */
  predicate OccursAt(s: string, t: string, i: int) {
    0 <= i <= |s| - |t| && s[i..i + |t|] == t
  }

  /** The empty string is contained in every string. */
  lemma ContainsEmpty(s: string)
    ensures Contains(s, [])
  {
    assert OccursAt(s, [], 0);
  }

  /** A substring of a substring is a substring. */
  lemma ContainsTrans(a: string, b: string, c: string)
    requires Contains(a, b) && Contains(b, c)
    ensures Contains(a, c)
  {
    var i :| 0 <= i <= |a| - |b| && OccursAt(a, b, i);
    var j :| 0 <= j <= |b| - |c| && OccursAt(b, c, j);
    forall k | 0 <= k < |c|
      ensures a[i + j + k] == c[k]
    {
      assert a[i..i + |b|][j + k] == b[j + k];
      assert b[j..j + |c|][k] == c[k];
    }
    assert a[i + j..i + j + |c|] == c;
    assert OccursAt(a, c, i + j);
  }

  /** Lower-casing keeps a substring a substring. */
  lemma ContainsLower(s: string, t: string)
    requires Contains(s, t)
    ensures Contains(Lower(s), Lower(t))
  {
    var i :| 0 <= i <= |s| - |t| && OccursAt(s, t, i);
    assert Lower(s)[i..i + |t|] == Lower(t);
    assert OccursAt(Lower(s), Lower(t), i);
  }

  /** A field matching a query case-insensitively matches every substring of the query. */
  lemma ContainsIgnoringCaseWeaken(field: string, query: string, term: string)
    requires ContainsIgnoringCase(field, query) && Contains(query, term)
    ensures ContainsIgnoringCase(field, term)
  {
    ContainsLower(query, term);
    ContainsTrans(Lower(field), Lower(query), Lower(term));
  }

  /** ASCII upper-case letters are mapped to lower case; every other character is kept. */
  function LowerChar(c: char): char {
    if 'A' <= c <= 'Z' then (c as int + 32) as char else c
  }

  function Lower(s: string): (r: string)
    ensures |r| == |s|
    ensures forall i | 0 <= i < |s| :: r[i] == LowerChar(s[i])
  {
    if |s| == 0 then [] else [LowerChar(s[0])] + Lower(s[1..])
  }

  /** Case-insensitive substring test (Django `icontains`, `a.toLowerCase().includes(b.toLowerCase())`). */
  predicate ContainsIgnoringCase(s: string, t: string) {
    Contains(Lower(s), Lower(t))
  }

  predicate EqualsIgnoringCase(s: string, t: string) {
    Lower(s) == Lower(t)
  }

  /** JavaScript `s.split(c)` for a one-character separator. */
  function Split(s: string, c: char): (r: seq<string>)
    ensures |r| >= 1
    ensures forall k | 0 <= k < |r| :: c !in r[k]
  {
    if |s| == 0 then [""]
    else
      var rest := Split(s[1..], c);
      if s[0] == c then [""] + rest
      else [[s[0]] + rest[0]] + rest[1..]
  }

  /** A string without the separator splits into itself alone. */
  lemma {:induction false} SplitWithoutSeparator(s: string, c: char)
    requires c !in s
    ensures Split(s, c) == [s]
  {
    if |s| > 0 {
      SplitWithoutSeparator(s[1..], c);
      assert [s[0]] + s[1..] == s;
    }
  }

  /** Splitting at the first separator: the field before it, then the split of the rest. */
  lemma {:induction false} SplitAtFirst(a: string, b: string, c: char)
    requires c !in a
    ensures Split(a + [c] + b, c) == [a] + Split(b, c)
  {
    var s := a + [c] + b;
    if |a| == 0 {
      assert s == [c] + b;
      assert s[1..] == b;
    } else {
      assert s[0] == a[0];
      assert s[1..] == a[1..] + [c] + b;
      SplitAtFirst(a[1..], b, c);
      assert [a[0]] + a[1..] == a;
    }
  }

  /** JavaScript `parts.join(c)`. */
  function Join(parts: seq<string>, c: char): string
    requires |parts| >= 1
  {
    if |parts| == 1 then parts[0] else parts[0] + [c] + Join(parts[1..], c)
  }

  /** Joining the pieces of a split with the same separator gives the string back. */
  lemma {:induction false} JoinSplit(s: string, c: char)
    ensures Join(Split(s, c), c) == s
  {
    if |s| > 0 {
      var rest := Split(s[1..], c);
      JoinSplit(s[1..], c);
      if s[0] != c {
        var r := Split(s, c);
        assert r[1..] == rest[1..];
        if |rest| > 1 {
          assert rest == [rest[0]] + rest[1..];
          assert Join(rest, c) == rest[0] + [c] + Join(rest[1..], c);
        }
      }
    }
  }

  /** Python `s.replace(pat, rep)`: every non-overlapping occurrence, scanned left to right. */
  function ReplaceAll(s: string, pat: string, rep: string): (r: string)
    requires |pat| > 0
    ensures pat <= s ==> rep <= r
    decreases |s|
  {
    if |s| < |pat| then s
    else if pat <= s then rep + ReplaceAll(s[|pat|..], pat, rep)
    else [s[0]] + ReplaceAll(s[1..], pat, rep)
  }

  /** A string without any occurrence of the pattern is left as it is. */
  lemma {:induction false} ReplaceAllWithoutMatch(s: string, pat: string, rep: string)
    requires |pat| > 0 && !Contains(s, pat)
    ensures ReplaceAll(s, pat, rep) == s
    decreases |s|
  {
    if |s| >= |pat| {
      assert !OccursAt(s, pat, 0);
      assert s[..|pat|] == s[0..|pat|];
      forall i | 0 <= i <= |s[1..]| - |pat|
        ensures !OccursAt(s[1..], pat, i)
      {
        assert !OccursAt(s, pat, i + 1);
        assert s[1..][i..i + |pat|] == s[i + 1..i + 1 + |pat|];
      }
      ReplaceAllWithoutMatch(s[1..], pat, rep);
    }
  }

  function DigitChar(d: nat): char
    requires d < 10
  {
    "0123456789"[d]
  }

  predicate IsDigit(c: char) {
    '0' <= c <= '9'
  }

  /** JavaScript `String(n)` / Python `str(n)` for a non-negative integer. */
  function NatToString(n: nat): (r: string)
    ensures |r| >= 1 && All(r, IsDigit)
  {
    if n < 10 then [DigitChar(n)] else NatToString(n / 10) + [DigitChar(n % 10)]
  }

  /** The value of a string of decimal digits. */
  function ParseDecimal(s: string): nat
    requires All(s, IsDigit)
  {
    if |s| == 0 then 0 else ParseDecimal(s[..|s| - 1]) * 10 + (s[|s| - 1] as int - '0' as int)
  }

  /** Rendering a number in decimal and reading it back gives the number. */
  lemma {:induction false} ParseNatToString(n: nat)
    ensures ParseDecimal(NatToString(n)) == n
  {
    if n >= 10 {
      var s := NatToString(n);
      ParseNatToString(n / 10);
      assert s[..|s| - 1] == NatToString(n / 10);
    }
  }
}

=== FILE: views.dfy ===
/**
 * The REST view sets (`sounds/views.py`): which permission each action needs,
 * which serializer the sound view set picks, the sound and comment query
 * sets, the comment owner checks, and the favourite endpoints, plus the
 * tag and sound endpoints the generic view sets provide.
 *
 * The requester is an input: `None` is the anonymous user. Permission
 * refusals answer 403, as DRF does when the first authentication class is
 * session authentication.
 */
module Views {
  import opened Wrappers
  import opened Text
  import opened Seqs
  import opened Accounts
  import opened Models
  import opened Serializers

  // ---------------------------------------------------------------------------
  // Permissions and serializer choice

  /** The view-set actions DRF dispatches on; `Custom` is an extra `@action` such as `remove`. */
  datatype Action = List | Retrieve | Create | Update | PartialUpdate | Destroy | Custom(name: string)

  datatype Permission = AllowAny | IsAuthenticated | IsAdminUser

  /** The requester, `None` being the anonymous user. */
  type Requester = Option<Account>

  predicate Writes(a: Action) {
    a.Create? || a.Update? || a.PartialUpdate? || a.Destroy?
  }

  predicate Permits(p: Permission, who: Requester) {
    match p
    case AllowAny => true
    case IsAuthenticated => who.Some?
    case IsAdminUser => who.Some? && who.value.isStaff
  }

  /** `SoundViewSet.get_permissions` and `TagViewSet.get_permissions`: writes are for staff, reads for everyone. */
  function AdminWrites(a: Action): (p: Permission)
    ensures forall who: Requester :: Permits(p, who) <==> !Writes(a) || (who.Some? && who.value.isStaff)
  {
    if Writes(a) then IsAdminUser else AllowAny
  }

  /** `CommentViewSet.get_permissions`: writes need a signed-in user, reads are public. */
  function CommentPermission(a: Action): (p: Permission)
    ensures forall who: Requester :: Permits(p, who) <==> !Writes(a) || who.Some?
  {
    if a.Create? then IsAuthenticated
    else if a.Update? || a.PartialUpdate? || a.Destroy? then IsAuthenticated
    else AllowAny
  }

  /** `FavoriteViewSet.permission_classes`: every action needs a signed-in user. */
  const FavoritePermission: Permission := IsAuthenticated

  datatype SoundSerializerKind = ListSerializer | DetailSerializer | CreateUpdateSerializer

  /** `SoundViewSet.get_serializer_class`. */
  function SoundSerializerFor(a: Action): (k: SoundSerializerKind)
    ensures k == DetailSerializer <==> a.Retrieve?
    ensures k == CreateUpdateSerializer <==> a.Create? || a.Update? || a.PartialUpdate?
    ensures k == ListSerializer <==> a.List? || a.Destroy? || a.Custom?
  {
    if a.List? then ListSerializer
    else if a.Retrieve? then DetailSerializer
    else if a.Create? || a.Update? || a.PartialUpdate? then CreateUpdateSerializer
    else ListSerializer
  }

  // ---------------------------------------------------------------------------
  // Answers

  /** A write endpoint's answer: the status, the error message when there is one, the database afterwards. */
  datatype Outcome = Outcome(status: nat, error: Option<string>, db: Db)

  /** A list endpoint's answer. */
  datatype Listing<T> = Listed(items: seq<T>) | Failed(status: nat)

  const NotAuthenticatedMsg: string := "Authentication credentials were not provided."
  const PermissionDeniedMsg: string := "You do not have permission to perform this action."
  const RequiredMsg: string := "This field is required."
  const BlankMsg: string := "This field may not be blank."
  const EditOthersMsg: string := "You can only edit your own comments."
  const DeleteOthersMsg: string := "You can only delete your own comments."
  const SoundIdRequiredMsg: string := "Sound ID is required."
  const AlreadyFavoriteMsg: string := "Sound is already in favorites."
  const FavoriteNotFoundMsg: string := "Favorite not found."
  const TagNameTakenMsg: string := "tag with this name already exists."
  const NullCharsMsg: string := "Null characters are not allowed."

  function TooLongMsg(limit: nat): string {
    "Ensure this field has no more than " + NatToString(limit) + " characters."
  }

  function InvalidPkMsg(pk: nat): string {
    "Invalid pk \"" + NatToString(pk) + "\" - object does not exist."
  }

  /** The 403 for a requester the permission refuses. */
  function Denied(db: Db, who: Requester): (o: Outcome) {
    Outcome(403, Some(if who.None? then NotAuthenticatedMsg else PermissionDeniedMsg), db)
  }

  function Refused(db: Db, status: nat, msg: string): Outcome {
    Outcome(status, Some(msg), db)
  }

  // ---------------------------------------------------------------------------
  // Sound query set

  /** Some tag of the sound has a name containing `q`, case-insensitively (`tags__name__icontains`). */
  predicate TagMatches(db: Db, s: Sound, q: string) {
    exists i | 0 <= i < |db.tags| :: db.tags[i].id in s.tags && ContainsIgnoringCase(db.tags[i].name, q)
  }

  /** The name, the description or a tag name contains `q`, case-insensitively. */
  predicate SearchMatches(db: Db, s: Sound, q: string) {
    || ContainsIgnoringCase(s.name, q)
    || (s.description.Some? && ContainsIgnoringCase(s.description.value, q))
    || TagMatches(db, s, q)
  }

  /** The sounds the `tag` and `search` query parameters select; an absent or empty parameter selects all. */
  predicate Selected(db: Db, tag: Option<string>, search: Option<string>, s: Sound) {
    && (Given(tag) ==> TagMatches(db, s, tag.value))
    && (Given(search) ==> SearchMatches(db, s, search.value))
  }

  /**
   * `SoundViewSet.get_queryset` under the default newest-first ordering.
   * The model filters rows and never joins them, so `.distinct()` holds by
   * construction: no sound is listed more often than it is stored.
   */
  function SoundsQuery(db: Db, tag: Option<string>, search: Option<string>): (r: seq<Sound>)
    ensures forall i | 0 <= i < |r| :: r[i] in db.sounds && Selected(db, tag, search, r[i])
    ensures forall i | 0 <= i < |db.sounds| :: Selected(db, tag, search, db.sounds[i]) ==> db.sounds[i] in r
    ensures SortedBy(r, (a: Sound, b: Sound) => a.createdAt >= b.createdAt)
    ensures multiset(r) <= multiset(db.sounds)
  {
    var all := NewestFirst(db.sounds, (s: Sound) => s.createdAt);
    var r := Select(db, tag, search, all);
    assert forall i | 0 <= i < |r| :: r[i] in all ==> r[i] in db.sounds;
    r
  }

  /** The `tag` filter, then the `search` filter, over a newest-first list. */
  function Select(db: Db, tag: Option<string>, search: Option<string>, xs: seq<Sound>): (r: seq<Sound>)
    requires SortedBy(xs, (a: Sound, b: Sound) => a.createdAt >= b.createdAt)
    ensures forall i | 0 <= i < |r| :: r[i] in xs && Selected(db, tag, search, r[i])
    ensures forall i | 0 <= i < |xs| :: Selected(db, tag, search, xs[i]) ==> xs[i] in r
    ensures SortedBy(r, (a: Sound, b: Sound) => a.createdAt >= b.createdAt)
    ensures multiset(r) <= multiset(xs)
  {
    var byTag := KeepWhen(xs, Given(tag), (s: Sound) => Given(tag) && TagMatches(db, s, tag.value));
    var r := KeepWhen(byTag, Given(search), (s: Sound) => Given(search) && SearchMatches(db, s, search.value));
    SubMultisetChain(multiset(r), multiset(byTag), multiset(xs), multiset(xs));
    r
  }

  lemma SubMultisetChain<T>(a: multiset<T>, b: multiset<T>, c: multiset<T>, d: multiset<T>)
    requires a <= b && b <= c && c == d
    ensures a <= d
  {
  }

  /** A query-set filter applied only when its parameter is given; it keeps the newest-first order. */
  function KeepWhen(xs: seq<Sound>, given: bool, p: Sound -> bool): (r: seq<Sound>)
    requires SortedBy(xs, (a: Sound, b: Sound) => a.createdAt >= b.createdAt)
    ensures SortedBy(r, (a: Sound, b: Sound) => a.createdAt >= b.createdAt)
    ensures forall i | 0 <= i < |r| :: r[i] in xs && (given ==> p(r[i]))
    ensures forall i | 0 <= i < |xs| :: (given ==> p(xs[i])) ==> xs[i] in r
    ensures multiset(r) <= multiset(xs)
  {
    if given then
      FilterSorted(xs, p, (a: Sound, b: Sound) => a.createdAt >= b.createdAt);
      FilterSubMultiset(xs, p);
      Filter(xs, p)
    else xs
  }

  /**
   * The list action: the query set, then DRF's `SearchFilter`, which keeps the
   * sounds where every term of the search (`terms`, the filter's own split of
   * the parameter) matches the name, the description or a tag name.
   */
  function SoundsList(db: Db, tag: Option<string>, search: Option<string>, terms: seq<string>): (r: seq<Sound>)
    ensures forall i | 0 <= i < |r| :: r[i] in SoundsQuery(db, tag, search)
  {
    var q := SoundsQuery(db, tag, search);
    if Given(search) then Filter(q, (s: Sound) => forall t | t in terms :: SearchMatches(db, s, t)) else q
  }

  /** When every search term is a substring of the search, the search backend removes nothing more. */
  lemma SearchBackendRedundant(db: Db, tag: Option<string>, search: Option<string>, terms: seq<string>)
    requires Given(search) ==> forall i | 0 <= i < |terms| :: Contains(search.value, terms[i])
    ensures SoundsList(db, tag, search, terms) == SoundsQuery(db, tag, search)
  {
    if Given(search) {
      var q := SoundsQuery(db, tag, search);
      var p := (s: Sound) => forall t | t in terms :: SearchMatches(db, s, t);
      forall i | 0 <= i < |q|
        ensures p(q[i])
      {
        forall t | t in terms
          ensures SearchMatches(db, q[i], t)
        {
          SearchWeaken(db, q[i], search.value, t);
        }
      }
      FilterAll(q, p);
    }
  }

  lemma SearchWeaken(db: Db, s: Sound, query: string, term: string)
    requires SearchMatches(db, s, query) && Contains(query, term)
    ensures SearchMatches(db, s, term)
  {
    if ContainsIgnoringCase(s.name, query) {
      ContainsIgnoringCaseWeaken(s.name, query, term);
    } else if s.description.Some? && ContainsIgnoringCase(s.description.value, query) {
      ContainsIgnoringCaseWeaken(s.description.value, query, term);
    } else {
      var i :| 0 <= i < |db.tags| && db.tags[i].id in s.tags && ContainsIgnoringCase(db.tags[i].name, query);
      ContainsIgnoringCaseWeaken(db.tags[i].name, query, term);
    }
  }

  // ---------------------------------------------------------------------------
  // Comments

  /**
   * `CommentViewSet.get_queryset`: the comments of the sound named by the
   * `sound` parameter when it is given, newest first. `toInt` is the
   * database layer's conversion of the parameter; one it rejects raises
   * `ValueError`, a 500.
   */
  function CommentsList(db: Db, sound: Option<string>, toInt: string -> Option<int>): (r: Listing<Comment>)
    ensures r.Failed? <==> Given(sound) && toInt(sound.value).None?
    ensures r.Failed? ==> r.status == 500
    ensures r.Listed? ==> SortedBy(r.items, (a: Comment, b: Comment) => a.createdAt >= b.createdAt)
    ensures r.Listed? ==> forall i | 0 <= i < |r.items| ::
              r.items[i] in db.comments && (Given(sound) ==> r.items[i].sound == toInt(sound.value).value)
    ensures r.Listed? ==> forall i | 0 <= i < |db.comments| ::
              (Given(sound) ==> db.comments[i].sound == toInt(sound.value).value) ==> db.comments[i] in r.items
  {
    if Given(sound) && toInt(sound.value).None? then Failed(500)
    else
      var rows := if Given(sound) then var n := toInt(sound.value).value; Filter(db.comments, (c: Comment) => c.sound == n)
                  else db.comments;
      Listed(NewestFirst(rows, (c: Comment) => c.createdAt))
  }

  /** The comment saved by a create: the validated sound and content, the requester as author. */
  function NewComment(db: Db, author: Account, sound: nat, content: string, now: int): Comment {
    Comment(NextKey(db.comments, (c: Comment) => c.id), sound, author.id, content, now)
  }

  /**
   * `create` on the comment view set: permission, then `CommentSerializer`
   * validation, then `perform_create`, which saves the requester as author.
   */
  function CreateComment(db: Db, who: Requester, input: CommentInput, s: Sanitizer, now: int): (o: Outcome)
    ensures who.None? ==> o.status == 403
    ensures o.status == 201 <==> who.Some? && CheckComment(db, input, false, s).Accepted?
    ensures o.status == 201 ==> |o.db.comments| == |db.comments| + 1
    ensures o.status == 201 ==>
              var c := o.db.comments[|db.comments|];
              && o.db.comments == db.comments + [c]
              && c.user == who.value.id && c.sound == input.sound.value
              && c.content == s.clean(PyStrip(input.content.value))
              && o.db == db.(comments := o.db.comments)
    ensures o.status != 201 ==> o.db == db
  {
    if who.None? then Denied(db, who)
    else
      match CheckComment(db, input, false, s)
      case Raised => Outcome(500, None, db)
      case Rejected => Outcome(400, None, db)
      case Accepted(sound, content) =>
        var c := NewComment(db, who.value, sound.value, content.value, now);
        Outcome(201, None, db.(comments := db.comments + [c]))
  }

  /**
   * As written, creating a comment never succeeds, and any non-blank content
   * without null characters from a signed-in user is a server error.
   */
  lemma CreateCommentAsWritten(db: Db, who: Requester, input: CommentInput, now: int)
    ensures CreateComment(db, who, input, Unbound, now).status != 201
    ensures who.Some? && input.content.Some? && PyStrip(input.content.value) != "" && NullFree(PyStrip(input.content.value)) ==>
              CreateComment(db, who, input, Unbound, now).status == 500
  {
  }

  /** Content holding a null character is refused with 400 before `validate_content` runs, whatever the sanitiser. */
  lemma CreateCommentNullRefused(db: Db, author: Account, input: CommentInput, s: Sanitizer, now: int)
    requires input.content.Some? && !NullFree(PyStrip(input.content.value))
    ensures CreateComment(db, Some(author), input, s, now) == Outcome(400, None, db)
  {
  }

  /** With a sanitiser in scope, a signed-in user's comment on an existing sound is saved, cleaned, under their name. */
  lemma CreateCommentSanitized(db: Db, author: Account, sound: nat, content: string, clean: string -> string, now: int)
    requires sound in SoundIds(db.sounds) && PyStrip(content) != "" && NullFree(PyStrip(content))
    ensures var o := CreateComment(db, Some(author), CommentInput(Some(sound), Some(content)), Clean(clean), now);
            && o.status == 201
            && o.db.comments == db.comments + [NewComment(db, author, sound, clean(PyStrip(content)), now)]
  {
  }

  /** A saved comment keeps a valid database valid. */
  lemma CreateCommentValid(db: Db, who: Requester, input: CommentInput, s: Sanitizer, now: int)
    requires Valid(db) && (who.Some? ==> who.value.id in UserIds(db.users))
    ensures Valid(CreateComment(db, who, input, s, now).db)
  {
    var o := CreateComment(db, who, input, s, now);
    if o.status == 201 {
      var c := o.db.comments[|db.comments|];
      assert forall i | 0 <= i < |db.comments| :: db.comments[i].id != c.id;
      AppendUnique(db.comments, c, (x: Comment) => x.id);
    }
  }

  /**
   * `update` / `partial_update` on the comment view set: permission, lookup,
   * validation, then `perform_update`'s owner check.
   */
  function UpdateComment(db: Db, who: Requester, id: nat, input: CommentInput, partial: bool, s: Sanitizer): (o: Outcome)
    ensures who.None? ==> o.status == 403
    ensures Find(db.comments, (c: Comment) => c.id, id).None? ==> o.db == db
    ensures o.status == 200 <==>
              && who.Some?
              && Find(db.comments, (c: Comment) => c.id, id).Some?
              && CheckComment(db, input, partial, s).Accepted?
              && db.comments[Find(db.comments, (c: Comment) => c.id, id).value].user == who.value.id
    ensures who.Some? && Find(db.comments, (c: Comment) => c.id, id).None? ==> o == Outcome(404, None, db)
    ensures who.Some? && Find(db.comments, (c: Comment) => c.id, id).Some? && CheckComment(db, input, partial, s).Accepted?
            && db.comments[Find(db.comments, (c: Comment) => c.id, id).value].user != who.value.id ==>
              o == Refused(db, 400, EditOthersMsg)
    ensures o.status != 200 ==> o.db == db
    ensures o.status == 200 ==>
              var k := Find(db.comments, (c: Comment) => c.id, id).value;
              var v := CheckComment(db, input, partial, s);
              && |o.db.comments| == |db.comments|
              && (forall j | 0 <= j < |db.comments| && j != k :: o.db.comments[j] == db.comments[j])
              && o.db.comments[k].id == id && o.db.comments[k].user == who.value.id
              && o.db.comments[k].createdAt == db.comments[k].createdAt
              && o.db.comments[k].sound == (if v.sound.Some? then v.sound.value else db.comments[k].sound)
              && o.db.comments[k].content == (if v.content.Some? then v.content.value else db.comments[k].content)
              && o.db == db.(comments := o.db.comments)
  {
    if who.None? then Denied(db, who)
    else
      match Find(db.comments, (c: Comment) => c.id, id)
      case None => Outcome(404, None, db)
      case Some(k) =>
        var c := db.comments[k];
        match CheckComment(db, input, partial, s)
        case Raised => Outcome(500, None, db)
        case Rejected => Outcome(400, None, db)
        case Accepted(sound, content) =>
          if c.user != who.value.id then Refused(db, 400, EditOthersMsg)
          else
            var c' := c.(sound := sound.GetOr(c.sound), content := content.GetOr(c.content));
            Outcome(200, None, db.(comments := db.comments[k := c']))
  }

  /** Nobody changes a comment they did not write: for a comment of another user, every update leaves the database as it was. */
  lemma OthersCommentsUntouched(db: Db, who: Account, id: nat, input: CommentInput, partial: bool, s: Sanitizer)
    requires exists k | 0 <= k < |db.comments| :: db.comments[k].id == id
    requires UniqueBy(db.comments, (c: Comment) => c.id)
    requires forall k | 0 <= k < |db.comments| && db.comments[k].id == id :: db.comments[k].user != who.id
    ensures UpdateComment(db, Some(who), id, input, partial, s).db == db
    ensures UpdateComment(db, Some(who), id, input, partial, s).status != 200
  {
  }

  /** `destroy` on the comment view set: permission, lookup, then `perform_destroy`'s owner check. */
  function DestroyComment(db: Db, who: Requester, id: nat): (o: Outcome)
    ensures who.None? ==> o.status == 403
    ensures o.status == 204 <==>
              && who.Some?
              && Find(db.comments, (c: Comment) => c.id, id).Some?
              && db.comments[Find(db.comments, (c: Comment) => c.id, id).value].user == who.value.id
    ensures who.Some? && Find(db.comments, (c: Comment) => c.id, id).None? ==> o == Outcome(404, None, db)
    ensures who.Some? && Find(db.comments, (c: Comment) => c.id, id).Some?
            && db.comments[Find(db.comments, (c: Comment) => c.id, id).value].user != who.value.id ==>
              o == Refused(db, 400, DeleteOthersMsg)
    ensures o.status != 204 ==> o.db == db
    ensures o.status == 204 ==>
              && (forall i | 0 <= i < |o.db.comments| :: o.db.comments[i].id != id)
              && (forall i | 0 <= i < |db.comments| :: db.comments[i].id != id ==> db.comments[i] in o.db.comments)
              && o.db == db.(comments := o.db.comments)
  {
    if who.None? then Denied(db, who)
    else
      match Find(db.comments, (c: Comment) => c.id, id)
      case None => Outcome(404, None, db)
      case Some(k) =>
        if db.comments[k].user != who.value.id then Refused(db, 400, DeleteOthersMsg)
        else Outcome(204, None, db.(comments := Filter(db.comments, (c: Comment) => c.id != id)))
  }

  // ---------------------------------------------------------------------------
  // Favourites

  /** `FavoriteViewSet.get_queryset`, newest first: the requester's own favourites and nobody else's. */
  function FavoritesList(db: Db, who: Requester): (r: Listing<Favorite>)
    ensures r.Failed? <==> who.None?
    ensures r.Listed? ==> forall i | 0 <= i < |r.items| :: r.items[i] in db.favorites && r.items[i].user == who.value.id
    ensures r.Listed? ==> forall i | 0 <= i < |db.favorites| :: db.favorites[i].user == who.value.id ==> db.favorites[i] in r.items
    ensures r.Listed? ==> SortedBy(r.items, (a: Favorite, b: Favorite) => a.createdAt >= b.createdAt)
  {
    if who.None? then Failed(403)
    else
      var uid := who.value.id;
      Listed(NewestFirst(Filter(db.favorites, (f: Favorite) => f.user == uid), (f: Favorite) => f.createdAt))
  }

  /** The favourite is user `uid`'s favourite of sound `sid` (the `remove` lookup's filter). */
  predicate Mine(f: Favorite, uid: nat, sid: int) {
    f.user == uid && f.sound == sid
  }

  /** How many of user `uid`'s favourites are of sound `sid`. */
  function MineCount(db: Db, uid: nat, sid: int): nat {
    Count(db.favorites, (f: Favorite) => Mine(f, uid, sid))
  }

  /** The requester already has a favourite for the sound. */
  predicate HasFavorite(db: Db, uid: nat, sid: nat) {
    exists i | 0 <= i < |db.favorites| :: Pair(db.favorites[i]) == (uid, sid)
  }

  /**
   * `create` on the favourite view set: permission, the serializer's required
   * `sound` primary key, then `perform_create`'s duplicate check; the saved
   * favourite belongs to the requester.
   */
  function AddFavorite(db: Db, who: Requester, sound: Option<nat>, now: int): (o: Outcome)
    ensures who.None? ==> o.status == 403
    ensures o.status == 201 <==> who.Some? && sound.Some? && sound.value in SoundIds(db.sounds)
                                 && !HasFavorite(db, who.value.id, sound.value)
    ensures who.Some? && sound.Some? && sound.value in SoundIds(db.sounds) && HasFavorite(db, who.value.id, sound.value) ==>
              o == Refused(db, 400, AlreadyFavoriteMsg)
    ensures o.status != 201 ==> o.db == db
    ensures o.status == 201 ==> |o.db.favorites| == |db.favorites| + 1
    ensures o.status == 201 ==>
              && o.db == db.(favorites := db.favorites + [o.db.favorites[|db.favorites|]])
              && Pair(o.db.favorites[|db.favorites|]) == (who.value.id, sound.value)
  {
    if who.None? then Denied(db, who)
    else if sound.None? then Refused(db, 400, RequiredMsg)
    else if sound.value !in SoundIds(db.sounds) then Refused(db, 400, InvalidPkMsg(sound.value))
    else if HasFavorite(db, who.value.id, sound.value) then Refused(db, 400, AlreadyFavoriteMsg)
    else
      var f := Favorite(NextKey(db.favorites, (x: Favorite) => x.id), who.value.id, sound.value, now);
      Outcome(201, None, db.(favorites := db.favorites + [f]))
  }

  /** Adding a favourite keeps a valid database valid: one favourite per user and sound. */
  lemma AddFavoriteValid(db: Db, who: Requester, sound: Option<nat>, now: int)
    requires Valid(db) && (who.Some? ==> who.value.id in UserIds(db.users))
    ensures Valid(AddFavorite(db, who, sound, now).db)
  {
    var o := AddFavorite(db, who, sound, now);
    if o.status == 201 {
      var f := o.db.favorites[|db.favorites|];
      assert forall i | 0 <= i < |db.favorites| :: db.favorites[i].id < f.id;
      AppendUnique(db.favorites, f, (x: Favorite) => x.id);
      AppendUnique(db.favorites, f, Pair);
    }
  }

  /**
   * The `remove` action: `sound` parameter required; the requester's
   * favourite of that sound looked up with `get` (none: 404; several: the
   * uncaught `MultipleObjectsReturned`, a 500) and deleted.
   */
  function RemoveFavorite(db: Db, who: Requester, sound: Option<string>, toInt: string -> Option<int>): (o: Outcome)
    ensures who.None? ==> o.status == 403
    ensures who.Some? && !Given(sound) ==> o == Refused(db, 400, SoundIdRequiredMsg)
    ensures who.Some? && Given(sound) && toInt(sound.value).None? ==> o == Outcome(500, None, db)
    ensures who.Some? && Given(sound) && toInt(sound.value).Some? ==>
              var n := toInt(sound.value).value;
              && (MineCount(db, who.value.id, n) == 0 <==> o == Refused(db, 404, FavoriteNotFoundMsg))
              && (MineCount(db, who.value.id, n) == 1 <==> o.status == 204)
              && (MineCount(db, who.value.id, n) > 1 ==> o == Outcome(500, None, db))
    ensures o.status != 204 ==> o.db == db
    ensures o.status == 204 ==>
              && who.Some? && Given(sound) && toInt(sound.value).Some?
              && var n := toInt(sound.value).value;
              && |o.db.favorites| + 1 == |db.favorites|
              && (forall i | 0 <= i < |o.db.favorites| :: !Mine(o.db.favorites[i], who.value.id, n))
              && (forall i | 0 <= i < |db.favorites| :: !Mine(db.favorites[i], who.value.id, n) ==> db.favorites[i] in o.db.favorites)
              && o.db == db.(favorites := o.db.favorites)
  {
    if who.None? then Denied(db, who)
    else if !Given(sound) then Refused(db, 400, SoundIdRequiredMsg)
    else if toInt(sound.value).None? then Outcome(500, None, db)
    else
      var uid := who.value.id;
      var n := toInt(sound.value).value;
      var hits := MineCount(db, uid, n);
      if hits == 0 then Refused(db, 404, FavoriteNotFoundMsg)
      else if hits > 1 then Outcome(500, None, db)
      else
        var rest := Filter(db.favorites, (f: Favorite) => !Mine(f, uid, n));
        FilterSplits(db.favorites, (f: Favorite) => Mine(f, uid, n), (f: Favorite) => !Mine(f, uid, n));
        Outcome(204, None, db.(favorites := rest))
  }

  /** Keeping what passes and keeping what fails a test split a sequence between them. */
  lemma {:induction false} FilterSplits<T>(xs: seq<T>, p: T -> bool, q: T -> bool)
    requires forall i | 0 <= i < |xs| :: q(xs[i]) <==> !p(xs[i])
    ensures |Filter(xs, p)| + |Filter(xs, q)| == |xs|
  {
    if |xs| > 0 {
      FilterSplits(xs[1..], p, q);
    }
  }

  /** With unique (user, sound) pairs, `remove` never meets several matches: its only 500 is a malformed parameter. */
  lemma RemoveNeverAmbiguous(db: Db, who: Requester, sound: Option<string>, toInt: string -> Option<int>)
    requires UniqueBy(db.favorites, Pair)
    ensures RemoveFavorite(db, who, sound, toInt).status == 500 ==> Given(sound) && toInt(sound.value).None?
  {
    if who.Some? && Given(sound) && toInt(sound.value).Some? {
      var uid := who.value.id;
      var n := toInt(sound.value).value;
      if n < 0 {
        FilterNone(db.favorites, (f: Favorite) => Mine(f, uid, n));
      } else {
        UniqueMatchesAtMostOne(db.favorites, Pair, (uid, n as nat), (f: Favorite) => Mine(f, uid, n));
      }
    }
  }

  /** Adding a favourite and removing it again by the sound's id gives back the database. */
  lemma FavoriteRoundTrip(db: Db, who: Account, sid: nat, now: int, toInt: string -> Option<int>)
    requires sid in SoundIds(db.sounds) && !HasFavorite(db, who.id, sid)
    requires toInt(NatToString(sid)) == Some(sid)
    ensures var a := AddFavorite(db, Some(who), Some(sid), now);
            && a.status == 201
            && RemoveFavorite(a.db, Some(who), Some(NatToString(sid)), toInt) == Outcome(204, None, db)
  {
    var a := AddFavorite(db, Some(who), Some(sid), now);
    var f := a.db.favorites[|db.favorites|];
    assert a.db.favorites == db.favorites + [f];
    CountAppended(db.favorites, f, (x: Favorite) => Mine(x, who.id, sid));
    DropAppended(db.favorites, f, (x: Favorite) => !Mine(x, who.id, sid));
  }

  /**
   * After a favourite is added, the sound's serialised fields show it: the
   * requester sees `is_favorite` true and `favorite_count` has grown by one.
   */
  lemma AddFavoriteShowsInSerializer(db: Db, who: Account, sid: nat, now: int, req: Request)
    requires req.user == Some(who)
    requires AddFavorite(db, Some(who), Some(sid), now).status == 201
    ensures var d := AddFavorite(db, Some(who), Some(sid), now).db;
            && IsFavorite(d, Some(req), sid)
            && FavoriteCount(d, sid) == FavoriteCount(db, sid) + 1
  {
    var d := AddFavorite(db, Some(who), Some(sid), now).db;
    var f := d.favorites[|db.favorites|];
    assert d == db.(favorites := db.favorites + [f]);
    assert d.favorites[|db.favorites|].user == who.id && d.favorites[|db.favorites|].sound == sid;
    FavoriteCountAppend(db, f, sid);
  }

  /** After `remove` succeeds, the requester no longer sees the sound as a favourite. */
  lemma RemoveFavoriteClearsSerializer(db: Db, who: Account, sound: string, toInt: string -> Option<int>, req: Request)
    requires req.user == Some(who) && toInt(sound).Some? && toInt(sound).value >= 0
    requires RemoveFavorite(db, Some(who), Some(sound), toInt).status == 204
    ensures !IsFavorite(RemoveFavorite(db, Some(who), Some(sound), toInt).db, Some(req), toInt(sound).value as nat)
  {
  }

  /** `destroy` on the favourite view set: only the requester's own favourites are found. */
  function DestroyFavorite(db: Db, who: Requester, id: nat): (o: Outcome)
    ensures who.None? ==> o.status == 403
    ensures o.status == 204 <==> who.Some? && exists i | 0 <= i < |db.favorites| ::
                                   db.favorites[i].id == id && db.favorites[i].user == who.value.id
    ensures o.status != 204 ==> o.db == db
    ensures o.status == 204 ==> o.db == db.(favorites := Filter(db.favorites, (f: Favorite) => f.id != id))
  {
    if who.None? then Denied(db, who)
    else
      var uid := who.value.id;
      var mine := Filter(db.favorites, (f: Favorite) => f.user == uid);
      match Find(mine, (f: Favorite) => f.id, id)
      case None => Outcome(404, None, db)
      case Some(k) => Outcome(204, None, db.(favorites := Filter(db.favorites, (f: Favorite) => f.id != id)))
  }

  // ---------------------------------------------------------------------------
  // Tags and sounds

  /**
   * `create` on the tag view set: staff only; the name is required, stripped,
   * non-blank, free of null characters, at most 50 characters and not
   * already a tag's name.
   */
  function CreateTag(db: Db, who: Requester, name: Option<string>): (o: Outcome)
    ensures !Permits(IsAdminUser, who) ==> o.status == 403
    ensures o.status == 201 <==>
              && Permits(IsAdminUser, who) && name.Some?
              && var st := PyStrip(name.value);
              && st != "" && NullFree(st) && |st| <= TagNameMax
              && forall i | 0 <= i < |db.tags| :: db.tags[i].name != st
    ensures Permits(IsAdminUser, who) && name.Some? && PyStrip(name.value) == "" ==>
              o == Refused(db, 400, BlankMsg)
    ensures Permits(IsAdminUser, who) && name.Some? && !NullFree(PyStrip(name.value)) ==>
              o == Refused(db, 400, NullCharsMsg)
    ensures o.status == 201 ==> |o.db.tags| == |db.tags| + 1
    ensures o.status == 201 ==> o.db == db.(tags := db.tags + [o.db.tags[|db.tags|]])
                                && o.db.tags[|db.tags|].name == PyStrip(name.value)
    ensures o.status != 201 ==> o.db == db
    ensures Valid(db) ==> Valid(o.db)
  {
    if !Permits(IsAdminUser, who) then Denied(db, who)
    else if name.None? then Refused(db, 400, RequiredMsg)
    else
      var st := PyStrip(name.value);
      if st == "" then Refused(db, 400, BlankMsg)
      else if !NullFree(st) then Refused(db, 400, NullCharsMsg)
      else if |st| > TagNameMax then Refused(db, 400, TooLongMsg(TagNameMax))
      else if exists i | 0 <= i < |db.tags| :: db.tags[i].name == st then Refused(db, 400, TagNameTakenMsg)
      else
        var t := Tag(NextKey(db.tags, (x: Tag) => x.id), st);
        var r := db.(tags := db.tags + [t]);
        CreateTagKeepsValid(db, t);
        Outcome(201, None, r)
  }

  lemma CreateTagKeepsValid(db: Db, t: Tag)
    requires forall i | 0 <= i < |db.tags| :: db.tags[i].id != t.id && db.tags[i].name != t.name
    requires |t.name| <= TagNameMax
    ensures Valid(db) ==> Valid(db.(tags := db.tags + [t]))
  {
    if Valid(db) {
      AppendUnique(db.tags, t, (x: Tag) => x.id);
      AppendUnique(db.tags, t, (x: Tag) => x.name);
      assert TagIds(db.tags) <= TagIds(db.tags + [t]);
    }
  }

  /** `destroy` on the tag view set: staff only; the tag and its links go. */
  function DestroyTag(db: Db, who: Requester, id: nat): (o: Outcome)
    ensures !Permits(IsAdminUser, who) ==> o.status == 403
    ensures o.status == 204 <==> Permits(IsAdminUser, who) && id in TagIds(db.tags)
    ensures o.status == 204 ==> o.db == DeleteTag(db, id)
    ensures o.status != 204 ==> o.db == db
    ensures Valid(db) ==> Valid(o.db)
  {
    if !Permits(IsAdminUser, who) then Denied(db, who)
    else if id !in TagIds(db.tags) then Outcome(404, None, db)
    else
      if Valid(db) then DeleteTagValid(db, id); Outcome(204, None, DeleteTag(db, id))
      else Outcome(204, None, DeleteTag(db, id))
  }

  /** `destroy` on the sound view set: staff only; the sound, its comments and its favourites go. */
  function DestroySound(db: Db, who: Requester, id: nat): (o: Outcome)
    ensures !Permits(IsAdminUser, who) ==> o.status == 403
    ensures o.status == 204 <==> Permits(IsAdminUser, who) && id in SoundIds(db.sounds)
    ensures o.status == 204 ==> o.db == DeleteSound(db, id)
    ensures o.status != 204 ==> o.db == db
  {
    if !Permits(IsAdminUser, who) then Denied(db, who)
    else if id !in SoundIds(db.sounds) then Outcome(404, None, db)
    else Outcome(204, None, DeleteSound(db, id))
  }
}

=== FILE: wrappers.dfy ===
/** Failure-carrying datatypes shared by every module of the model. */
module Wrappers {

  /** A value that may be absent: `null`/`undefined` on the client, `None` on the server. */
  datatype Option<+T> = None | Some(value: T) {
    function GetOr(default: T): T {
      match this
      case Some(v) => v
      case None => default
    }
  }

  /** The outcome of a step that either produces a value or raises an error. */
  datatype Result<+R, +E> = Success(value: R) | Failure(error: E) {
    predicate IsFailure() {
      Failure?
    }

    function PropagateFailure<U>(): Result<U, E>
      requires Failure?
    {
      Failure(error)
    }

    function Extract(): R
      requires Success?
    {
      value
    }
  }
}
